=== FILE: README.md ===
# miloc-erp purchase orders and invoices, modelled in Dafny

This project models the business layer of miloc-erp. That layer manages
purchase orders (*órdenes de compra*) and the supplier invoices
(*facturas*) billed against them.

- **Store.** The remote Supabase tables are an in-memory store:
  `Store.Db(ordenes, facturas, falla)`. Each table is a sequence of row
  records. While `falla` holds a message, the store is unreachable, and
  every repository call fails with the repository's own prefix and that
  message. This is the thrown `Error` the services catch.
- **Repositories** (`OrdenesRepo`, `FacturasRepo`). Each query is a filter
  plus an ordering over a table. Each write returns the new store. An
  update through `.single()` succeeds only when exactly one row has the id.
- **Validation schemas** (`Schemas`). Each schema is a predicate saying
  which payloads pass, an issue list naming every violated constraint, and
  a defaulting function. A validator passes exactly the payloads meeting
  the predicate. The library's e-mail and UUID checks are parameters
  (`Schemas.Validadores`). Dates are ISO `YYYY-MM-DD` values
  (`Dates.Parse`), compared in calendar order.
- **Services** (`OrdenesServicio`, `FacturasServicio`, with shared parts in
  `Servicio`). They cover:
  - create, update and delete, returning `Salida(db, Exito(datos) | Fallo(errores))`;
  - the status-transition tables;
  - the monthly numbering `OC-YYYYMM-NNN` / `FAC-YYYYMM-NNN`;
  - the accumulated business-rule errors;
  - the delete guards;
  - stamping the payment date on an invoice marked `pagada`;
  - the pending/overdue summary.

  The clock (year, month, today) is a `Servicio.Reloj` parameter. Row ids
  and `creado_en` are parameters too, and a new id must be fresh.
- **Consistency** (`Invariantes`). Ids are unique, and every invoice bills
  an existing purchase order in state `enviada`. Every service operation
  preserves this, with one exception: an invoice update that points the
  invoice at another order. The source never checks that change, and
  `Invariantes.ActualizarFacturaRompeRespaldo` exhibits it.
- **Small helpers.**
  - Storage paths and file checks (`Almacenamiento`).
  - The upload checks and the file-extension extraction (`Subida`).
  - The class-name joiner `cn` (`Clases`).
  - The state-to-badge mapping (`Insignia`).

Two behaviours of the source show up as lemmas.

- **Numbers can repeat after a deletion.** A generated number is the
  month's count of numbers plus one. If an earlier number of the month is
  deleted, the next generated number can be one already in use, and
  creation is then refused as a duplicate.
  `OrdenesServicio.NumeroRepetidoTrasBorrado` and
  `OrdenesServicio.NumeroGeneradoRepetido` show this.
- **Re-stating the current state is allowed.** An update whose state
  equals the current one is not a transition. It is accepted even from a
  final state (`OrdenesServicio.MismoEstadoNoEsTransicion`).

The generic helpers are `Wrappers`, `Seqs` (filter, count, sum, insertion
sort by key), `Text` (trim, case folding, decimal digits, padding, join)
and `Dates`.

## Model

| member | source | states |
|---|---|---|
| OrdenesRepo.ObtenerTodas | app/repositories/ordenes-compra.ts:19-32 | Fails exactly when the store is unreachable, with the "Error al obtener órdenes de compra: " message. Otherwise it returns a permutation of all order rows, newest `creado_en` first. |
| OrdenesRepo.Crear | app/repositories/ordenes-compra.ts:37-51 | Fails exactly when the store is unreachable. Otherwise the store gains exactly one row at the end. The returned row carries the fresh id and the timestamp, and every payload field unchanged: number, supplier name, e-mail, phone, amount, currency, state, dates and notes. |
| OrdenesRepo.Aplicar | app/repositories/ordenes-compra.ts:56-62 | Applying a change set keeps the row's id and `creado_en`. Each of the row's other fields takes the change set's value when it names one, and otherwise keeps its old value. |
| OrdenesRepo.AplicarIdempotente | app/repositories/ordenes-compra.ts:56-62 | Applying the same change set twice equals applying it once. The empty change set changes nothing. |
| OrdenesRepo.ActualizarFilas | app/repositories/ordenes-compra.ts:59-62 | Keeps the table's length. Rows with the id get the changes, and every other row is unchanged. Every position keeps its id and creation stamp. |
| OrdenesRepo.ActualizarFilasConservaIds | app/repositories/ordenes-compra.ts:59-62 | Each id is carried by as many rows after the update as before, and ids that were unique stay unique. |
| OrdenesRepo.Actualizar | app/repositories/ordenes-compra.ts:56-71 | Fails exactly when the store is unreachable or the number of rows with the id is not one (`.single()`). On success, only the row with the id changes, and the returned row is that row after the changes. |
| OrdenesRepo.Eliminar | app/repositories/ordenes-compra.ts:76-87 | Fails exactly when the store is unreachable. Otherwise no row with the id is left, every other row keeps its multiplicity, the invoices are untouched, and distinct ids stay distinct. |
| OrdenesRepo.EliminarAusente | app/repositories/ordenes-compra.ts:76-87 | Deleting an id that is not in the table leaves the store as it was. |
| OrdenesRepo.ObtenerPorEstado | app/repositories/ordenes-compra.ts:92-106 | Returns exactly the rows in that state, with their multiplicities, latest `fecha_orden` first. |
| OrdenesRepo.BuscarPorProveedor | app/repositories/ordenes-compra.ts:111-125 | Returns exactly the rows whose supplier name contains the query ignoring case, with their multiplicities, newest first. |
| OrdenesRepo.CoincideProveedorIff | app/repositories/ordenes-compra.ts:117 | The substring match used by the search holds iff the lower-cased query occurs at some position of the lower-cased supplier name. |
| OrdenesRepo.Buscar | app/services/ordenes-compra.service.ts:79-80 | `find` by id: finds nothing iff no row has the id. Otherwise it returns the FIRST row of the table with that id: no earlier row carries it. |
| FacturasRepo.ObtenerTodas | app/repositories/facturas.ts:24-37 | Fails exactly when the store is unreachable. Otherwise it returns a permutation of all invoice rows, newest `creado_en` first. |
| FacturasRepo.Crear | app/repositories/facturas.ts:63-77 | Fails exactly when the store is unreachable. Otherwise the store gains exactly one invoice row. The row carries the fresh id and every payload field unchanged: number, order reference, seller name, e-mail, phone, amount, currency, state, the three dates and notes. |
| FacturasRepo.Aplicar | app/repositories/facturas.ts:82-88 | Keeps the row's id and `creado_en`. Each of the row's other fields takes the change set's value when it names one, and otherwise keeps its old value. This includes the order reference and the payment date. |
| FacturasRepo.AplicarIdempotente | app/repositories/facturas.ts:82-88 | Applying the same change set twice equals applying it once. The empty change set changes nothing. |
| FacturasRepo.ActualizarFilas | app/repositories/facturas.ts:85-89 | Keeps the table's length and changes only the rows with the id. Every position keeps its id and creation stamp. |
| FacturasRepo.ActualizarFilasConservaIds | app/repositories/facturas.ts:85-89 | Each id is carried by as many invoices after the update as before, and ids that were unique stay unique. |
| FacturasRepo.Actualizar | app/repositories/facturas.ts:82-97 | Fails exactly when the store is unreachable or the number of rows with the id is not one. On success, only the row with the id changes, and the returned row is that row after the changes. |
| FacturasRepo.Eliminar | app/repositories/facturas.ts:102-113 | Fails exactly when the store is unreachable. Otherwise no invoice with the id is left, every other row keeps its multiplicity, the orders are untouched, and distinct ids stay distinct. |
| FacturasRepo.EliminarAusente | app/repositories/facturas.ts:102-113 | Deleting an absent id leaves the store as it was. |
| FacturasRepo.ObtenerPorEstado | app/repositories/facturas.ts:118-132 | Returns exactly the rows in that state, earliest `fecha_vencimiento` first. |
| FacturasRepo.ObtenerPorOrdenCompra | app/repositories/facturas.ts:137-151 | Returns exactly the rows billing that order, latest `fecha_factura` first. |
| FacturasRepo.ObtenerVencidas | app/repositories/facturas.ts:156-172 | Returns exactly the `pendiente` rows due strictly before today, earliest due date first. |
| FacturasRepo.VencimientoOrdenado | app/repositories/facturas.ts:125 | Sorting by the due date's day number orders the rows by calendar due date. |
| FacturasRepo.MarcarComoPagada | app/repositories/facturas.ts:177-196 | Fails exactly when the store is unreachable or the id does not name exactly one row. On success, that row becomes `pagada` with payment date the argument or today, whatever its previous state, and every other row is unchanged. |
| FacturasRepo.Buscar | app/services/facturas.service.ts:80-81 | `find` by id: finds nothing iff no invoice has the id. Otherwise it returns the FIRST invoice of the table with that id: no earlier invoice carries it. |
| Schemas.Falla | app/lib/validations/schemas.ts:12-14 | A single-constraint check reports no issue iff the constraint holds. |
| Schemas.CheckNombre | app/lib/validations/schemas.ts:16-18 | Reports no issue iff the name has 1 to 200 characters. |
| Schemas.CheckMonto | app/lib/validations/schemas.ts:30-32 | Reports no issue iff the amount is strictly positive and at most 999999999.99. |
| Schemas.CheckEnum | app/lib/validations/schemas.ts:5-36 | Reports no issue iff the value is absent (the default applies) or a member of the enum. |
| Schemas.CheckFecha | app/lib/validations/schemas.ts:38-39 | Reports no issue iff the text is a valid date. |
| Schemas.CheckFechaOpcional | app/lib/validations/schemas.ts:41-44 | Reports no issue iff the optional date is absent, `''`, or a valid date. |
| Schemas.IssuesCrearOrdenVacios | app/lib/validations/schemas.ts:11-50 | The create-order schema reports no issue iff every field constraint holds. |
| Schemas.NuevaOrdenDe | app/lib/validations/schemas.ts:12-49 | Builds a valid payload's defaults. A missing number becomes `''`, the currency `CLP` and the state `pendiente`, and the results are enum members. The supplier name, e-mail, phone, amount and notes are the payload's own. The order date is the parsed payload text. The delivery date is absent iff it was absent or `''`, and otherwise it is the parsed text. |
| Schemas.ConDefecto | app/lib/validations/schemas.ts:12-14 | A supplied value is kept. A missing value stays missing iff the library does not fill in defaults inside `.partial()`, and otherwise becomes the default. |
| Schemas.ValidarCrearOrden | app/lib/validations/schemas.ts:11-50 | Succeeds iff the payload meets every constraint, and then yields the defaulted payload. A failure carries at least one issue. |
| Schemas.IssuesCrearOrdenCompletos | app/lib/validations/schemas.ts:12-28 | Each violated constraint among number length, supplier name bounds, e-mail and phone is reported with its own path and message. |
| Schemas.IssuesCrearOrdenCompletosResto | app/lib/validations/schemas.ts:30-49 | Each violated constraint among amount bounds, enums, dates and notes is reported with its own path and message. |
| Schemas.IssuesActualizarOrdenVacios | app/lib/validations/schemas.ts:52 | The partial order schema reports no issue iff every present field meets its constraint. |
| Schemas.OrdenCambiosDe | app/lib/validations/schemas.ts:12-52 | Validated order changes keep every supplied field. A missing number, currency or state is left out, or is filled with `''`, `CLP` and `pendiente` when the library fills in defaults inside `.partial()`. A supplied state or currency is an enum member. A delivery date `''` becomes "clear the date", and a date text becomes the parsed date. |
| Schemas.ValidarActualizarOrden | app/lib/validations/schemas.ts:52 | Succeeds iff every present field is valid, and then yields the validated changes. |
| Schemas.ActualizarOrdenUsaRestriccionesDeCrear | app/lib/validations/schemas.ts:52 | A fully present update is checked with exactly the create schema's issues, so each present field gets the create constraint. |
| Schemas.CheckRefinamiento | app/lib/validations/schemas.ts:101-112 | The due-date refinement reports nothing iff an enum field already failed or the due date is not before the invoice date. The issue is on path `fecha_vencimiento`. |
| Schemas.IssuesCrearFacturaVacios | app/lib/validations/schemas.ts:56-112 | The create-invoice schema reports no issue iff every field constraint and the date refinement hold. |
| Schemas.NuevaFacturaDe | app/lib/validations/schemas.ts:56-112 | A valid invoice payload's defaults are `''`, `CLP` and `pendiente`. The order reference, seller name, e-mail, phone, amount and notes are the payload's own. The invoice and due dates are the parsed payload texts, and the due date is not before the invoice date. The payment date is absent iff it was absent or `''`, and otherwise it is the parsed text. |
| Schemas.ValidarCrearFactura | app/lib/validations/schemas.ts:56-112 | Succeeds iff the payload meets every constraint, and then yields the defaulted invoice. |
| Schemas.IssuesActualizarFacturaVacios | app/lib/validations/schemas.ts:114 | The partial invoice schema reports no issue iff every present field is valid, with the refinement where the schema keeps it. |
| Schemas.FacturaCambiosDe | app/lib/validations/schemas.ts:56-114 | Validated invoice changes keep every supplied field. A missing number, currency or state is left out, or is filled with `''`, `CLP` and `pendiente` when the library fills in defaults inside `.partial()`. The invoice and due dates are parsed. A payment date `''` becomes "clear the date", and a date text becomes the parsed date. |
| Schemas.ValidarActualizarFactura | app/lib/validations/schemas.ts:114 | Succeeds iff the changes are valid, and then yields the validated changes. |
| Schemas.ActualizarFacturaUsaRestriccionesDeCrear | app/lib/validations/schemas.ts:114 | When the partial schema keeps the refinement, a fully present update is checked exactly as the create schema checks the payload. |
| Schemas.ValidarFiltroOrdenes | app/lib/validations/schemas.ts:125-132 | Succeeds iff the state is absent or an order state, `limite` is in 1..100 and `pagina` ≥ 1. The defaults are 20 and 1. |
| Schemas.ValidarFiltroFacturas | app/lib/validations/schemas.ts:134-142 | Succeeds iff the state is absent or an invoice state, `limite` is in 1..100 and `pagina` ≥ 1. The defaults are 20, 1 and `solo_vencidas = false`. |
| Servicio.NumeroDelMes | app/services/ordenes-compra.service.ts:223-225 | A generated number starts with the month prefix and a dash. Below 1000 it is exactly four characters longer than the prefix. |
| Servicio.SufijoEsSiguiente | app/services/ordenes-compra.service.ts:223-225 | The part after the prefix is a run of at least three digits whose value is the month's count plus one. |
| Servicio.PrimerosNumeros | app/services/facturas.service.ts:280-282 | An empty month gets `…-001`, and a month with one number gets `…-002`. |
| Servicio.NumeracionSecuencial | app/services/facturas.service.ts:275-282 | Recording a generated number raises the month's count by one, so consecutive creations get consecutive numbers. |
| OrdenesServicio.TablaTransiciones | app/services/ordenes-compra.service.ts:200-211 | Only `pendiente` has outgoing transitions, only to `enviada` or `cancelada`. Both are final, and an unknown state allows nothing. |
| OrdenesServicio.GenerarNumero | app/services/ordenes-compra.service.ts:213-226 | The generated number is longer than the `OC-YYYYMM` prefix. |
| OrdenesServicio.GenerarNumeroSiguiente | app/services/ordenes-compra.service.ts:213-226 | The generated number is `OC-YYYYMM`, a dash, and at least three digits whose value is one more than the number of rows whose number starts with `OC-YYYYMM`. |
| OrdenesServicio.GenerarNumeroPermutacion | app/services/ordenes-compra.service.ts:218-223 | The generated number depends only on the multiset of rows, not on the order the store returns them in. |
| OrdenesServicio.Violaciones | app/services/ordenes-compra.service.ts:170-198 | Every rule is checked and all violations are collected. The rules are a duplicate number, a delivery date not strictly after the order date (only when one is given), and an amount below 0.01. |
| OrdenesServicio.ReglasNegocio | app/services/ordenes-compra.service.ts:170-198 | Reads the store only for a non-empty number, and fails only when that read fails. Otherwise it returns the violations, with the duplicate check against the stored numbers. |
| OrdenesServicio.ConNumero | app/services/ordenes-compra.service.ts:28-30 | A blank or whitespace-only number is replaced by the generated one, and a non-blank number is kept verbatim. The result is never empty. |
| OrdenesServicio.Insertar | app/services/ordenes-compra.service.ts:36-50 | On a reachable store, it succeeds exactly when the payload breaks no business rule. Otherwise the answer is exactly the list of broken rules, and the store is unchanged. |
| OrdenesServicio.Crear | app/services/ordenes-compra.service.ts:21-67 | A failure leaves the store unchanged with at least one message. A success appends exactly one row, with the given id, the assigned number (unused before), a valid payload, the defaulted state, an amount ≥ 0.01 and a delivery date after the order date. When it succeeds is stated by `CrearTieneExito`. |
| OrdenesServicio.CrearTieneExito | app/services/ordenes-compra.service.ts:21-67 | A creation succeeds exactly when the store is reachable, the payload with its number filled in meets the schema, and it breaks no business rule. A valid payload goes on to the insertion. An invalid one is answered with the schema's issues. |
| OrdenesServicio.PrimeraOrden | app/services/ordenes-compra.service.ts:21-67 | On an empty store, a valid payload with no number and no state, an amount ≥ 0.01 and a later delivery date (if any) is created. It gets the number `OC-YYYYMM-001` and state `pendiente`, and is then the only row. |
| OrdenesServicio.PrimerNumero | app/services/ordenes-compra.service.ts:213-225 | On an empty table, the generated number is the month's prefix followed by `-001`. |
| OrdenesServicio.SinViolaciones | app/services/ordenes-compra.service.ts:170-198 | A valid payload with an amount ≥ 0.01 and a delivery date (if any) after the order date breaks no rule, apart from a possible duplicate number. |
| OrdenesServicio.CrearPreservaNumerosUnicos | app/services/ordenes-compra.service.ts:36-50 | If all order numbers are distinct, they stay distinct after `crear`. |
| OrdenesServicio.NumeroGeneradoRepetido | app/services/ordenes-compra.service.ts:28-42 | When the generated number is already taken, creation with a blank number fails with the duplicate-number error. |
| OrdenesServicio.NumeroRepetidoTrasBorrado | app/services/ordenes-compra.service.ts:219-225 | With only `…-002` left in a month, the generated number is `…-002` again. |
| OrdenesServicio.Escribir | app/services/ordenes-compra.service.ts:93-104 | A state change outside the table fails with the "No se puede cambiar el estado…" message and writes nothing. Otherwise the changes are written to the row with the id. When it succeeds is stated by `EscribirTieneExito`. |
| OrdenesServicio.EscribirTieneExito | app/services/ordenes-compra.service.ts:92-104 | The write succeeds exactly when the store is reachable, exactly one row has the id, and the requested state is none, the current one, or allowed by the table. |
| OrdenesServicio.ActualizarEncontrada | app/services/ordenes-compra.service.ts:90-109 | For the row found: invalid changes or a forbidden transition leave the store unchanged. On success, only that row changes, and it takes the requested state along an allowed transition. The requested state is `pendiente` when none is given and the library fills in defaults. When it succeeds is stated by `EncontradaTieneExito`. |
| OrdenesServicio.EncontradaEscribe | app/services/ordenes-compra.service.ts:89-104 | A successful update of the row found had valid changes, and the new store is the old one with exactly the validated changes applied to the rows with the id. |
| OrdenesServicio.EncontradaTieneExito | app/services/ordenes-compra.service.ts:89-109 | For the row found, the update succeeds exactly when the changes are valid, the store is reachable, exactly one row has the id, and the requested state (defaulted as above) is allowed. |
| OrdenesServicio.SoloNotasSobreEnviada | app/services/ordenes-compra.service.ts:89-104 | Changing only the notes of an `enviada` order fails with "No se puede cambiar el estado de 'enviada' a 'pendiente'", and leaves the store unchanged, when the library fills in defaults inside `.partial()`. Otherwise it succeeds and stores the new notes. |
| OrdenesServicio.EncontradaSoloNotas | app/services/ordenes-compra.service.ts:89-104 | The same outcome, stated for the `enviada` row already found. |
| OrdenesServicio.Actualizar | app/services/ordenes-compra.service.ts:72-119 | An unknown id yields "Orden de compra no encontrada", and every failure leaves the store unchanged. A success is the update of a row with that id. When it succeeds is stated by `ActualizarTieneExito`. |
| OrdenesServicio.ActualizarTieneExito | app/services/ordenes-compra.service.ts:72-109 | For an order `o` with the id, the update succeeds exactly when the store is reachable, no other row has the id, the changes are valid, and the requested state is `o`'s own or allowed from it. |
| OrdenesServicio.ActualizarBusca | app/services/ordenes-compra.service.ts:79-90 | On a reachable store holding the id, the update continues with one of the rows carrying the id. |
| OrdenesServicio.ActualizarEfecto | app/services/ordenes-compra.service.ts:79-104 | After a successful update: the id existed and the changes were valid; the invoices and every other order are unchanged; the updated row keeps its id and takes the new state, either unchanged or along an allowed transition. The state compared is the requested one, defaulted as above. |
| OrdenesServicio.EncontradaEfecto | app/services/ordenes-compra.service.ts:90-104 | The same effect, stated for the row already found. The state compared is the requested one, defaulted as above. |
| OrdenesServicio.UnicaFila | app/repositories/ordenes-compra.ts:62-64 | When exactly one row has the id, every row with the id is the one found. |
| OrdenesServicio.MismoEstadoNoEsTransicion | app/services/ordenes-compra.service.ts:93 | Re-stating `enviada` on a sent order succeeds, because the same state is not a transition. |
| OrdenesServicio.TransicionInvalidaNoEscribe | app/services/ordenes-compra.service.ts:93-100 | A forbidden state change returns exactly the transition error and leaves the store unchanged. |
| OrdenesServicio.CanceladaEsFinal | app/services/ordenes-compra.service.ts:200-211 | Cancelling the only, pending order succeeds and stores `cancelada`. Sending it afterwards fails with "No se puede cambiar el estado de 'cancelada' a 'enviada'". |
| OrdenesServicio.CancelarPendiente | app/services/ordenes-compra.service.ts:72-109 | Cancelling the only, pending order succeeds and writes the cancelled row. |
| OrdenesServicio.EncontradaCancelar | app/services/ordenes-compra.service.ts:89-109 | The same, for the order already found. |
| OrdenesServicio.EnviarCancelada | app/services/ordenes-compra.service.ts:93-100 | Sending the only order, when it is cancelled, fails with the exact transition message. |
| OrdenesServicio.Eliminar | app/services/ordenes-compra.service.ts:131-166 | Deletes only an existing `pendiente` order. An unknown id is "no encontrada", any other state is refused, and a failure writes nothing. With unique ids, it succeeds iff the order exists and is `pendiente`. |
| OrdenesServicio.UnicoPorId | app/services/ordenes-compra.service.ts:137-138 | With unique ids, the row found by id is the only row with that id. |
| FacturasServicio.TablaTransiciones | app/services/facturas.service.ts:260-268 | Transitions only go forward along `pendiente` → `enviada` → `pagada` between enum states, so `pagada` is final. `pagada` is reachable exactly from `pendiente` and `enviada`. |
| FacturasServicio.GenerarNumero | app/services/facturas.service.ts:270-283 | The generated number is longer than the `FAC-YYYYMM` prefix. |
| FacturasServicio.GenerarNumeroSiguiente | app/services/facturas.service.ts:270-283 | The generated number is `FAC-YYYYMM`, a dash, and at least three digits whose value is one more than the number of invoices whose number starts with `FAC-YYYYMM`. |
| FacturasServicio.GenerarNumeroPermutacion | app/services/facturas.service.ts:275-280 | The generated number depends only on the multiset of invoices. |
| FacturasServicio.Violaciones | app/services/facturas.service.ts:219-258 | All violations are collected: a duplicate number, a missing order, an order not `enviada` (only when found), a due date not strictly after the invoice date, and an amount below 0.01. |
| FacturasServicio.OrdenReferida | app/services/facturas.service.ts:232-233 | Finds nothing iff no order has the id; otherwise it returns that order from the store. |
| FacturasServicio.ReglasNegocio | app/services/facturas.service.ts:219-258 | Fails exactly when the store is unreachable. Otherwise it returns the violations over the stored invoices and the referenced order. A missing order gives only the "does not exist" error, never also the state error, and each remaining error appears exactly when its rule is broken. |
| FacturasServicio.ConNumero | app/services/facturas.service.ts:29-31 | A blank or whitespace-only number becomes `FAC-YYYYMM-NNN`, and a non-blank one is kept verbatim. |
| FacturasServicio.Insertar | app/services/facturas.service.ts:37-51 | On a reachable store, it succeeds exactly when the invoice breaks no business rule. Otherwise the answer is exactly the list of broken rules. The inserted invoice bills an existing `enviada` order, is due strictly after its invoice date, and has an amount ≥ 0.01. |
| FacturasServicio.Registrar | app/services/facturas.service.ts:34-51 | Validation, then the business rules, then the insertion. A success implies a valid payload and inserts that payload's row. When it succeeds is stated by `CrearTieneExito`. |
| FacturasServicio.Crear | app/services/facturas.service.ts:22-68 | A failure leaves the store unchanged. A success appends exactly one invoice, with the assigned number (unused before) and a valid payload. The invoice bills a sent order, its due date is after its invoice date, its amount is ≥ 0.01, and its state is defaulted. When it succeeds is stated by `CrearTieneExito`. |
| FacturasServicio.CrearTieneExito | app/services/facturas.service.ts:22-68 | A creation succeeds exactly when the store is reachable, the payload with its number filled in meets the schema, and it breaks no business rule. A valid payload goes on to the insertion. An invalid one is answered with the schema's issues. |
| FacturasServicio.FacturaValidaSeCrea | app/services/facturas.service.ts:22-68 | A valid invoice with a fresh number is created with that number, its order reference and its state. It must bill an existing order whose rows are all `enviada`, have a due date after the invoice date, and have an amount ≥ 0.01. |
| FacturasServicio.FechasIgualesRechazadas | app/services/facturas.service.ts:245-250 | Equal invoice and due dates pass the schema but are rejected by the business rules. |
| FacturasServicio.OrdenInexistenteSolo | app/services/facturas.service.ts:232-242 | A payload billing a missing order fails with "does not exist" and without the state error. |
| FacturasServicio.SellarPago | app/services/facturas.service.ts:104-107 | A change to `pagada` without a payment date, or with `''`, gets today's date. Every other change set is untouched, and only the payment date can differ. |
| FacturasServicio.UnicaFila | app/repositories/facturas.ts:88-90 | When exactly one invoice has the id, every row with the id is the one found. |
| FacturasServicio.Escribir | app/services/facturas.service.ts:94-110 | A forbidden state change fails with the transition error and writes nothing. Otherwise it writes the stamped changes, and a change to `pagada` leaves the row with today's date when none was given. When it succeeds is stated by `EscribirTieneExito`. |
| FacturasServicio.EscribirTieneExito | app/services/facturas.service.ts:93-110 | The write succeeds exactly when the store is reachable, exactly one row has the id, and the requested state is none, the current one, or allowed by the table. |
| FacturasServicio.ActualizarEncontrada | app/services/facturas.service.ts:91-115 | For the invoice found: failures leave the store unchanged. On success, only that row changes, taking the requested state along an allowed transition and the new order reference. The requested state is `pendiente` when none is given and the library fills in defaults. A change to `pagada` carries the given date, or today's. When it succeeds is stated by `EncontradaTieneExito`. |
| FacturasServicio.EncontradaEscribe | app/services/facturas.service.ts:91-110 | A successful update of the invoice found had valid changes, and the new store is the old one with exactly the validated changes, stamped with the payment date, applied to the rows with the id. |
| FacturasServicio.EncontradaTieneExito | app/services/facturas.service.ts:91-115 | For the invoice found, the update succeeds exactly when the changes are valid, the store is reachable, exactly one row has the id, and the requested state (defaulted as above) is allowed. |
| FacturasServicio.Actualizar | app/services/facturas.service.ts:73-125 | An unknown id yields "Factura no encontrada", and every failure leaves the store unchanged. A success is the update of an invoice with that id. When it succeeds is stated by `ActualizarTieneExito`. |
| FacturasServicio.ActualizarTieneExito | app/services/facturas.service.ts:73-115 | For an invoice `f` with the id, the update succeeds exactly when the store is reachable, no other row has the id, the changes are valid, and the requested state is `f`'s own or allowed from it. |
| FacturasServicio.ActualizarBusca | app/services/facturas.service.ts:80-91 | On a reachable store holding the id, the update continues with one of the invoices carrying the id. |
| FacturasServicio.ActualizarEfecto | app/services/facturas.service.ts:80-110 | After a successful update: the id existed and the changes were valid; the orders and every other invoice are unchanged; the updated invoice keeps its id and takes the new state (unchanged or along an allowed transition) and order reference. The state compared is the requested one, defaulted as above. |
| FacturasServicio.EncontradaEfecto | app/services/facturas.service.ts:91-110 | The same effect, stated for the invoice already found. The state compared is the requested one, defaulted as above. |
| FacturasServicio.ActualizarSellaPago | app/services/facturas.service.ts:104-107 | An update to `pagada` leaves the invoice with the supplied payment date, or today's when it is absent or `''`. |
| FacturasServicio.MarcarComoPagada | app/services/facturas.service.ts:130-139 | Is exactly the update to `pagada` with the given date or today. On success, the invoice is `pagada` with that date, and it was `pagada` already or reached it along an allowed transition. When it succeeds is stated by `MarcarComoPagadaTieneExito`. |
| FacturasServicio.MarcarComoPagadaTieneExito | app/services/facturas.service.ts:130-139 | For an invoice `f` with the id, marking it paid succeeds exactly when the store is reachable, no other row has the id, the payment date given (if any) is a date, and `f` is `pendiente`, `enviada` or already `pagada`. |
| FacturasServicio.CambiosPagoValidos | app/services/facturas.service.ts:135-138 | The changes sent when marking as paid ask for `pagada`, and are valid exactly when the payment date given (if any) is a date. |
| FacturasServicio.MarcarComoPagadaNumeroYMoneda | app/services/facturas.service.ts:130-139 | After a successful mark as paid, the invoice's number and currency are reset to `''` and `CLP` when the library fills in defaults inside `.partial()`, and are kept otherwise. |
| FacturasServicio.Eliminar | app/services/facturas.service.ts:181-215 | Refuses only missing ids and `pagada` invoices, so `pendiente` and `enviada` invoices can be deleted, and a failure writes nothing. With unique ids, it succeeds iff the invoice exists and is not `pagada`. |
| FacturasServicio.UnicoPorId | app/services/facturas.service.ts:186-187 | With unique ids, the invoice found by id is the only row with that id. |
| FacturasServicio.ObtenerResumenPendientes | app/services/facturas.service.ts:158-176 | Fails exactly when the store is unreachable. It returns the count and amount sum of the `pendiente` invoices, and of the `pendiente` invoices due strictly before today. |
| FacturasServicio.ResumenAcotado | app/services/facturas.service.ts:170-175 | The overdue count never exceeds the pending count. With non-negative amounts, the overdue amount never exceeds the pending amount. |
| Invariantes.CrearOrdenPreserva | app/services/ordenes-compra.service.ts:21-67 | Creating an order keeps ids unique and every invoice backed by a sent order. |
| Invariantes.ActualizarOrdenPreserva | app/services/ordenes-compra.service.ts:93-104 | Updating an order keeps the store consistent, because a sent order can never change state. |
| Invariantes.EliminarOrdenPreserva | app/services/ordenes-compra.service.ts:147-154 | Deleting an order keeps the store consistent, because only `pendiente` orders can be deleted and invoices only bill sent ones. |
| Invariantes.CrearFacturaPreserva | app/services/facturas.service.ts:36-46 | Creating an invoice keeps the store consistent, because the new invoice bills a sent order. |
| Invariantes.ActualizarFacturaPreserva | app/services/facturas.service.ts:73-125 | Updating an invoice without naming another order keeps the store consistent. |
| Invariantes.MarcarComoPagadaPreserva | app/services/facturas.service.ts:130-139 | Marking an invoice paid keeps the store consistent. |
| Invariantes.EliminarFacturaPreserva | app/services/facturas.service.ts:181-215 | Deleting an invoice keeps the store consistent. |
| Invariantes.ActualizarFacturaRompeRespaldo | app/services/facturas.service.ts:91-110 | An update that restates the invoice's state and points it at another well-formed id is accepted, and leaves a consistent store inconsistent. |
| Almacenamiento.Carpeta | app/lib/supabase/storage.ts:98 | Each document type's folder is non-empty and contains neither `/` nor `.`. |
| Almacenamiento.GenerarRutaArchivo | app/lib/supabase/storage.ts:97-104 | The path is the folder, `/`, the document number, `_`, the timestamp's decimal digits, `.` and the extension (`pdf` by default), and has exactly the length of those parts. |
| Almacenamiento.ExtensionDeRuta | app/lib/supabase/storage.ts:100-103 | The text after the path's last `.` is the extension given, or `pdf` by default. |
| Almacenamiento.RutaDeterminaTipo | app/lib/supabase/storage.ts:98-103 | Two equal paths come from the same document type. |
| Almacenamiento.RutaDeterminaDocumento | app/lib/supabase/storage.ts:97-104 | For a fixed type and extension, two equal paths come from the same document number and the same timestamp. |
| Almacenamiento.ValidarTamanoArchivo | app/lib/supabase/storage.ts:110-113 | With no limit given, a file passes iff it has at most 10485760 bytes. |
| Almacenamiento.TamanoMonotono | app/lib/supabase/storage.ts:110-113 | Raising the limit never rejects a file that passed, and a size equal to the limit passes. |
| Subida.ChequeosCoinciden | app/lib/services/ocr.service.ts:4-22 | `esPDF` agrees with `obtenerTipoArchivo`, and no file is both a PDF and an image. `esArchivoValido` holds iff exactly one of the two does. `validarTamano` agrees with `validarTamanoArchivo`. |
| Subida.ValidarTamano | app/lib/services/ocr.service.ts:19-22 | With no limit given, a file passes iff it has at most 10485760 bytes. A file of exactly `m` × 1048576 bytes passes the limit `m`. A negative limit admits nothing, and a limit of 0 admits only the empty file. |
| Subida.LimiteMonotono | app/lib/services/ocr.service.ts:19-22 | Raising the limit never rejects a file that passed, and a file no larger than one that passes also passes. |
| Subida.ObtenerInfoArchivo | app/lib/services/ocr.service.ts:25-31 | Name, size and type are copied unchanged. The extension is the lower-cased text after the last `.`, which the name has just before it. A name without `.` gives the whole name lower-cased, and a trailing `.` gives `''`. |
| Subida.ExtensionDeDocumento | app/lib/services/ocr.service.ts:30 | The extension read back from a generated storage path is the lower-cased extension it was built with. |
| Clases.CnVacioSiFiltroVacio | app/lib/utils/cn.ts:5-9 | `cn` gives `""` iff no argument survives the truthiness filter. |
| Clases.CnUno | app/lib/utils/cn.ts:5-9 | A single argument is rendered when it is truthy and dropped otherwise. |
| Clases.CnConcat | app/lib/utils/cn.ts:5-9 | `cn` of two argument lists joins their results with a single space, skipping an empty side. |
| Clases.CnIgnoraFalsos | app/lib/utils/cn.ts:7 | Inserting `''`, `false`, `null` or `undefined` anywhere does not change the result. |
| Clases.CnVacio | app/lib/utils/cn.ts:6-8 | The result is `""` iff every argument is falsy. |
| Clases.CnSoloFalsos | app/lib/utils/cn.ts:7 | The four-element list `null`, `undefined`, `false`, `''` gives `""`. This is one example; the general fact is `CnVacio`. |
| Clases.CnContiene | app/lib/utils/cn.ts:6-8 | Every truthy argument, wherever it stands in the list, is written out as a substring of the result. |
| Clases.CnCasos | app/lib/utils/cn.ts:7-8 | A non-empty string alone gives itself, `true` gives `"true"`, and falsy arguments between two strings are skipped. |
| Insignia.GetEstadoBadgeProps | app/components/ui/Badge.tsx:44-58 | The variant is `default` iff the state is not one of the four known states, and then the label is the state itself. The variant is never `outline`. Each colour belongs to exactly one state: `warning` to `pendiente`, `info` to `enviada`, `danger` to `cancelada` and `success` to `pagada`. |
| Insignia.EtiquetaEsEstado | app/components/ui/Badge.tsx:47-52 | The label equals the state ignoring case. For a known state, it is the state with its first letter capitalised. |
| Insignia.VariantesDistintas | app/components/ui/Badge.tsx:47-52 | Different known states get different variants. |

## Left out

- **I/O and asynchrony.** The Supabase client calls, the `async`/`await`
  sequencing, and the race between two concurrent creations that generate
  the same number are not modelled. The store is a value, and each service
  call is one atomic step.
- **The clock.** `new Date()`, `Date.now()` and `toISOString` are the
  `Reloj` parameter (local year and month, UTC today) and the `timestamp`
  parameter.
- **Library validators.** Zod's e-mail regex and UUID regex are the
  `Validadores` parameters.
- **Date parsing.** `Date.parse` accepts many formats; the model accepts
  only ISO `YYYY-MM-DD` calendar dates (`Dates.Parse`).
- **The partial schemas.** Two behaviours of `.partial()` depend on the
  zod version, and each is a flag of `Validadores`.
  - Whether `ActualizarFacturaSchema` keeps the date-order refinement is
    `refinaParcial`.
  - Whether the fields' `.default()` values still fill in missing number,
    currency and state is `defectosParciales`. With defaults, an update
    that names no state asks for `pendiente`, and a mark as paid resets
    the number and currency.
- **Validation failure messages.**
  - A zod failure is a `ZodError` whose message is the JSON list of
    issues. The model joins the issue messages with `"; "`.
  - For a bad enum value, the model's message is zod's generic
    "Invalid enum value" without the received value.
- **Amounts.** Amounts are exact `real` numbers. IEEE rounding in
  `monto_total` and in the summary sums is not modelled.
- **String handling.** Case folding is ASCII only. `ilike` wildcard
  characters (`%`, `_`) in a supplier query are taken literally.
- **The badge lookup.** Property names that every object has, such as
  `constructor`, are not modelled. They are ordinary unknown states here.
- **Optional dates sent as `''`.** An optional delivery or payment date
  sent as `''` is stored as absent (`None`). The source sends `''` on to
  the database. An e-mail, phone or notes field sent as `''` is kept as
  `''`, as in the source.
- **String lengths.** A string is a sequence of Unicode scalar values, so
  the length limits count characters. Zod counts UTF-16 code units, so a
  character outside the Basic Multilingual Plane counts twice there and
  once here. For example, 150 emoji pass the 200-character name limit here,
  while zod rejects them as 300 units.
- **The caller's payload is written to.** When the number is blank,
  `crear` stores the generated number into the caller's own object before
  validating and inserting. The model treats the payload as a value, so
  this write is not visible. In the source, after a failed creation the
  caller's object keeps the generated number, and a resubmission of the
  same object sends it as a caller-supplied number. That number is then
  checked for uniqueness instead of being generated again.
- **Row ids and `creado_en`.** The database generates them; here they are
  parameters, and a new id must be fresh.
- **Ties in orderings.** The database's order among rows with equal sort
  keys is unspecified. The queries' contracts state the multiset of rows
  and the ordering, not the tie order.
- **Unmodelled operations.** `FacturasRepository.obtenerTodasConOrden`
  (a join used only by the admin screens) and the services' one-line
  pass-throughs (`obtenerTodas`, `obtenerVencidas`,
  `obtenerPorOrdenCompra`) are not modelled separately. The repository
  functions they return are.
- FacturasRepo.MarcarComoPagada: the payment date argument is taken as an
  already-parsed date. The source writes whatever string it is given.
- FacturasServicio.MarcarComoPagada: requires today's date to be a real
  calendar date, which the clock always supplies.
- OrdenesServicio.GenerarNumero: its own contract states only the length.
  The format and the sequence value over the rows read are stated by
  `OrdenesServicio.GenerarNumeroSiguiente`.
- FacturasServicio.GenerarNumero: the same as for orders, stated by
  `FacturasServicio.GenerarNumeroSiguiente`.
- Almacenamiento.ValidarTamanoArchivo: its own contract states only the
  default limit. The general comparison is stated through
  `Subida.ChequeosCoinciden`, `Subida.ValidarTamano`,
  `Subida.LimiteMonotono` and `Almacenamiento.TamanoMonotono`.
- **Service error on a thrown non-`Error` value.** The fallback messages
  ("Error desconocido…") cannot arise here. Every failure in the model
  carries a message.
- **Singular updates.** A repository update through `.single()` whose id
  matches no row or several rows fails. The model takes it that nothing is
  written in that case.

=== FILE: almacenamiento.dfy ===
/** The pure helpers of the document storage: the object path of an
    uploaded document, the PDF test and the size limit. */
module Almacenamiento {
  import opened Wrappers
  import Text

  /** A browser `File`: its name, its size in bytes and its MIME type. */
  datatype Archivo = Archivo(nombre: string, tamano: nat, tipo: string)

  /** The three document folders of the bucket. */
  datatype TipoDocumento = Facturas | OrdenesCompra | Cotizaciones

  function Carpeta(t: TipoDocumento): (r: string)
    ensures |r| > 0 && '/' !in r && '.' !in r
  {
    match t
    case Facturas => "facturas"
    case OrdenesCompra => "ordenes_compra"
    case Cotizaciones => "cotizaciones"
  }

  const ExtensionPorDefecto := "pdf"
  const TipoPdf := "application/pdf"
  const LimitePorDefectoMB: real := 10.0
  const BytesPorMB: real := 1048576.0

  /** `generarRutaArchivo(tipo, numeroDocumento, extension = 'pdf')`, with
      the `Date.now()` timestamp as a parameter:
      `tipo/numeroDocumento_timestamp.extension`. */
  function GenerarRutaArchivo(tipo: TipoDocumento, numeroDocumento: string, timestamp: nat,
                              extension: Option<string>): (r: string)
    ensures Text.StartsWith(r, Carpeta(tipo) + "/")
    ensures |r| == |Carpeta(tipo)| + |numeroDocumento| + |Text.NatToString(timestamp)| + |extension.GetOr(ExtensionPorDefecto)| + 3
    ensures r[|r| - |extension.GetOr(ExtensionPorDefecto)|..] == extension.GetOr(ExtensionPorDefecto)
    ensures r[|r| - |extension.GetOr(ExtensionPorDefecto)| - 1] == '.'
    ensures r[|Carpeta(tipo)| + 1..|Carpeta(tipo)| + 1 + |numeroDocumento|] == numeroDocumento
    ensures r[|Carpeta(tipo)| + 1 + |numeroDocumento|] == '_'
    ensures r[|Carpeta(tipo)| + 2 + |numeroDocumento|..|r| - |extension.GetOr(ExtensionPorDefecto)| - 1]
            == Text.NatToString(timestamp)
  {
    var carpeta := Carpeta(tipo) + "/";
    var sello := Text.NatToString(timestamp);
    var ext := extension.GetOr(ExtensionPorDefecto);
    var r := carpeta + numeroDocumento + "_" + sello + "." + ext;
    assert r[..|carpeta|] == carpeta;
    assert r[|carpeta|..|carpeta| + |numeroDocumento|] == numeroDocumento;
    assert r[|carpeta| + |numeroDocumento| + 1..|r| - |ext| - 1] == sello;
    r
  }

  /** The middle of a path, between the folder's `/` and the extension's
      dot: the document number, `_`, and the timestamp's digits. */
  function Medio(tipo: TipoDocumento, r: string, extension: Option<string>): string
    requires |Carpeta(tipo)| + 1 <= |r| - |extension.GetOr(ExtensionPorDefecto)| - 1
  {
    r[|Carpeta(tipo)| + 1..|r| - |extension.GetOr(ExtensionPorDefecto)| - 1]
  }

  /** For one folder and one extension, the path determines the document
      number and the timestamp: the timestamp is the digit run after the
      last `_`, and the number is what precedes it. */
  lemma RutaDeterminaDocumento(tipo: TipoDocumento, n1: string, n2: string, ts1: nat, ts2: nat,
                               extension: Option<string>)
    requires GenerarRutaArchivo(tipo, n1, ts1, extension) == GenerarRutaArchivo(tipo, n2, ts2, extension)
    ensures n1 == n2 && ts1 == ts2
  {
    MedioDe(tipo, n1, ts1, extension);
    MedioDe(tipo, n2, ts2, extension);
    SinGuion(Text.NatToString(ts1));
    SinGuion(Text.NatToString(ts2));
    PartirPorUltimo(n1, Text.NatToString(ts1), n2, Text.NatToString(ts2));
    Text.NatToStringRoundTrip(ts1);
    Text.NatToStringRoundTrip(ts2);
  }

  /** `a + "_" + x` splits uniquely at its last `_` when `x` has none. */
  lemma PartirPorUltimo(a1: string, x1: string, a2: string, x2: string)
    requires a1 + "_" + x1 == a2 + "_" + x2 && '_' !in x1 && '_' !in x2
    ensures a1 == a2 && x1 == x2
  {
    var m := a1 + "_" + x1;
    AfterLastSufijo(m, x1, '_');
    AfterLastSufijo(a2 + "_" + x2, x2, '_');
    assert a1 == m[..|a1|];
  }

  /** The middle of a generated path is the number, `_` and the
      timestamp. */
  lemma MedioDe(tipo: TipoDocumento, n: string, ts: nat, extension: Option<string>)
    ensures Medio(tipo, GenerarRutaArchivo(tipo, n, ts, extension), extension) == n + "_" + Text.NatToString(ts)
  {
    var r := GenerarRutaArchivo(tipo, n, ts, extension);
    var k := |Carpeta(tipo)| + 1;
    var fin := |r| - |extension.GetOr(ExtensionPorDefecto)| - 1;
    var sello := Text.NatToString(ts);
    var m := Medio(tipo, r, extension);
    var esperado := n + "_" + sello;
    assert |m| == |esperado|;
    forall i | 0 <= i < |m|
      ensures m[i] == esperado[i]
    {
      assert m[i] == r[k + i];
      if i < |n| {
        assert r[k..k + |n|][i] == r[k + i];
      } else if i > |n| {
        assert r[k + |n| + 1..fin][i - |n| - 1] == r[k + i];
      }
    }
  }

  /** A run of digits has no `_`. */
  lemma SinGuion(s: string)
    requires Text.AllDigits(s)
    ensures '_' !in s
  {
    assert forall i | 0 <= i < |s| :: s[i] != '_';
  }

  /** The text after the path's last dot is the extension, when the
      extension has no dot of its own; without one it is `pdf`. */
  lemma ExtensionDeRuta(tipo: TipoDocumento, numeroDocumento: string, timestamp: nat, extension: Option<string>)
    requires '.' !in extension.GetOr(ExtensionPorDefecto)
    ensures Text.AfterLast(GenerarRutaArchivo(tipo, numeroDocumento, timestamp, extension), '.')
            == extension.GetOr(ExtensionPorDefecto)
    ensures extension.None? ==>
      Text.AfterLast(GenerarRutaArchivo(tipo, numeroDocumento, timestamp, extension), '.') == "pdf"
  {
    var r := GenerarRutaArchivo(tipo, numeroDocumento, timestamp, extension);
    AfterLastSufijo(r, extension.GetOr(ExtensionPorDefecto), '.');
  }

  /** When `s` ends in `c` followed by a `c`-free `e`, the last piece of
      `s.split(c)` is `e`. */
  lemma {:induction false} AfterLastSufijo(s: string, e: string, c: char)
    requires c !in e && |s| > |e| && s[|s| - |e|..] == e && s[|s| - |e| - 1] == c
    ensures Text.AfterLast(s, c) == e
  {
    if |e| > 0 {
      var s' := s[..|s| - 1];
      var e' := e[..|e| - 1];
      assert s[|s| - 1] == e[|e| - 1];
      assert s'[|s'| - |e'|..] == e';
      assert e[|e| - 1] in e;
      AfterLastSufijo(s', e', c);
      assert e == e' + [s[|s| - 1]];
    }
  }

  /** Different folders never produce the same path. */
  lemma RutaDeterminaTipo(t1: TipoDocumento, t2: TipoDocumento, n1: string, n2: string, ts1: nat, ts2: nat,
                          e1: Option<string>, e2: Option<string>)
    requires GenerarRutaArchivo(t1, n1, ts1, e1) == GenerarRutaArchivo(t2, n2, ts2, e2)
    ensures t1 == t2
  {
    var r := GenerarRutaArchivo(t1, n1, ts1, e1);
    assert r[0] == Carpeta(t1)[0] && r[0] == Carpeta(t2)[0];
  }

  /** `obtenerTipoArchivo`: whether the file is a PDF. */
  predicate ObtenerTipoArchivo(archivo: Archivo) {
    archivo.tipo == TipoPdf
  }

  /** `validarTamanoArchivo(archivo, maxSizeMB = 10)`: the size, the limit
      included, is within the given number of megabytes. */
  function ValidarTamanoArchivo(archivo: Archivo, maxSizeMB: Option<real>): (r: bool)
    ensures maxSizeMB.None? ==> (r <==> archivo.tamano <= 10485760)
  {
    archivo.tamano as real <= maxSizeMB.GetOr(LimitePorDefectoMB) * BytesPorMB
  }

  /** A file within a limit is within every larger limit, and a file of
      exactly the limit passes. */
  lemma TamanoMonotono(archivo: Archivo, m1: real, m2: real)
    requires m1 <= m2
    ensures ValidarTamanoArchivo(archivo, Some(m1)) ==> ValidarTamanoArchivo(archivo, Some(m2))
    ensures archivo.tamano as real == m1 * BytesPorMB ==> ValidarTamanoArchivo(archivo, Some(m1))
  {
  }
}

=== FILE: clases.dfy ===
/** `cn(...classes)`: the CSS class list of a component built from
    conditional pieces, keeping the truthy ones and separating them with a
    space. */
module Clases {
  import Text
  import Seqs

  /** An argument of `cn`: a string, a boolean, `null` or `undefined`. */
  datatype Clase = Texto(s: string) | Booleano(b: bool) | Nulo | Indefinido

  /** JavaScript's `Boolean(x)`: a non-empty string or `true`. */
  predicate Veraz(c: Clase) {
    match c
    case Texto(s) => s != ""
    case Booleano(b) => b
    case _ => false
  }

  /** How `join` writes an argument down. */
  function Cadena(c: Clase): (r: string)
    ensures Veraz(c) ==> r != ""
  {
    match c
    case Texto(s) => s
    case Booleano(b) => if b then "true" else "false"
    case _ => ""
  }

  function Cadenas(cs: seq<Clase>): (r: seq<string>)
    ensures |r| == |cs|
  {
    seq(|cs|, i requires 0 <= i < |cs| => Cadena(cs[i]))
  }

  /** `classes.filter(Boolean).join(' ')` */
  function Cn(clases: seq<Clase>): string {
    Text.Join(Cadenas(Seqs.Filter(clases, Veraz)), " ")
  }

  /** A join of non-empty parts is empty only when there are no parts. */
  lemma JoinVacio(partes: seq<string>, sep: string)
    requires forall i | 0 <= i < |partes| :: partes[i] != ""
    ensures Text.Join(partes, sep) == "" <==> |partes| == 0
  {
    if |partes| > 1 {
      assert |Text.Join(partes, sep)| >= |partes[0]|;
    }
  }

  /** The empty-or-not shape of a class list: empty exactly when no
      argument is truthy. */
  lemma CnVacioSiFiltroVacio(clases: seq<Clase>)
    ensures Cn(clases) == "" <==> |Seqs.Filter(clases, Veraz)| == 0
  {
    var f := Seqs.Filter(clases, Veraz);
    JoinVacio(Cadenas(f), " ");
  }

  /** One argument: itself when truthy, nothing otherwise. */
  lemma CnUno(c: Clase)
    ensures Cn([c]) == if Veraz(c) then Cadena(c) else ""
  {
    assert [c][1..] == [];
  }

  /** The class list of two runs of arguments is the two lists joined by a
      space, or whichever one is non-empty. */
  lemma CnConcat(a: seq<Clase>, b: seq<Clase>)
    ensures Cn(a + b) ==
      if Cn(a) == "" then Cn(b) else if Cn(b) == "" then Cn(a) else Cn(a) + " " + Cn(b)
  {
    var fa, fb := Seqs.Filter(a, Veraz), Seqs.Filter(b, Veraz);
    Seqs.FilterAppend(a, b, Veraz);
    CadenasAppend(fa, fb);
    Text.JoinAppend(Cadenas(fa), Cadenas(fb), " ");
    CnVacioSiFiltroVacio(a);
    CnVacioSiFiltroVacio(b);
  }

  lemma CadenasAppend(a: seq<Clase>, b: seq<Clase>)
    ensures Cadenas(a + b) == Cadenas(a) + Cadenas(b)
  {
  }

  /** An empty string, `false`, `null` or `undefined` anywhere in the list
      changes nothing. */
  lemma CnIgnoraFalsos(a: seq<Clase>, c: Clase, b: seq<Clase>)
    requires !Veraz(c)
    ensures Cn(a + [c] + b) == Cn(a + b)
  {
    CnConcat(a, [c]);
    CnUno(c);
    assert Cn(a + [c]) == Cn(a) by {
      if Cn(a) == "" {
        assert Cn(a + [c]) == Cn([c]);
      }
    }
    CnConcat(a + [c], b);
    CnConcat(a, b);
  }

  /** The class string is empty exactly when no argument is truthy. */
  lemma {:induction false} CnVacio(clases: seq<Clase>)
    ensures Cn(clases) == "" <==> forall i | 0 <= i < |clases| :: !Veraz(clases[i])
  {
    if |clases| > 0 {
      assert clases == [clases[0]] + clases[1..];
      CnConcat([clases[0]], clases[1..]);
      CnUno(clases[0]);
      CnVacio(clases[1..]);
      assert forall i | 1 <= i < |clases| :: clases[i] == clases[1..][i - 1];
    } else {
      assert Seqs.Filter(clases, Veraz) == [];
    }
  }

  /** This four-element list of falsy arguments (`null`, `undefined`,
      `false` and `''`) gives `""`. */
  lemma CnSoloFalsos()
    ensures Cn([Nulo, Indefinido, Booleano(false), Texto("")]) == ""
  {
    var l := [Nulo, Indefinido, Booleano(false), Texto("")];
    assert forall i | 0 <= i < |l| :: !Veraz(l[i]);
    CnVacio(l);
  }

  /** Every truthy argument is written out in the class string. */
  lemma CnContiene(a: seq<Clase>, c: Clase, b: seq<Clase>)
    requires Veraz(c)
    ensures Text.Contains(Cn(a + [c] + b), Cadena(c))
  {
    var x := TerminaEn(a, c);
    CnConcat(a + [c], b);
    var t := Cn(a + [c] + b);
    assert t[..|x|] == x by {
      if Cn(b) != "" {
        assert t == x + " " + Cn(b);
      }
    }
    var u := Cadena(c);
    SufijoDelPrefijo(t, x, u);
    assert Text.OccursAt(t, u, |x| - |u|);
    Text.ContainsIff(t, u);
  }

  /** The class string of a run ending in a truthy argument ends with it. */
  lemma TerminaEn(a: seq<Clase>, c: Clase) returns (x: string)
    requires Veraz(c)
    ensures x == Cn(a + [c]) && x != ""
    ensures |Cadena(c)| <= |x| && x[|x| - |Cadena(c)|..] == Cadena(c)
  {
    CnConcat(a, [c]);
    CnUno(c);
    x := Cn(a + [c]);
  }

  lemma SufijoDelPrefijo(t: string, x: string, u: string)
    requires |u| <= |x| <= |t| && t[..|x|] == x && x[|x| - |u|..] == u
    ensures t[|x| - |u|..|x|] == u
  {
    assert forall i | |x| - |u| <= i < |x| :: t[i] == x[i];
  }

  /** A lone non-empty string gives itself, a lone `true` is written
      `true`, and a `false` between two classes disappears. */
  lemma CnCasos(s: string)
    requires s != ""
    ensures Cn([Texto(s)]) == s
    ensures Cn([Booleano(true)]) == "true"
    ensures Cn([Texto(s), Booleano(false), Texto(s)]) == s + " " + s
  {
    CnUno(Texto(s));
    CnUno(Booleano(true));
    var a, b := [Texto(s)], [Texto(s)];
    CnIgnoraFalsos(a, Booleano(false), b);
    CnConcat(a, b);
    assert a + [Booleano(false)] + b == [Texto(s), Booleano(false), Texto(s)];
  }
}

=== FILE: dates.dfy ===
/** Calendar dates as the application stores and compares them: ISO
    `YYYY-MM-DD` text, parsed into a (year, month, day) value and compared in
    calendar order. */
module Dates {
  import opened Wrappers
  import Text

  type Month = m: int | 1 <= m <= 12 witness 1
  type Day = d: int | 1 <= d <= 31 witness 1

  datatype Date = Date(year: int, month: Month, day: Day)

  predicate IsLeapYear(y: int) {
    y % 4 == 0 && (y % 100 != 0 || y % 400 == 0)
  }

  function DaysInMonth(y: int, m: Month): Day {
    if m == 2 then (if IsLeapYear(y) then 29 else 28)
    else if m == 4 || m == 6 || m == 9 || m == 11 then 30
    else 31
  }

  /** A real calendar day whose year has the four digits of the ISO form. */
  predicate Valid(d: Date) {
    0 <= d.year <= 9999 && d.day <= DaysInMonth(d.year, d.month)
  }

  /** Strict calendar order. */
  predicate Before(a: Date, b: Date) {
    || a.year < b.year
    || (a.year == b.year && a.month < b.month)
    || (a.year == b.year && a.month == b.month && a.day < b.day)
  }

  /** A number that grows with the date, used as a sort key. */
  function Ordinal(d: Date): int {
    d.year * 10000 + d.month * 100 + d.day
  }

  /** Sorting by `Ordinal` is sorting in calendar order. */
  lemma OrdinalOrder(a: Date, b: Date)
    ensures Before(a, b) <==> Ordinal(a) < Ordinal(b)
    ensures a == b <==> Ordinal(a) == Ordinal(b)
  {
  }

  /** The `YYYY-MM-DD` text of a date (`toISOString().split('T')[0]`). */
  function Format(d: Date): (s: string)
    requires 0 <= d.year <= 9999
    ensures |s| == 10
  {
    Text.Digits(d.year, 4) + "-" + Text.Digits(d.month, 2) + "-" + Text.Digits(d.day, 2)
  }

  /** Whether `s` is well-formed ISO date text. */
  predicate WellFormed(s: string) {
    && |s| == 10 && s[4] == '-' && s[7] == '-'
    && Text.AllDigits(s[..4]) && Text.AllDigits(s[5..7]) && Text.AllDigits(s[8..])
  }

  /** Reads ISO date text; `None` for anything that is not a real calendar
      day in `YYYY-MM-DD` form. */
  function Parse(s: string): (r: Option<Date>)
    ensures r.Some? ==> Valid(r.value) && |s| == 10
  {
    if !WellFormed(s) then None
    else
      var y := Text.DecimalValue(s[..4]);
      var m := Text.DecimalValue(s[5..7]);
      var d := Text.DecimalValue(s[8..]);
      Text.DecimalValueBound(s[..4]);
      if 1 <= m <= 12 && 1 <= d <= DaysInMonth(y, m) then Some(Date(y, m, d)) else None
  }

  /** Formatting a valid date and reading it back gives the date. */
  lemma ParseFormat(d: Date)
    requires Valid(d)
    ensures Parse(Format(d)) == Some(d)
  {
    var s := Format(d);
    assert s[..4] == Text.Digits(d.year, 4);
    assert s[5..7] == Text.Digits(d.month, 2);
    assert s[8..] == Text.Digits(d.day, 2);
    Text.DigitsRoundTrip(d.year, 4);
    Text.DigitsRoundTrip(d.month, 2);
    Text.DigitsRoundTrip(d.day, 2);
  }

  /** Text that parses is exactly the formatting of the date it denotes, so
      `Parse` accepts one spelling per date. */
  lemma FormatParse(s: string)
    requires Parse(s).Some?
    ensures Format(Parse(s).value) == s
  {
    var d := Parse(s).value;
    Text.DigitsOfValue(s[..4]);
    Text.DigitsOfValue(s[5..7]);
    Text.DigitsOfValue(s[8..]);
    assert s == s[..4] + "-" + s[5..7] + "-" + s[8..];
  }
}

=== FILE: facturas_repo.dfy ===
/** The `facturas` repository: filters and orderings over the invoice rows,
    and the writes to them. A store in failure makes every call fail with
    the call's own message prefix. */
module FacturasRepo {
  import opened Wrappers
  import Dates
  import Seqs
  import Schemas
  import opened Store

  /** The store's answer when `.single()` does not find exactly one row. */
  const SinFilaUnica := "JSON object requested, multiple (or no) rows returned"

  function CreadoDesc(f: Factura): int { -f.creadoEn }
  function VencimientoAsc(f: Factura): int { Dates.Ordinal(f.fechaVencimiento) }
  function FechaFacturaDesc(f: Factura): int { -Dates.Ordinal(f.fechaFactura) }

  /** Newest `creado_en` first. */
  ghost predicate MasRecientesPrimero(s: seq<Factura>) {
    forall i, j | 0 <= i < j < |s| :: s[i].creadoEn >= s[j].creadoEn
  }

  /** Earliest `fecha_vencimiento` first. */
  ghost predicate VencimientoAscendente(s: seq<Factura>) {
    forall i, j | 0 <= i < j < |s| :: !Dates.Before(s[j].fechaVencimiento, s[i].fechaVencimiento)
  }

  /** Latest `fecha_factura` first. */
  ghost predicate FechaFacturaDescendente(s: seq<Factura>) {
    forall i, j | 0 <= i < j < |s| :: !Dates.Before(s[i].fechaFactura, s[j].fechaFactura)
  }

  /** Sorting by the due date's ordinal puts the earliest due date first. */
  lemma VencimientoOrdenado(s: seq<Factura>)
    requires Seqs.SortedBy(s, VencimientoAsc)
    ensures VencimientoAscendente(s)
  {
    forall i, j | 0 <= i < j < |s|
      ensures !Dates.Before(s[j].fechaVencimiento, s[i].fechaVencimiento)
    {
      assert VencimientoAsc(s[i]) <= VencimientoAsc(s[j]);
      Dates.OrdinalOrder(s[j].fechaVencimiento, s[i].fechaVencimiento);
    }
  }

  /** `obtenerTodas`: every row, newest first. */
  function ObtenerTodas(db: Db): (r: Result<seq<Factura>, string>)
    ensures r.Err? <==> db.falla.Some?
    ensures r.Err? ==> r.error == "Error al obtener facturas: " + db.falla.value
    ensures r.Ok? ==> multiset(r.value) == multiset(db.facturas) && MasRecientesPrimero(r.value)
  {
    if db.falla.Some? then Err("Error al obtener facturas: " + db.falla.value)
    else
      var s := Seqs.SortBy(db.facturas, CreadoDesc);
      assert forall i, j | 0 <= i < j < |s| :: CreadoDesc(s[i]) <= CreadoDesc(s[j]);
      Ok(s)
  }

  /** The row the store builds from a validated payload, its id and its
      insertion time. */
  function Fila(id: string, creadoEn: int, n: Schemas.NuevaFactura): Factura {
    Factura(id, n.numeroFactura, n.ordenCompraId, n.nombreVendedor, n.emailVendedor,
            n.telefonoVendedor, n.montoTotal, n.moneda, n.estado, n.fechaFactura,
            n.fechaVencimiento, n.fechaPago, n.notas, creadoEn)
  }

  /** `crear`: inserts one row with a fresh id and returns it. */
  function Crear(db: Db, id: string, creadoEn: int, n: Schemas.NuevaFactura): (r: Result<(Db, Factura), string>)
    requires !TieneFactura(db.facturas, id)
    ensures r.Err? <==> db.falla.Some?
    ensures r.Err? ==> r.error == "Error al crear factura: " + db.falla.value
    ensures r.Ok? ==> r.value.0 == db.(facturas := db.facturas + [r.value.1])
    ensures r.Ok? ==> r.value.1.id == id && r.value.1.creadoEn == creadoEn
    ensures r.Ok? ==> r.value.1.numeroFactura == n.numeroFactura && r.value.1.estado == n.estado
    ensures r.Ok? ==> r.value.1.ordenCompraId == n.ordenCompraId && r.value.1.montoTotal == n.montoTotal
    ensures r.Ok? ==> r.value.1.fechaFactura == n.fechaFactura && r.value.1.fechaVencimiento == n.fechaVencimiento
    ensures r.Ok? ==> r.value.1.nombreVendedor == n.nombreVendedor && r.value.1.moneda == n.moneda
    ensures r.Ok? ==> r.value.1.emailVendedor == n.emailVendedor && r.value.1.telefonoVendedor == n.telefonoVendedor
    ensures r.Ok? ==> r.value.1.fechaPago == n.fechaPago && r.value.1.notas == n.notas
  {
    if db.falla.Some? then Err("Error al crear factura: " + db.falla.value)
    else
      var fila := Fila(id, creadoEn, n);
      Ok((db.(facturas := db.facturas + [fila]), fila))
  }

  /** An invoice row with the validated changes written over it. */
  function Aplicar(f: Factura, c: Schemas.FacturaCambios): (r: Factura)
    ensures r.id == f.id && r.creadoEn == f.creadoEn
    ensures r.estado == c.estado.GetOr(f.estado)
    ensures r.ordenCompraId == c.ordenCompraId.GetOr(f.ordenCompraId)
    ensures r.numeroFactura == c.numeroFactura.GetOr(f.numeroFactura)
    ensures r.fechaPago == c.fechaPago.GetOr(f.fechaPago)
    ensures r.nombreVendedor == c.nombreVendedor.GetOr(f.nombreVendedor)
    ensures r.montoTotal == c.montoTotal.GetOr(f.montoTotal) && r.moneda == c.moneda.GetOr(f.moneda)
    ensures r.fechaFactura == c.fechaFactura.GetOr(f.fechaFactura)
    ensures r.fechaVencimiento == c.fechaVencimiento.GetOr(f.fechaVencimiento)
    ensures r.emailVendedor == (if c.emailVendedor.Some? then c.emailVendedor else f.emailVendedor)
    ensures r.telefonoVendedor == (if c.telefonoVendedor.Some? then c.telefonoVendedor else f.telefonoVendedor)
    ensures r.notas == (if c.notas.Some? then c.notas else f.notas)
  {
    f.(numeroFactura := c.numeroFactura.GetOr(f.numeroFactura),
       ordenCompraId := c.ordenCompraId.GetOr(f.ordenCompraId),
       nombreVendedor := c.nombreVendedor.GetOr(f.nombreVendedor),
       emailVendedor := if c.emailVendedor.Some? then c.emailVendedor else f.emailVendedor,
       telefonoVendedor := if c.telefonoVendedor.Some? then c.telefonoVendedor else f.telefonoVendedor,
       montoTotal := c.montoTotal.GetOr(f.montoTotal),
       moneda := c.moneda.GetOr(f.moneda),
       estado := c.estado.GetOr(f.estado),
       fechaFactura := c.fechaFactura.GetOr(f.fechaFactura),
       fechaVencimiento := c.fechaVencimiento.GetOr(f.fechaVencimiento),
       fechaPago := c.fechaPago.GetOr(f.fechaPago),
       notas := if c.notas.Some? then c.notas else f.notas)
  }

  /** No change at all. */
  const SinCambios := Schemas.FacturaCambios(None, None, None, None, None, None, None, None, None, None, None, None)

  /** Writing the same changes twice is writing them once, and writing no
      change leaves the row as it is. */
  lemma AplicarIdempotente(f: Factura, c: Schemas.FacturaCambios)
    ensures Aplicar(Aplicar(f, c), c) == Aplicar(f, c)
    ensures Aplicar(f, SinCambios) == f
  {
  }

  /** The rows with `id` replaced by their updated versions. */
  function ActualizarFilas(s: seq<Factura>, id: string, c: Schemas.FacturaCambios): (r: seq<Factura>)
    ensures |r| == |s|
    ensures forall i | 0 <= i < |s| :: r[i] == if s[i].id == id then Aplicar(s[i], c) else s[i]
    ensures forall i | 0 <= i < |s| :: r[i].id == s[i].id && r[i].creadoEn == s[i].creadoEn
  {
    seq(|s|, i requires 0 <= i < |s| => if s[i].id == id then Aplicar(s[i], c) else s[i])
  }

  /** An update keeps every id where it was: each id is carried by as many
      rows as before, and ids that were unique stay unique. */
  lemma ActualizarFilasConservaIds(s: seq<Factura>, id: string, c: Schemas.FacturaCambios, k: string)
    ensures Seqs.Count(ActualizarFilas(s, id, c), (f: Factura) => f.id == k) == Seqs.Count(s, (f: Factura) => f.id == k)
    ensures Seqs.DistinctBy(s, FacturaId) ==> Seqs.DistinctBy(ActualizarFilas(s, id, c), FacturaId)
  {
    ConservaCuenta(s, id, c, k);
    var r := ActualizarFilas(s, id, c);
    if Seqs.DistinctBy(s, FacturaId) {
      forall i, j | 0 <= i < j < |r| ensures FacturaId(r[i]) != FacturaId(r[j]) {
        assert FacturaId(s[i]) != FacturaId(s[j]);
      }
    }
  }

  lemma {:induction false} ConservaCuenta(s: seq<Factura>, id: string, c: Schemas.FacturaCambios, k: string)
    ensures Seqs.Count(ActualizarFilas(s, id, c), (f: Factura) => f.id == k) == Seqs.Count(s, (f: Factura) => f.id == k)
  {
    if |s| > 0 {
      var r := ActualizarFilas(s, id, c);
      assert r[1..] == ActualizarFilas(s[1..], id, c);
      assert r[0].id == s[0].id;
      ConservaCuenta(s[1..], id, c, k);
    }
  }

  /** `actualizar(id, cambios)`: updates the one row with that id and returns
      it; with no such row (or several) the store answers with an error and
      writes nothing. */
  function Actualizar(db: Db, id: string, c: Schemas.FacturaCambios): (r: Result<(Db, Factura), string>)
    ensures r.Err? <==> db.falla.Some? || Seqs.Count(db.facturas, (f: Factura) => f.id == id) != 1
    ensures r.Err? && db.falla.Some? ==> r.error == "Error al actualizar factura: " + db.falla.value
    ensures r.Err? && db.falla.None? ==> r.error == "Error al actualizar factura: " + SinFilaUnica
    ensures r.Ok? ==> r.value.0 == db.(facturas := ActualizarFilas(db.facturas, id, c))
    ensures r.Ok? ==> exists f | f in db.facturas && f.id == id :: r.value.1 == Aplicar(f, c)
  {
    if db.falla.Some? then Err("Error al actualizar factura: " + db.falla.value)
    else if Seqs.Count(db.facturas, (f: Factura) => f.id == id) != 1 then
      Err("Error al actualizar factura: " + SinFilaUnica)
    else
      var unica := Seqs.Filter(db.facturas, (f: Factura) => f.id == id);
      assert unica[0] in multiset(unica);
      assert unica[0] in db.facturas;
      Ok((db.(facturas := ActualizarFilas(db.facturas, id, c)), Aplicar(unica[0], c)))
  }

  /** `eliminar(id)`: removes the rows with that id. */
  function Eliminar(db: Db, id: string): (r: Result<Db, string>)
    ensures r.Err? <==> db.falla.Some?
    ensures r.Err? ==> r.error == "Error al eliminar factura: " + db.falla.value
    ensures r.Ok? ==> r.value.ordenes == db.ordenes && r.value.falla == db.falla
    ensures r.Ok? ==> !TieneFactura(r.value.facturas, id)
    ensures r.Ok? ==> forall f :: multiset(r.value.facturas)[f] == if f.id == id then 0 else multiset(db.facturas)[f]
    ensures r.Ok? && Seqs.DistinctBy(db.facturas, FacturaId) ==> Seqs.DistinctBy(r.value.facturas, FacturaId)
  {
    if db.falla.Some? then Err("Error al eliminar factura: " + db.falla.value)
    else
      var otra := (f: Factura) => f.id != id;
      var resto := Seqs.Filter(db.facturas, otra);
      Seqs.FilterDistinto(db.facturas, otra, FacturaId);
      assert forall f | f in resto :: f.id != id by {
        forall f | f in resto ensures f.id != id {
          var k :| 0 <= k < |resto| && resto[k] == f;
        }
      }
      Ok(db.(facturas := resto))
  }

  /** Deleting an id no row has changes nothing. */
  lemma EliminarAusente(db: Db, id: string)
    requires db.falla.None? && !TieneFactura(db.facturas, id)
    ensures Eliminar(db, id) == Ok(db)
  {
    Seqs.FilterTodos(db.facturas, (f: Factura) => f.id != id);
  }

  /** `obtenerPorEstado(estado)`: exactly the rows in that state, earliest
      due date first. */
  function ObtenerPorEstado(db: Db, estado: string): (r: Result<seq<Factura>, string>)
    ensures r.Err? <==> db.falla.Some?
    ensures r.Err? ==> r.error == "Error al obtener facturas por estado: " + db.falla.value
    ensures r.Ok? ==> multiset(r.value) == multiset(Seqs.Filter(db.facturas, (f: Factura) => f.estado == estado))
    ensures r.Ok? ==> forall f :: multiset(r.value)[f] == if f.estado == estado then multiset(db.facturas)[f] else 0
    ensures r.Ok? ==> VencimientoAscendente(r.value)
  {
    if db.falla.Some? then Err("Error al obtener facturas por estado: " + db.falla.value)
    else
      var s := Seqs.SortBy(Seqs.Filter(db.facturas, (f: Factura) => f.estado == estado), VencimientoAsc);
      VencimientoOrdenado(s);
      Ok(s)
  }

  /** `obtenerPorOrdenCompra(ordenId)`: exactly the invoices of that order,
      latest invoice date first. */
  function ObtenerPorOrdenCompra(db: Db, ordenId: string): (r: Result<seq<Factura>, string>)
    ensures r.Err? <==> db.falla.Some?
    ensures r.Err? ==> r.error == "Error al obtener facturas por orden: " + db.falla.value
    ensures r.Ok? ==> forall f :: multiset(r.value)[f] == if f.ordenCompraId == ordenId then multiset(db.facturas)[f] else 0
    ensures r.Ok? ==> FechaFacturaDescendente(r.value)
  {
    if db.falla.Some? then Err("Error al obtener facturas por orden: " + db.falla.value)
    else
      var s := Seqs.SortBy(Seqs.Filter(db.facturas, (f: Factura) => f.ordenCompraId == ordenId), FechaFacturaDesc);
      assert FechaFacturaDescendente(s) by {
        forall i, j | 0 <= i < j < |s| ensures !Dates.Before(s[i].fechaFactura, s[j].fechaFactura) {
          assert FechaFacturaDesc(s[i]) <= FechaFacturaDesc(s[j]);
          Dates.OrdinalOrder(s[i].fechaFactura, s[j].fechaFactura);
        }
      }
      Ok(s)
  }

  /** Still pending and due strictly before `hoy`. */
  predicate Vencida(f: Factura, hoy: Dates.Date) {
    f.estado == "pendiente" && Dates.Before(f.fechaVencimiento, hoy)
  }

  /** `obtenerVencidas()`: exactly the pending rows due strictly before
      today, earliest due date first. */
  function ObtenerVencidas(db: Db, hoy: Dates.Date): (r: Result<seq<Factura>, string>)
    ensures r.Err? <==> db.falla.Some?
    ensures r.Err? ==> r.error == "Error al obtener facturas vencidas: " + db.falla.value
    ensures r.Ok? ==> multiset(r.value) == multiset(Seqs.Filter(db.facturas, (f: Factura) => Vencida(f, hoy)))
    ensures r.Ok? ==> forall f :: multiset(r.value)[f] == if Vencida(f, hoy) then multiset(db.facturas)[f] else 0
    ensures r.Ok? ==> VencimientoAscendente(r.value)
  {
    if db.falla.Some? then Err("Error al obtener facturas vencidas: " + db.falla.value)
    else
      var s := Seqs.SortBy(Seqs.Filter(db.facturas, (f: Factura) => Vencida(f, hoy)), VencimientoAsc);
      VencimientoOrdenado(s);
      Ok(s)
  }

  /** `marcarComoPagada(id, fechaPago?)`: sets the state to `pagada` and the
      payment date to the given one, or today when none is given, without
      looking at the current state. */
  function MarcarComoPagada(db: Db, id: string, fechaPago: Option<Dates.Date>, hoy: Dates.Date): (r: Result<(Db, Factura), string>)
    ensures r.Err? <==> db.falla.Some? || Seqs.Count(db.facturas, (f: Factura) => f.id == id) != 1
    ensures r.Err? && db.falla.Some? ==> r.error == "Error al marcar factura como pagada: " + db.falla.value
    ensures r.Ok? ==> r.value.1.id == id && r.value.1.estado == "pagada"
    ensures r.Ok? ==> r.value.1.fechaPago == Some(fechaPago.GetOr(hoy))
    ensures r.Ok? ==> r.value.0.ordenes == db.ordenes && |r.value.0.facturas| == |db.facturas|
    ensures r.Ok? ==> forall i | 0 <= i < |db.facturas| ::
      r.value.0.facturas[i] == if db.facturas[i].id == id
                               then db.facturas[i].(estado := "pagada", fechaPago := Some(fechaPago.GetOr(hoy)))
                               else db.facturas[i]
  {
    var cambios := SinCambios.(estado := Some("pagada"), fechaPago := Some(Some(fechaPago.GetOr(hoy))));
    match Actualizar(db, id, cambios)
    case Err(_) =>
      if db.falla.Some? then Err("Error al marcar factura como pagada: " + db.falla.value)
      else Err("Error al marcar factura como pagada: " + SinFilaUnica)
    case Ok(res) => Ok(res)
  }

  /** `facturas.find(f => f.id === id)` */
  function Buscar(s: seq<Factura>, id: string): (r: Option<Factura>)
    ensures r.None? <==> !TieneFactura(s, id)
    ensures r.Some? ==> r.value in s && r.value.id == id
    ensures r.Some? ==> exists k | 0 <= k < |s| :: s[k] == r.value && forall j | 0 <= j < k :: s[j].id != id
  {
    match Seqs.FindIndex(s, (f: Factura) => f.id == id)
    case None =>
      assert forall f | f in s :: f.id != id by {
        forall f | f in s ensures f.id != id {
          var k :| 0 <= k < |s| && s[k] == f;
        }
      }
      None
    case Some(k) =>
      assert forall j | 0 <= j < k :: s[j].id != id;
      Some(s[k])
  }
}

=== FILE: facturas_servicio.dfy ===
/** The invoice service: creation with automatic numbering and business
    rules that consult the referenced purchase order, updates guarded by
    the invoice state-transition table (stamping the payment date when an
    invoice becomes paid), deletion of unpaid invoices, and the summary of
    pending and overdue invoices. */
module FacturasServicio {
  import opened Wrappers
  import Dates
  import Seqs
  import Text
  import Schemas
  import opened Store
  import Repo = FacturasRepo
  import OrdenesRepo
  import opened Servicio

  const Serie := "FAC"

  const NoEncontrada := "Factura no encontrada"
  const NoPagadas := "No se pueden eliminar facturas pagadas"
  const NumeroDuplicado := "Ya existe una factura con este número"
  const OrdenInexistente := "La orden de compra especificada no existe"
  const OrdenNoEnviada := "Solo se pueden crear facturas para órdenes enviadas"
  const VencimientoNoPosterior := "La fecha de vencimiento debe ser posterior a la fecha de factura"
  const MontoInsuficiente := "El monto total debe ser mayor a 0"

  /** The least amount the business rules accept. */
  const MontoMinimo: real := 0.01

  // ----- state transitions -----

  /** `validarTransicionEstado`: `pendiente` may become `enviada` or
      `pagada`, `enviada` may become `pagada`, `pagada` is final, and a
      state outside the table has no way out. */
  predicate TransicionValida(actual: string, nuevo: string) {
    if actual == "pendiente" then nuevo == "enviada" || nuevo == "pagada"
    else if actual == "enviada" then nuevo == "pagada"
    else false
  }

  /** Position of a state along the table's only path. */
  function Etapa(e: string): nat {
    if e == "pendiente" then 0 else if e == "enviada" then 1 else 2
  }

  /** Every transition moves forward along `pendiente`, `enviada`, `pagada`,
      between states of the enum, so no state is ever revisited and `pagada`
      is final. */
  lemma TablaTransiciones(a: string, b: string)
    ensures TransicionValida(a, b) ==> a in Schemas.EstadosFactura && b in Schemas.EstadosFactura
    ensures TransicionValida(a, b) ==> Etapa(a) < Etapa(b)
    ensures !TransicionValida("pagada", b)
    ensures TransicionValida(a, "pagada") <==> a == "pendiente" || a == "enviada"
  {
  }

  // ----- numbering -----

  function NumeroDe(f: Factura): string { f.numeroFactura }

  predicate NumeroUsado(s: seq<Factura>, numero: string) {
    exists f | f in s :: f.numeroFactura == numero
  }

  /** The invoice numbers of the store are pairwise distinct. */
  ghost predicate NumerosUnicos(s: seq<Factura>) {
    Seqs.DistinctBy(s, NumeroDe)
  }

  function Numeros(s: seq<Factura>): (r: seq<string>)
    ensures |r| == |s| && forall i | 0 <= i < |s| :: r[i] == s[i].numeroFactura
  {
    seq(|s|, i requires 0 <= i < |s| => s[i].numeroFactura)
  }

  /** `generarNumeroFactura` over the rows it reads: the month's next
      `FAC-YYYYMM-NNN`. */
  function GenerarNumero(s: seq<Factura>, reloj: Reloj): (r: string)
    ensures |r| > |PrefijoMes(Serie, reloj.anio, reloj.mes)|
  {
    NumeroDelMes(Serie, reloj.anio, reloj.mes, EmitidosDelMes(Numeros(s), Serie, reloj.anio, reloj.mes))
  }

  lemma {:induction false} CountNumeros(s: seq<Factura>, p: Factura -> bool, q: string -> bool)
    requires forall f :: p(f) == q(f.numeroFactura)
    ensures Seqs.Count(Numeros(s), q) == Seqs.Count(s, p)
  {
    if |s| > 0 {
      CountNumeros(s[1..], p, q);
      assert Numeros(s)[1..] == Numeros(s[1..]);
    }
  }

  /** The count behind the number does not depend on the order the rows are
      read in. */
  lemma GenerarNumeroPermutacion(a: seq<Factura>, b: seq<Factura>, reloj: Reloj)
    requires multiset(a) == multiset(b)
    ensures GenerarNumero(a, reloj) == GenerarNumero(b, reloj)
  {
    var p := (f: Factura) => Text.StartsWith(f.numeroFactura, PrefijoMes(Serie, reloj.anio, reloj.mes));
    var q := (n: string) => Text.StartsWith(n, PrefijoMes(Serie, reloj.anio, reloj.mes));
    CountNumeros(a, p, q);
    CountNumeros(b, p, q);
    Seqs.FilterPermutation(a, b, p);
  }

  /** The generated number is the month's prefix, a dash, and at least
      three digits whose value is one more than the number of rows already
      numbered under that prefix. */
  lemma GenerarNumeroSiguiente(s: seq<Factura>, reloj: Reloj)
    ensures var r := GenerarNumero(s, reloj);
      Text.StartsWith(r, PrefijoMes(Serie, reloj.anio, reloj.mes) + "-") &&
      var sufijo := Sufijo(Serie, reloj.anio, reloj.mes, r);
      |sufijo| >= 3 && Text.AllDigits(sufijo) &&
      Text.DecimalValue(sufijo) == Seqs.Count(s, (f: Factura) => Text.StartsWith(f.numeroFactura, PrefijoMes(Serie, reloj.anio, reloj.mes))) + 1
  {
    var p := (f: Factura) => Text.StartsWith(f.numeroFactura, PrefijoMes(Serie, reloj.anio, reloj.mes));
    var q := (n: string) => Text.StartsWith(n, PrefijoMes(Serie, reloj.anio, reloj.mes));
    CountNumeros(s, p, q);
    SufijoEsSiguiente(Serie, reloj.anio, reloj.mes, EmitidosDelMes(Numeros(s), Serie, reloj.anio, reloj.mes));
  }

  /** The number an invoice is created with: the caller's, unless it is
      blank, in which case the generated one. */
  function NumeroAsignado(db: Db, reloj: Reloj, datos: Schemas.FacturaInput): string {
    if NumeroVacio(datos.numeroFactura) then GenerarNumero(db.facturas, reloj) else datos.numeroFactura.value
  }

  // ----- business rules -----

  /** The violated business rules, all of them, given whether the number is
      taken and the purchase order found for the payload. */
  function Violaciones(duplicado: bool, orden: Option<Orden>, n: Schemas.NuevaFactura): (r: seq<string>)
    ensures NumeroDuplicado in r <==> duplicado
    ensures OrdenInexistente in r <==> orden.None?
    ensures OrdenNoEnviada in r <==> orden.Some? && orden.value.estado != "enviada"
    ensures VencimientoNoPosterior in r <==> !Dates.Before(n.fechaFactura, n.fechaVencimiento)
    ensures MontoInsuficiente in r <==> n.montoTotal < MontoMinimo
    ensures forall e | e in r ::
      e in {NumeroDuplicado, OrdenInexistente, OrdenNoEnviada, VencimientoNoPosterior, MontoInsuficiente}
  {
    (if duplicado then [NumeroDuplicado] else [])
    + (if orden.None? then [OrdenInexistente]
       else if orden.value.estado != "enviada" then [OrdenNoEnviada] else [])
    + (if !Dates.Before(n.fechaFactura, n.fechaVencimiento) then [VencimientoNoPosterior] else [])
    + (if n.montoTotal < MontoMinimo then [MontoInsuficiente] else [])
  }

  /** `orders.find(o => o.id === id)` over the rows the order repository
      returns. */
  function OrdenReferida(db: Db, id: string): (r: Result<Option<Orden>, string>)
    ensures r.Err? <==> db.falla.Some?
    ensures r.Err? ==> r.error == "Error al obtener órdenes de compra: " + db.falla.value
    ensures r.Ok? ==> (r.value.None? <==> !TieneOrden(db.ordenes, id))
    ensures r.Ok? && r.value.Some? ==> r.value.value in db.ordenes && r.value.value.id == id
  {
    match OrdenesRepo.ObtenerTodas(db)
    case Err(e) => Err(e)
    case Ok(todas) =>
      var r := OrdenesRepo.Buscar(todas, id);
      assert forall o :: o in todas <==> o in db.ordenes by {
        forall o ensures o in todas <==> o in db.ordenes {
          assert o in todas <==> o in multiset(todas);
        }
      }
      Ok(r)
  }

  /** `validarReglasNegocio`: the duplicate check (only for a non-empty
      number) reads the invoices, the order checks read the orders, and the
      date and amount checks read nothing. A missing order is reported as
      missing only, never also as not sent. */
  function ReglasNegocio(db: Db, n: Schemas.NuevaFactura): (r: Result<seq<string>, string>)
    ensures r.Err? <==> db.falla.Some?
    ensures r.Err? ==> r.error == (if n.numeroFactura != "" then "Error al obtener facturas: "
                                   else "Error al obtener órdenes de compra: ") + db.falla.value
    ensures r.Ok? ==> (NumeroDuplicado in r.value <==> n.numeroFactura != "" && NumeroUsado(db.facturas, n.numeroFactura))
    ensures r.Ok? ==> (OrdenInexistente in r.value <==> !TieneOrden(db.ordenes, n.ordenCompraId))
    ensures r.Ok? ==> !(OrdenInexistente in r.value && OrdenNoEnviada in r.value)
    ensures r.Ok? && OrdenNoEnviada in r.value ==>
      exists o | o in db.ordenes :: o.id == n.ordenCompraId && o.estado != "enviada"
    ensures r.Ok? && OrdenInexistente !in r.value && OrdenNoEnviada !in r.value ==>
      exists o | o in db.ordenes :: o.id == n.ordenCompraId && o.estado == "enviada"
    ensures r.Ok? ==> (VencimientoNoPosterior in r.value <==> !Dates.Before(n.fechaFactura, n.fechaVencimiento))
    ensures r.Ok? ==> (MontoInsuficiente in r.value <==> n.montoTotal < MontoMinimo)
    ensures r.Ok? ==> r.value == Violaciones(n.numeroFactura != "" && NumeroUsado(db.facturas, n.numeroFactura), OrdenReferida(db, n.ordenCompraId).value, n)
  {
    var duplicado: Result<bool, string> :=
      if n.numeroFactura != "" then
        match Repo.ObtenerTodas(db)
        case Err(e) => Err(e)
        case Ok(todas) =>
          assert forall f :: f in todas <==> f in db.facturas by {
            forall f ensures f in todas <==> f in db.facturas {
              assert f in todas <==> f in multiset(todas);
            }
          }
          Ok(NumeroUsado(todas, n.numeroFactura))
      else Ok(false);
    match duplicado
    case Err(e) => Err(e)
    case Ok(d) =>
      match OrdenReferida(db, n.ordenCompraId)
      case Err(e) => Err(e)
      case Ok(orden) => Ok(Violaciones(d, orden, n))
  }

  // ----- create -----

  /** Step 1 of `crear`: a blank number is replaced by the generated one,
      which needs the rows of the store. */
  function ConNumero(db: Db, reloj: Reloj, datos: Schemas.FacturaInput): (r: Result<Schemas.FacturaInput, string>)
    ensures r.Err? <==> NumeroVacio(datos.numeroFactura) && db.falla.Some?
    ensures r.Err? ==> r.error == "Error al obtener facturas: " + db.falla.value
    ensures r.Ok? ==> r.value == datos.(numeroFactura := Some(NumeroAsignado(db, reloj, datos)))
    ensures r.Ok? ==> r.value.numeroFactura.value != ""
  {
    if NumeroVacio(datos.numeroFactura) then
      match Repo.ObtenerTodas(db)
      case Err(e) => Err(e)
      case Ok(todas) =>
        GenerarNumeroPermutacion(todas, db.facturas, reloj);
        Ok(datos.(numeroFactura := Some(GenerarNumero(todas, reloj))))
    else
      NumeroDado(datos.numeroFactura);
      Ok(datos)
  }

  /** Steps 3 and 4 of `crear`: the business rules over a validated payload,
      then the insertion. */
  function Insertar(db: Db, id: string, creadoEn: int, n: Schemas.NuevaFactura): (s: Salida<Factura>)
    requires !TieneFactura(db.facturas, id)
    ensures s.respuesta.Fallo? ==> s.db == db && |s.respuesta.errores| > 0
    ensures s.respuesta.Exito? ==> db.falla.None?
    ensures s.respuesta.Exito? ==> s.respuesta.datos == Repo.Fila(id, creadoEn, n)
    ensures s.respuesta.Exito? ==> s.db == db.(facturas := db.facturas + [s.respuesta.datos])
    ensures s.respuesta.Exito? ==>
      s.respuesta.datos.numeroFactura == "" || !NumeroUsado(db.facturas, s.respuesta.datos.numeroFactura)
    ensures s.respuesta.Exito? ==>
      exists o | o in db.ordenes :: o.id == s.respuesta.datos.ordenCompraId && o.estado == "enviada"
    ensures s.respuesta.Exito? ==>
      Dates.Before(s.respuesta.datos.fechaFactura, s.respuesta.datos.fechaVencimiento)
      && s.respuesta.datos.montoTotal >= MontoMinimo
    ensures db.falla.None? ==> (s.respuesta.Exito? <==> Violaciones(n.numeroFactura != "" && NumeroUsado(db.facturas, n.numeroFactura), OrdenReferida(db, n.ordenCompraId).value, n) == [])
    ensures db.falla.None? && Violaciones(n.numeroFactura != "" && NumeroUsado(db.facturas, n.numeroFactura), OrdenReferida(db, n.ordenCompraId).value, n) != [] ==> s.respuesta == Fallo(Violaciones(n.numeroFactura != "" && NumeroUsado(db.facturas, n.numeroFactura), OrdenReferida(db, n.ordenCompraId).value, n))
  {
    match ReglasNegocio(db, n)
    case Err(e) => Salida(db, Fallo([e]))
    case Ok(errores) =>
      if errores != [] then Salida(db, Fallo(errores))
      else
        match Repo.Crear(db, id, creadoEn, n)
        case Err(e) => Salida(db, Fallo([e]))
        case Ok(res) => Salida(res.0, Exito(res.1))
  }

  /** Steps 2 to 4 of `crear`, once the number is filled in: validation,
      then the business rules and the insertion. */
  function Registrar(v: Schemas.Validadores, db: Db, id: string, creadoEn: int,
                     d: Schemas.FacturaInput): (s: Salida<Factura>)
    requires !TieneFactura(db.facturas, id)
    ensures s.respuesta.Fallo? ==> s.db == db && |s.respuesta.errores| > 0
    ensures s.respuesta.Exito? ==> Schemas.FacturaValida(v, d)
    ensures s.respuesta.Exito? ==> s.db == db.(facturas := db.facturas + [s.respuesta.datos])
    ensures s.respuesta.Exito? ==>
      s.respuesta.datos == Repo.Fila(id, creadoEn, Schemas.NuevaFacturaDe(v, d))
    ensures s.respuesta.Exito? ==>
      s.respuesta.datos.numeroFactura == "" || !NumeroUsado(db.facturas, s.respuesta.datos.numeroFactura)
    ensures s.respuesta.Exito? ==>
      exists o | o in db.ordenes :: o.id == s.respuesta.datos.ordenCompraId && o.estado == "enviada"
    ensures s.respuesta.Exito? ==>
      Dates.Before(s.respuesta.datos.fechaFactura, s.respuesta.datos.fechaVencimiento)
      && s.respuesta.datos.montoTotal >= MontoMinimo
  {
    match Schemas.ValidarCrearFactura(v, d)
    case Err(issues) => Salida(db, Fallo([MensajeValidacion(issues)]))
    case Ok(n) => Insertar(db, id, creadoEn, n)
  }

  /** `crear`: fills in a blank number, validates, checks the business rules
      and inserts the row. */
  function Crear(v: Schemas.Validadores, db: Db, reloj: Reloj, id: string, creadoEn: int,
                 datos: Schemas.FacturaInput): (s: Salida<Factura>)
    requires !TieneFactura(db.facturas, id)
    ensures s.respuesta.Fallo? ==> s.db == db && |s.respuesta.errores| > 0
    ensures s.respuesta.Exito? ==> s.db == db.(facturas := db.facturas + [s.respuesta.datos])
    ensures s.respuesta.Exito? ==> s.respuesta.datos.id == id
    ensures s.respuesta.Exito? ==> s.respuesta.datos.numeroFactura == NumeroAsignado(db, reloj, datos)
    ensures s.respuesta.Exito? ==> !NumeroUsado(db.facturas, s.respuesta.datos.numeroFactura)
    ensures s.respuesta.Exito? ==>
      Schemas.FacturaValida(v, datos.(numeroFactura := Some(NumeroAsignado(db, reloj, datos))))
    ensures s.respuesta.Exito? ==>
      exists o | o in db.ordenes :: o.id == s.respuesta.datos.ordenCompraId && o.estado == "enviada"
    ensures s.respuesta.Exito? ==> Dates.Before(s.respuesta.datos.fechaFactura, s.respuesta.datos.fechaVencimiento)
    ensures s.respuesta.Exito? ==> s.respuesta.datos.montoTotal >= MontoMinimo
    ensures s.respuesta.Exito? ==> s.respuesta.datos.estado == datos.estado.GetOr(Schemas.EstadoPorDefecto)
  {
    match ConNumero(db, reloj, datos)
    case Err(e) => Salida(db, Fallo([e]))
    case Ok(d) => Registrar(v, db, id, creadoEn, d)
  }

  /** When a creation succeeds: exactly when the store is reachable, the
      payload with its number filled in meets the schema, and it breaks no
      business rule. A valid payload then goes on to the insertion, and an
      invalid one is answered with the schema's issues. */
  lemma CrearTieneExito(v: Schemas.Validadores, db: Db, reloj: Reloj, id: string, creadoEn: int,
                        datos: Schemas.FacturaInput)
    requires !TieneFactura(db.facturas, id)
    ensures var d := datos.(numeroFactura := Some(NumeroAsignado(db, reloj, datos)));
            var s := Crear(v, db, reloj, id, creadoEn, datos);
      && (s.respuesta.Exito? <==>
            db.falla.None? && Schemas.FacturaValida(v, d)
            && Violaciones(NumeroUsado(db.facturas, d.numeroFactura.value), OrdenReferida(db, d.ordenCompraId).value,
                           Schemas.NuevaFacturaDe(v, d)) == [])
      && (db.falla.None? && Schemas.FacturaValida(v, d) ==> s == Insertar(db, id, creadoEn, Schemas.NuevaFacturaDe(v, d)))
      && (db.falla.None? && !Schemas.FacturaValida(v, d) ==>
            s.respuesta == Fallo([MensajeValidacion(Schemas.ValidarCrearFactura(v, d).error)]))
  {
    var d := datos.(numeroFactura := Some(NumeroAsignado(db, reloj, datos)));
    match ConNumero(db, reloj, datos)
    case Err(_) =>
    case Ok(d1) =>
      assert d1 == d;
      if Schemas.FacturaValida(v, d) {
        var n := Schemas.NuevaFacturaDe(v, d);
        assert n.numeroFactura == d.numeroFactura.value != "";
        assert n.ordenCompraId == d.ordenCompraId;
      }
  }

  /** A valid invoice against an existing sent order, with a fresh number,
      a due date after the invoice date and a large enough amount, is
      created with its number and state. */
  lemma FacturaValidaSeCrea(v: Schemas.Validadores, db: Db, reloj: Reloj, id: string, creadoEn: int,
                            datos: Schemas.FacturaInput)
    requires !TieneFactura(db.facturas, id) && db.falla.None?
    requires Schemas.FacturaValida(v, datos.(numeroFactura := Some(NumeroAsignado(db, reloj, datos))))
    requires !NumeroUsado(db.facturas, NumeroAsignado(db, reloj, datos))
    requires TieneOrden(db.ordenes, datos.ordenCompraId)
    requires forall o | o in db.ordenes && o.id == datos.ordenCompraId :: o.estado == "enviada"
    requires Dates.Before(Dates.Parse(datos.fechaFactura).value, Dates.Parse(datos.fechaVencimiento).value)
    requires datos.montoTotal >= MontoMinimo
    ensures var s := Crear(v, db, reloj, id, creadoEn, datos);
      && s.respuesta.Exito?
      && s.respuesta.datos.numeroFactura == NumeroAsignado(db, reloj, datos)
      && s.respuesta.datos.ordenCompraId == datos.ordenCompraId
      && s.respuesta.datos.estado == datos.estado.GetOr(Schemas.EstadoPorDefecto)
      && s.db.facturas == db.facturas + [s.respuesta.datos]
  {
    var d := datos.(numeroFactura := Some(NumeroAsignado(db, reloj, datos)));
    var n := Schemas.NuevaFacturaDe(v, d);
    var orden := OrdenReferida(db, d.ordenCompraId).value;
    assert orden.Some? && orden.value.estado == "enviada";
    assert Violaciones(false, orden, n) == [];
    CrearTieneExito(v, db, reloj, id, creadoEn, datos);
  }

  /** Equal invoice and due dates pass the schema (which asks for a due
      date not before the invoice date) but the business rule (which asks
      for a later one) rejects them. */
  lemma FechasIgualesRechazadas(v: Schemas.Validadores, db: Db, reloj: Reloj, id: string, creadoEn: int,
                                datos: Schemas.FacturaInput)
    requires !TieneFactura(db.facturas, id) && db.falla.None?
    requires Schemas.ValidarCrearFactura(v, datos.(numeroFactura := Some(NumeroAsignado(db, reloj, datos)))).Ok?
    requires datos.fechaVencimiento == datos.fechaFactura
    ensures Crear(v, db, reloj, id, creadoEn, datos).respuesta.Fallo?
    ensures VencimientoNoPosterior in Crear(v, db, reloj, id, creadoEn, datos).respuesta.errores
  {
  }

  /** A payload naming a purchase order that does not exist is refused with
      the missing-order error and never with the not-sent error. */
  lemma OrdenInexistenteSolo(v: Schemas.Validadores, db: Db, reloj: Reloj, id: string, creadoEn: int,
                             datos: Schemas.FacturaInput)
    requires !TieneFactura(db.facturas, id) && db.falla.None?
    requires Schemas.ValidarCrearFactura(v, datos.(numeroFactura := Some(NumeroAsignado(db, reloj, datos)))).Ok?
    requires !TieneOrden(db.ordenes, datos.ordenCompraId)
    ensures Crear(v, db, reloj, id, creadoEn, datos).respuesta.Fallo?
    ensures OrdenInexistente in Crear(v, db, reloj, id, creadoEn, datos).respuesta.errores
    ensures OrdenNoEnviada !in Crear(v, db, reloj, id, creadoEn, datos).respuesta.errores
  {
  }

  // ----- update -----

  /** Step 4 of `actualizar`: changes that make the invoice `pagada` without
      a payment date get today's. */
  function SellarPago(c: Schemas.FacturaCambios, hoy: Dates.Date): (r: Schemas.FacturaCambios)
    ensures r.estado == c.estado
    ensures c.estado == Some("pagada") && (c.fechaPago.None? || c.fechaPago == Some(None)) ==>
      r.fechaPago == Some(Some(hoy))
    ensures !(c.estado == Some("pagada") && (c.fechaPago.None? || c.fechaPago == Some(None))) ==> r == c
    ensures r.(fechaPago := c.fechaPago) == c
  {
    if c.estado == Some("pagada") && (c.fechaPago.None? || c.fechaPago == Some(None))
    then c.(fechaPago := Some(Some(hoy)))
    else c
  }

  /** When exactly one row has the id, that row is the one found. */
  lemma UnicaFila(s: seq<Factura>, id: string, f: Factura)
    requires Seqs.Count(s, (x: Factura) => x.id == id) == 1
    requires f in s && f.id == id
    ensures forall i | 0 <= i < |s| && s[i].id == id :: s[i] == f
  {
    var u := Seqs.Filter(s, (x: Factura) => x.id == id);
    forall i | 0 <= i < |s| && s[i].id == id
      ensures s[i] == f
    {
      assert s[i] in multiset(u);
      assert f in multiset(u);
      assert u == [u[0]];
      assert s[i] in u && f in u;
    }
  }

  /** The requested state is allowed from `actual`: none requested, the
      same one, or a transition of the table. */
  predicate CambioPermitido(actual: string, pedido: Option<string>) {
    pedido.None? || pedido.value == actual || TransicionValida(actual, pedido.value)
  }

  /** Steps 3 to 5 of `actualizar`: the transition check against the row
      found, the payment stamp, then the write. */
  function Escribir(db: Db, hoy: Dates.Date, id: string, factura: Factura, c: Schemas.FacturaCambios): (s: Salida<Factura>)
    requires factura in db.facturas && factura.id == id
    ensures s.respuesta.Fallo? ==> s.db == db && |s.respuesta.errores| > 0
    ensures c.estado.Some? && c.estado.value != factura.estado && !TransicionValida(factura.estado, c.estado.value) ==>
      s.respuesta == Fallo(["No se puede cambiar el estado de '" + factura.estado + "' a '" + c.estado.value + "'"])
    ensures s.respuesta.Exito? ==> s.db == db.(facturas := Repo.ActualizarFilas(db.facturas, id, SellarPago(c, hoy)))
    ensures s.respuesta.Exito? ==> forall i | 0 <= i < |db.facturas| && db.facturas[i].id == id ::
      db.facturas[i] == factura
    ensures s.respuesta.Exito? ==>
      (c.estado.None? || c.estado.value == factura.estado || TransicionValida(factura.estado, c.estado.value))
    ensures s.respuesta.Exito? && c.estado == Some("pagada") ==>
      forall i | 0 <= i < |db.facturas| && db.facturas[i].id == id ::
        s.db.facturas[i].fechaPago ==
          (if c.fechaPago.None? || c.fechaPago == Some(None) then Some(hoy) else c.fechaPago.value)
  {
    if c.estado.Some? && c.estado.value != factura.estado && !TransicionValida(factura.estado, c.estado.value) then
      Salida(db, Fallo(["No se puede cambiar el estado de '" + factura.estado + "' a '" + c.estado.value + "'"]))
    else
      match Repo.Actualizar(db, id, SellarPago(c, hoy))
      case Err(e) => Salida(db, Fallo([e]))
      case Ok(res) =>
        UnicaFila(db.facturas, id, factura);
        Salida(res.0, Exito(res.1))
  }

  /** The write goes through exactly when the store is reachable, the id
      picks out a single row, and the requested state is allowed. */
  lemma EscribirTieneExito(db: Db, hoy: Dates.Date, id: string, factura: Factura, c: Schemas.FacturaCambios)
    requires factura in db.facturas && factura.id == id
    ensures Escribir(db, hoy, id, factura, c).respuesta.Exito? <==>
      db.falla.None? && Seqs.Count(db.facturas, (x: Factura) => x.id == id) == 1 && CambioPermitido(factura.estado, c.estado)
  {
  }

  /** The state an update asks for: the one supplied, or `pendiente` when
      the library fills in defaults inside `.partial()`. */
  function EstadoPedido(v: Schemas.Validadores, cambios: Schemas.FacturaCambiosInput): Option<string> {
    Schemas.ConDefecto(v, cambios.estado, Schemas.EstadoPorDefecto)
  }

  /** Steps 2 to 5 of `actualizar`, once the invoice has been found. */
  function ActualizarEncontrada(v: Schemas.Validadores, db: Db, hoy: Dates.Date, id: string, factura: Factura,
                                cambios: Schemas.FacturaCambiosInput): (s: Salida<Factura>)
    requires factura in db.facturas && factura.id == id
    ensures s.respuesta.Fallo? ==> s.db == db && |s.respuesta.errores| > 0
    ensures s.respuesta.Exito? ==> Schemas.CambiosFacturaValidos(v, cambios)
    ensures s.respuesta.Exito? ==> s.db.ordenes == db.ordenes && |s.db.facturas| == |db.facturas|
    ensures s.respuesta.Exito? ==> forall i | 0 <= i < |db.facturas| && db.facturas[i].id != id ::
      s.db.facturas[i] == db.facturas[i]
    ensures s.respuesta.Exito? ==> forall i | 0 <= i < |db.facturas| && db.facturas[i].id == id ::
      && db.facturas[i] == factura
      && s.db.facturas[i].id == id
      && s.db.facturas[i].estado == EstadoPedido(v, cambios).GetOr(factura.estado)
      && s.db.facturas[i].ordenCompraId == cambios.ordenCompraId.GetOr(factura.ordenCompraId)
    ensures s.respuesta.Exito? ==> (EstadoPedido(v, cambios).None? || EstadoPedido(v, cambios).value == factura.estado
                                    || TransicionValida(factura.estado, EstadoPedido(v, cambios).value))
    ensures s.respuesta.Exito? && cambios.estado == Some("pagada") ==>
      forall i | 0 <= i < |db.facturas| && db.facturas[i].id == id ::
        s.db.facturas[i].fechaPago ==
          (if cambios.fechaPago.None? || cambios.fechaPago.value == "" then Some(hoy)
           else Dates.Parse(cambios.fechaPago.value))
  {
    match Schemas.ValidarActualizarFactura(v, cambios)
    case Err(issues) => Salida(db, Fallo([MensajeValidacion(issues)]))
    case Ok(c) => Escribir(db, hoy, id, factura, c)
  }

  /** A successful update of the invoice found writes the validated
      changes, stamped with the payment date, to the rows with the id. */
  lemma EncontradaEscribe(v: Schemas.Validadores, db: Db, hoy: Dates.Date, id: string, factura: Factura,
                          cambios: Schemas.FacturaCambiosInput)
    requires factura in db.facturas && factura.id == id
    ensures var s := ActualizarEncontrada(v, db, hoy, id, factura, cambios);
      s.respuesta.Exito? ==>
        (Schemas.CambiosFacturaValidos(v, cambios) &&
         s.db == db.(facturas := Repo.ActualizarFilas(db.facturas, id, SellarPago(Schemas.FacturaCambiosDe(v, cambios), hoy))))
  {
  }

  /** When an update of the invoice found succeeds: exactly when the
      changes are valid, the store is reachable, the id picks out a single
      row, and the requested state is allowed. */
  lemma EncontradaTieneExito(v: Schemas.Validadores, db: Db, hoy: Dates.Date, id: string, factura: Factura,
                             cambios: Schemas.FacturaCambiosInput)
    requires factura in db.facturas && factura.id == id
    ensures ActualizarEncontrada(v, db, hoy, id, factura, cambios).respuesta.Exito? <==>
      && Schemas.CambiosFacturaValidos(v, cambios)
      && db.falla.None? && Seqs.Count(db.facturas, (x: Factura) => x.id == id) == 1
      && CambioPermitido(factura.estado, EstadoPedido(v, cambios))
  {
    match Schemas.ValidarActualizarFactura(v, cambios)
    case Err(_) =>
    case Ok(c) =>
      assert c.estado == EstadoPedido(v, cambios);
      EscribirTieneExito(db, hoy, id, factura, c);
  }

  /** `actualizar`: the invoice must exist; the row found then goes
      through the steps above. */
  function Actualizar(v: Schemas.Validadores, db: Db, reloj: Reloj, id: string,
                      cambios: Schemas.FacturaCambiosInput): (s: Salida<Factura>)
    ensures s.respuesta.Fallo? ==> s.db == db && |s.respuesta.errores| > 0
    ensures db.falla.None? && !TieneFactura(db.facturas, id) ==> s.respuesta == Fallo([NoEncontrada])
    ensures s.respuesta.Exito? ==>
      db.falla.None? && exists f | f in db.facturas && f.id == id :: s == ActualizarEncontrada(v, db, reloj.hoy, id, f, cambios)
  {
    match Repo.ObtenerTodas(db)
    case Err(e) => Salida(db, Fallo([e]))
    case Ok(todas) =>
      match Repo.Buscar(todas, id)
      case None =>
        assert !TieneFactura(db.facturas, id) by {
          forall f | f in db.facturas ensures f.id != id {
            assert f in multiset(todas);
          }
        }
        Salida(db, Fallo([NoEncontrada]))
      case Some(factura) =>
        assert factura in multiset(db.facturas);
        ActualizarEncontrada(v, db, reloj.hoy, id, factura, cambios)
  }

  /** When an update succeeds, for an invoice `f` with the id: exactly when
      the store is reachable, no other row shares the id, the changes are
      valid, and the requested state is `f`'s own or allowed from it. */
  lemma ActualizarTieneExito(v: Schemas.Validadores, db: Db, reloj: Reloj, id: string, f: Factura,
                             cambios: Schemas.FacturaCambiosInput)
    requires f in db.facturas && f.id == id
    ensures Actualizar(v, db, reloj, id, cambios).respuesta.Exito? <==>
      && db.falla.None? && Seqs.Count(db.facturas, (x: Factura) => x.id == id) == 1
      && Schemas.CambiosFacturaValidos(v, cambios)
      && CambioPermitido(f.estado, EstadoPedido(v, cambios))
  {
    if db.falla.None? {
      ActualizarBusca(v, db, reloj, id, f, cambios);
      var h :| h in db.facturas && h.id == id
               && Actualizar(v, db, reloj, id, cambios) == ActualizarEncontrada(v, db, reloj.hoy, id, h, cambios);
      EncontradaTieneExito(v, db, reloj.hoy, id, h, cambios);
      if Seqs.Count(db.facturas, (x: Factura) => x.id == id) == 1 {
        MismaFila(db.facturas, id, f, h);
      }
    }
  }

  /** On a reachable store holding the id, `actualizar` goes on with one of
      the invoices carrying it. */
  lemma ActualizarBusca(v: Schemas.Validadores, db: Db, reloj: Reloj, id: string, f: Factura,
                        cambios: Schemas.FacturaCambiosInput)
    requires db.falla.None? && f in db.facturas && f.id == id
    ensures exists h | h in db.facturas && h.id == id ::
      Actualizar(v, db, reloj, id, cambios) == ActualizarEncontrada(v, db, reloj.hoy, id, h, cambios)
  {
    var todas := Repo.ObtenerTodas(db).value;
    assert f in multiset(todas);
    assert f in todas;
    var h := Repo.Buscar(todas, id).value;
    assert h in multiset(db.facturas);
    assert Actualizar(v, db, reloj, id, cambios) == ActualizarEncontrada(v, db, reloj.hoy, id, h, cambios);
  }

  /** When exactly one row has the id, two rows carrying it are the same. */
  lemma MismaFila(s: seq<Factura>, id: string, a: Factura, b: Factura)
    requires Seqs.Count(s, (x: Factura) => x.id == id) == 1
    requires a in s && a.id == id && b in s && b.id == id
    ensures a == b
  {
    UnicaFila(s, id, a);
    var i :| 0 <= i < |s| && s[i] == b;
  }

  /** What a successful update writes: the changes validate, the invoice
      with the id gets the new state and order reference along an allowed
      transition, and every other row and the orders are untouched. */
  lemma ActualizarEfecto(v: Schemas.Validadores, db: Db, reloj: Reloj, id: string,
                         cambios: Schemas.FacturaCambiosInput)
    ensures var s := Actualizar(v, db, reloj, id, cambios);
      s.respuesta.Exito? ==>
        && TieneFactura(db.facturas, id)
        && Schemas.CambiosFacturaValidos(v, cambios)
        && s.db.ordenes == db.ordenes && |s.db.facturas| == |db.facturas|
        && (forall i | 0 <= i < |db.facturas| && db.facturas[i].id != id :: s.db.facturas[i] == db.facturas[i])
        && (forall i | 0 <= i < |db.facturas| && db.facturas[i].id == id ::
              && s.db.facturas[i].id == id
              && s.db.facturas[i].estado == EstadoPedido(v, cambios).GetOr(db.facturas[i].estado)
              && s.db.facturas[i].ordenCompraId == cambios.ordenCompraId.GetOr(db.facturas[i].ordenCompraId)
              && (s.db.facturas[i].estado == db.facturas[i].estado
                  || TransicionValida(db.facturas[i].estado, s.db.facturas[i].estado)))
  {
    var s := Actualizar(v, db, reloj, id, cambios);
    if s.respuesta.Exito? {
      var f :| f in db.facturas && f.id == id && s == ActualizarEncontrada(v, db, reloj.hoy, id, f, cambios);
      EncontradaEfecto(v, db, reloj.hoy, id, f, cambios);
    }
  }

  /** The effect above, for the row found. */
  lemma EncontradaEfecto(v: Schemas.Validadores, db: Db, hoy: Dates.Date, id: string, f: Factura,
                         cambios: Schemas.FacturaCambiosInput)
    requires f in db.facturas && f.id == id
    ensures var s := ActualizarEncontrada(v, db, hoy, id, f, cambios);
      s.respuesta.Exito? ==>
        && Schemas.CambiosFacturaValidos(v, cambios)
        && s.db.ordenes == db.ordenes && |s.db.facturas| == |db.facturas|
        && (forall i | 0 <= i < |db.facturas| && db.facturas[i].id != id :: s.db.facturas[i] == db.facturas[i])
        && (forall i | 0 <= i < |db.facturas| && db.facturas[i].id == id ::
              && s.db.facturas[i].id == id
              && s.db.facturas[i].estado == EstadoPedido(v, cambios).GetOr(db.facturas[i].estado)
              && s.db.facturas[i].ordenCompraId == cambios.ordenCompraId.GetOr(db.facturas[i].ordenCompraId)
              && (s.db.facturas[i].estado == db.facturas[i].estado
                  || TransicionValida(db.facturas[i].estado, s.db.facturas[i].estado)))
  {
    var s := ActualizarEncontrada(v, db, hoy, id, f, cambios);
    if s.respuesta.Exito? {
      forall i | 0 <= i < |db.facturas| && db.facturas[i].id == id
        ensures s.db.facturas[i].estado == db.facturas[i].estado
                || TransicionValida(db.facturas[i].estado, s.db.facturas[i].estado)
      {
        assert db.facturas[i] == f;
      }
    }
  }

  /** An update to `pagada` stamps the payment date: the one supplied, or
      today when it is absent or `''`. */
  lemma ActualizarSellaPago(v: Schemas.Validadores, db: Db, reloj: Reloj, id: string,
                            cambios: Schemas.FacturaCambiosInput)
    requires cambios.estado == Some("pagada")
    ensures var s := Actualizar(v, db, reloj, id, cambios);
      s.respuesta.Exito? ==> forall i | 0 <= i < |db.facturas| && db.facturas[i].id == id ::
        s.db.facturas[i].fechaPago ==
          (if cambios.fechaPago.None? || cambios.fechaPago.value == "" then Some(reloj.hoy)
           else Dates.Parse(cambios.fechaPago.value))
  {
    var s := Actualizar(v, db, reloj, id, cambios);
    if s.respuesta.Exito? {
      var f :| f in db.facturas && f.id == id && s == ActualizarEncontrada(v, db, reloj.hoy, id, f, cambios);
    }
  }

  /** The changes `marcarComoPagada` sends: state `pagada` and the given
      payment date, or today's written as `YYYY-MM-DD`. */
  function CambiosPago(fechaPago: Option<string>, hoy: Dates.Date): Schemas.FacturaCambiosInput
    requires 0 <= hoy.year <= 9999
  {
    Schemas.FacturaCambiosInput(
      None, None, None, None, None, None, None, Some("pagada"), None, None,
      Some(if fechaPago.None? || fechaPago.value == "" then Dates.Format(hoy) else fechaPago.value), None)
  }

  /** `marcarComoPagada(id, fechaPago?)`: the update above with state
      `pagada` and a payment date; the paid row carries the given date, or
      today when none is given. */
  function MarcarComoPagada(v: Schemas.Validadores, db: Db, reloj: Reloj, id: string,
                            fechaPago: Option<string>): (s: Salida<Factura>)
    requires Dates.Valid(reloj.hoy)
    ensures s == Actualizar(v, db, reloj, id, CambiosPago(fechaPago, reloj.hoy))
    ensures s.respuesta.Exito? ==> forall i | 0 <= i < |db.facturas| && db.facturas[i].id == id ::
      && s.db.facturas[i].estado == "pagada"
      && s.db.facturas[i].fechaPago ==
           (if fechaPago.None? || fechaPago.value == "" then Some(reloj.hoy) else Dates.Parse(fechaPago.value))
      && (db.facturas[i].estado == "pagada" || TransicionValida(db.facturas[i].estado, "pagada"))
  {
    Dates.ParseFormat(reloj.hoy);
    ActualizarEfecto(v, db, reloj, id, CambiosPago(fechaPago, reloj.hoy));
    ActualizarSellaPago(v, db, reloj, id, CambiosPago(fechaPago, reloj.hoy));
    Actualizar(v, db, reloj, id, CambiosPago(fechaPago, reloj.hoy))
  }

  /** When marking as paid succeeds, for an invoice `f` with the id: exactly
      when the store is reachable, no other row shares the id, the payment
      date given (if any) is a date, and `f` is pending, sent or already
      paid. */
  lemma MarcarComoPagadaTieneExito(v: Schemas.Validadores, db: Db, reloj: Reloj, id: string, f: Factura,
                                   fechaPago: Option<string>)
    requires Dates.Valid(reloj.hoy)
    requires f in db.facturas && f.id == id
    ensures MarcarComoPagada(v, db, reloj, id, fechaPago).respuesta.Exito? <==>
      && db.falla.None? && Seqs.Count(db.facturas, (x: Factura) => x.id == id) == 1
      && Schemas.FechaOpcionalValida(fechaPago)
      && f.estado in {"pendiente", "enviada", "pagada"}
  {
    var c := CambiosPago(fechaPago, reloj.hoy);
    CambiosPagoValidos(v, fechaPago, reloj.hoy);
    assert CambioPermitido(f.estado, Some("pagada")) <==> f.estado in {"pendiente", "enviada", "pagada"};
    ActualizarTieneExito(v, db, reloj, id, f, c);
  }

  /** The changes `marcarComoPagada` sends ask for `pagada`, and are valid
      exactly when the payment date given (if any) is a date. */
  lemma CambiosPagoValidos(v: Schemas.Validadores, fechaPago: Option<string>, hoy: Dates.Date)
    requires Dates.Valid(hoy)
    ensures Schemas.CambiosFacturaValidos(v, CambiosPago(fechaPago, hoy)) <==> Schemas.FechaOpcionalValida(fechaPago)
    ensures EstadoPedido(v, CambiosPago(fechaPago, hoy)) == Some("pagada")
  {
    Dates.ParseFormat(hoy);
  }

  /** What `marcarComoPagada` does to the invoice's number and currency.
      They are kept when the library leaves absent fields absent; when it
      fills in defaults inside `.partial()`, the number is blanked and the
      currency reset to `CLP`, since the update sends neither. */
  lemma MarcarComoPagadaNumeroYMoneda(v: Schemas.Validadores, db: Db, reloj: Reloj, id: string,
                                      fechaPago: Option<string>)
    requires Dates.Valid(reloj.hoy)
    ensures var s := MarcarComoPagada(v, db, reloj, id, fechaPago);
      s.respuesta.Exito? ==> forall i | 0 <= i < |db.facturas| && db.facturas[i].id == id ::
        if v.defectosParciales
        then s.db.facturas[i].numeroFactura == "" && s.db.facturas[i].moneda == Schemas.MonedaPorDefecto
        else s.db.facturas[i].numeroFactura == db.facturas[i].numeroFactura
             && s.db.facturas[i].moneda == db.facturas[i].moneda
  {
    Dates.ParseFormat(reloj.hoy);
    var c := CambiosPago(fechaPago, reloj.hoy);
    var s := Actualizar(v, db, reloj, id, c);
    if s.respuesta.Exito? {
      var f :| f in db.facturas && f.id == id && s == ActualizarEncontrada(v, db, reloj.hoy, id, f, c);
      EncontradaEscribe(v, db, reloj.hoy, id, f, c);
      var k := SellarPago(Schemas.FacturaCambiosDe(v, c), reloj.hoy);
      assert k.numeroFactura == Schemas.ConDefecto(v, None, "");
      assert k.moneda == Schemas.ConDefecto(v, None, Schemas.MonedaPorDefecto);
      forall i | 0 <= i < |db.facturas| && db.facturas[i].id == id
        ensures s.db.facturas[i] == Repo.Aplicar(db.facturas[i], k)
      {
      }
    }
  }

  // ----- delete -----

  /** `eliminar`: an existing invoice is removed unless it is `pagada`;
      pending and sent invoices both qualify. */
  function Eliminar(db: Db, id: string): (s: Salida<()>)
    ensures s.respuesta.Fallo? ==> s.db == db && |s.respuesta.errores| > 0
    ensures db.falla.None? && !TieneFactura(db.facturas, id) ==> s.respuesta == Fallo([NoEncontrada])
    ensures s.respuesta.Exito? ==> db.falla.None?
    ensures s.respuesta.Exito? ==> exists f | f in db.facturas :: f.id == id && f.estado != "pagada"
    ensures s.respuesta.Exito? ==> s.db == Repo.Eliminar(db, id).value
    ensures s.respuesta.Exito? ==> s.db.ordenes == db.ordenes && !TieneFactura(s.db.facturas, id)
    ensures Seqs.DistinctBy(db.facturas, FacturaId) && db.falla.None? ==>
      (s.respuesta.Exito? <==> exists f | f in db.facturas :: f.id == id && f.estado != "pagada")
  {
    match Repo.ObtenerTodas(db)
    case Err(e) => Salida(db, Fallo([e]))
    case Ok(todas) =>
      match Repo.Buscar(todas, id)
      case None =>
        assert !TieneFactura(db.facturas, id) by {
          forall f | f in db.facturas ensures f.id != id {
            assert f in multiset(todas);
          }
        }
        Salida(db, Fallo([NoEncontrada]))
      case Some(factura) =>
        assert factura in multiset(db.facturas);
        UnicoPorId(db.facturas, factura);
        if factura.estado == "pagada" then Salida(db, Fallo([NoPagadas]))
        else
          match Repo.Eliminar(db, id)
          case Err(e) => Salida(db, Fallo([e]))
          case Ok(db2) => Salida(db2, Exito(()))
  }

  /** With distinct ids, a row is the only one carrying its id. */
  lemma UnicoPorId(s: seq<Factura>, f: Factura)
    requires f in s
    ensures Seqs.DistinctBy(s, FacturaId) ==> forall x | x in s && x.id == f.id :: x == f
  {
    if Seqs.DistinctBy(s, FacturaId) {
      forall x | x in s && x.id == f.id
        ensures x == f
      {
        var i :| 0 <= i < |s| && s[i] == x;
        var j :| 0 <= j < |s| && s[j] == f;
        assert FacturaId(s[i]) == FacturaId(s[j]);
      }
    }
  }

  // ----- pending summary -----

  datatype Resumen = Resumen(totalFacturas: nat, montoTotal: real, facturasVencidas: nat, montoVencido: real)

  function Monto(f: Factura): real { f.montoTotal }

  predicate Pendiente(f: Factura) { f.estado == "pendiente" }

  /** `obtenerResumenPendientes`: count and total amount of the pending
      invoices, and of those among them already overdue. It is the one
      operation that lets a store failure escape. */
  function ObtenerResumenPendientes(db: Db, hoy: Dates.Date): (r: Result<Resumen, string>)
    ensures r.Err? <==> db.falla.Some?
    ensures r.Err? ==> r.error == "Error al obtener facturas por estado: " + db.falla.value
    ensures r.Ok? ==> r.value.totalFacturas == Seqs.Count(db.facturas, Pendiente)
    ensures r.Ok? ==> r.value.montoTotal == Seqs.Sum(Seqs.Filter(db.facturas, Pendiente), Monto)
    ensures r.Ok? ==> r.value.facturasVencidas == Seqs.Count(db.facturas, (f: Factura) => Repo.Vencida(f, hoy))
    ensures r.Ok? ==> r.value.montoVencido == Seqs.Sum(Seqs.Filter(db.facturas, (f: Factura) => Repo.Vencida(f, hoy)), Monto)
  {
    match Repo.ObtenerPorEstado(db, "pendiente")
    case Err(e) => Err(e)
    case Ok(pendientes) =>
      match Repo.ObtenerVencidas(db, hoy)
      case Err(e) => Err(e)
      case Ok(vencidas) =>
        assert multiset(pendientes) == multiset(Seqs.Filter(db.facturas, Pendiente));
        assert |multiset(pendientes)| == |pendientes|;
        assert |multiset(vencidas)| == |vencidas|;
        Seqs.SumPermutation(pendientes, Seqs.Filter(db.facturas, Pendiente), Monto);
        Seqs.SumPermutation(vencidas, Seqs.Filter(db.facturas, (f: Factura) => Repo.Vencida(f, hoy)), Monto);
        Ok(Resumen(|pendientes|, Seqs.Sum(pendientes, Monto), |vencidas|, Seqs.Sum(vencidas, Monto)))
  }

  /** The overdue part never exceeds the pending whole: fewer invoices, and
      with non-negative amounts no larger an amount. */
  lemma ResumenAcotado(db: Db, hoy: Dates.Date)
    requires db.falla.None?
    ensures ObtenerResumenPendientes(db, hoy).value.facturasVencidas <= ObtenerResumenPendientes(db, hoy).value.totalFacturas
    ensures (forall f | f in db.facturas :: f.montoTotal >= 0.0) ==>
      ObtenerResumenPendientes(db, hoy).value.montoVencido <= ObtenerResumenPendientes(db, hoy).value.montoTotal
  {
    var q := (f: Factura) => Repo.Vencida(f, hoy);
    if forall f | f in db.facturas :: f.montoTotal >= 0.0 {
      Seqs.SumFilterMono(db.facturas, Pendiente, q, Monto);
    } else {
      Seqs.SumFilterMono(db.facturas, Pendiente, q, (f: Factura) => 0.0);
    }
  }
}

=== FILE: insignia.dfy ===
/** `getEstadoBadgeProps`: the badge colour and label shown for an order or
    invoice state. */
module Insignia {
  import Text
  import Schemas

  /** The badge variants. */
  datatype Variante = Default | Success | Warning | Danger | Info | Outline

  datatype PropsEstado = PropsEstado(variante: Variante, children: string)

  /** The states with an entry of their own in the badge table. */
  const EstadosConocidos: set<string> := Schemas.EstadosOrden + Schemas.EstadosFactura

  /** The table lookup, falling back to the `default` entry, whose label is
      the state as given. */
  function GetEstadoBadgeProps(estado: string): (r: PropsEstado)
    ensures r.variante == Default <==> estado !in EstadosConocidos
    ensures estado !in EstadosConocidos ==> r.children == estado
    ensures r.variante != Outline
    ensures r.variante == Warning <==> estado == "pendiente"
    ensures r.variante == Info <==> estado == "enviada"
    ensures r.variante == Danger <==> estado == "cancelada"
    ensures r.variante == Success <==> estado == "pagada"
  {
    match estado
    case "pendiente" => PropsEstado(Warning, "Pendiente")
    case "enviada" => PropsEstado(Info, "Enviada")
    case "cancelada" => PropsEstado(Danger, "Cancelada")
    case "pagada" => PropsEstado(Success, "Pagada")
    case _ => PropsEstado(Default, estado)
  }

  /** The label is always the state itself up to the case of its letters:
      a known state is shown capitalised. */
  lemma EtiquetaEsEstado(estado: string)
    ensures Text.Lower(GetEstadoBadgeProps(estado).children) == Text.Lower(estado)
    ensures estado in EstadosConocidos ==>
      var c := GetEstadoBadgeProps(estado).children;
      |c| == |estado| > 0 && c[1..] == estado[1..] && Text.LowerChar(c[0]) == estado[0] && c[0] != estado[0]
  {
  }

  /** Different known states get different colours, so the four states of
      the two documents can be told apart by colour alone. */
  lemma VariantesDistintas(a: string, b: string)
    requires a in EstadosConocidos && b in EstadosConocidos && a != b
    ensures GetEstadoBadgeProps(a).variante != GetEstadoBadgeProps(b).variante
  {
  }
}

=== FILE: invariantes.dfy ===
/** The consistency the two services keep between the tables: ids are
    unique, and every invoice bills a purchase order that exists and has
    been sent. Creating an invoice checks the reference, an order leaves
    `enviada` never, and only pending orders can be deleted, so every
    operation keeps it — except an invoice update that names another
    order, which is never checked. */
module Invariantes {
  import opened Wrappers
  import Seqs
  import Dates
  import Schemas
  import opened Store
  import opened Servicio
  import OrdenesServicio
  import FacturasServicio
  import FacturasRepo

  /** An order with that id that has been sent. */
  ghost predicate Respaldada(ordenes: seq<Orden>, ordenId: string) {
    exists o | o in ordenes :: o.id == ordenId && o.estado == "enviada"
  }

  /** Every invoice bills a sent purchase order. */
  ghost predicate FacturasRespaldadas(db: Db) {
    forall f | f in db.facturas :: Respaldada(db.ordenes, f.ordenCompraId)
  }

  ghost predicate Consistente(db: Db) {
    IdsUnicos(db) && FacturasRespaldadas(db)
  }

  /** Appending a row whose key is new keeps the keys distinct. */
  lemma DistintoAlAgregar<T, K>(s: seq<T>, x: T, key: T -> K)
    requires Seqs.DistinctBy(s, key)
    requires forall i | 0 <= i < |s| :: key(s[i]) != key(x)
    ensures Seqs.DistinctBy(s + [x], key)
  {
    var t := s + [x];
    forall i, j | 0 <= i < j < |t| ensures key(t[i]) != key(t[j]) {
      if j == |s| {
        assert t[i] == s[i];
      } else {
        assert t[i] == s[i] && t[j] == s[j];
      }
    }
  }

  /** A fresh id differs from every id in the table. */
  lemma OrdenNueva(s: seq<Orden>, id: string)
    requires !TieneOrden(s, id)
    ensures forall i | 0 <= i < |s| :: OrdenId(s[i]) != id
  {
    forall i | 0 <= i < |s| ensures OrdenId(s[i]) != id {
      assert s[i] in s;
    }
  }

  lemma FacturaNueva(s: seq<Factura>, id: string)
    requires !TieneFactura(s, id)
    ensures forall i | 0 <= i < |s| :: FacturaId(s[i]) != id
  {
    forall i | 0 <= i < |s| ensures FacturaId(s[i]) != id {
      assert s[i] in s;
    }
  }

  // ----- purchase orders -----

  /** Creating an order keeps the store consistent. */
  lemma CrearOrdenPreserva(v: Schemas.Validadores, db: Db, reloj: Reloj, id: string, creadoEn: int,
                           datos: Schemas.OrdenInput)
    requires !TieneOrden(db.ordenes, id) && Consistente(db)
    ensures Consistente(OrdenesServicio.Crear(v, db, reloj, id, creadoEn, datos).db)
  {
    var s := OrdenesServicio.Crear(v, db, reloj, id, creadoEn, datos);
    if s.respuesta.Exito? {
      OrdenNueva(db.ordenes, id);
      DistintoAlAgregar(db.ordenes, s.respuesta.datos, OrdenId);
      forall f | f in s.db.facturas ensures Respaldada(s.db.ordenes, f.ordenCompraId) {
        var o :| o in db.ordenes && o.id == f.ordenCompraId && o.estado == "enviada";
        assert o in s.db.ordenes;
      }
    }
  }

  /** Updating an order keeps the store consistent: ids do not change, and
      a sent order stays sent because `enviada` has no way out. */
  lemma ActualizarOrdenPreserva(v: Schemas.Validadores, db: Db, id: string, cambios: Schemas.OrdenCambiosInput)
    requires Consistente(db)
    ensures Consistente(OrdenesServicio.Actualizar(v, db, id, cambios).db)
  {
    var s := OrdenesServicio.Actualizar(v, db, id, cambios);
    OrdenesServicio.ActualizarEfecto(v, db, id, cambios);
    if s.respuesta.Exito? {
      forall i | 0 <= i < |db.ordenes|
        ensures s.db.ordenes[i].id == db.ordenes[i].id
        ensures db.ordenes[i].estado == "enviada" ==> s.db.ordenes[i].estado == "enviada"
      {
        assert !OrdenesServicio.TransicionValida("enviada", s.db.ordenes[i].estado);
      }
      OrdenesCompatibles(db, s.db);
    }
  }

  /** Rewriting orders in place, keeping their ids and keeping sent orders
      sent, keeps the store consistent. */
  lemma OrdenesCompatibles(db: Db, db2: Db)
    requires Consistente(db)
    requires db2.facturas == db.facturas && |db2.ordenes| == |db.ordenes|
    requires forall i | 0 <= i < |db.ordenes| :: db2.ordenes[i].id == db.ordenes[i].id
    requires forall i | 0 <= i < |db.ordenes| :: db.ordenes[i].estado == "enviada" ==> db2.ordenes[i].estado == "enviada"
    ensures Consistente(db2)
  {
    var a, b := db.ordenes, db2.ordenes;
    assert Seqs.DistinctBy(b, OrdenId) by {
      forall i, j | 0 <= i < j < |b| ensures OrdenId(b[i]) != OrdenId(b[j]) {
        assert OrdenId(a[i]) != OrdenId(a[j]);
      }
    }
    forall f | f in db2.facturas ensures Respaldada(b, f.ordenCompraId) {
      var o :| o in a && o.id == f.ordenCompraId && o.estado == "enviada";
      var k :| 0 <= k < |a| && a[k] == o;
      assert b[k] in b;
    }
  }

  /** Deleting an order keeps the store consistent: only a pending order
      goes, and with unique ids no invoice can be billing it. */
  lemma EliminarOrdenPreserva(db: Db, id: string)
    requires Consistente(db)
    ensures Consistente(OrdenesServicio.Eliminar(db, id).db)
  {
    var s := OrdenesServicio.Eliminar(db, id);
    if s.respuesta.Exito? {
      var borrada :| borrada in db.ordenes && borrada.id == id && borrada.estado == "pendiente";
      OrdenesServicio.UnicoPorId(db.ordenes, borrada);
      forall f | f in s.db.facturas ensures Respaldada(s.db.ordenes, f.ordenCompraId) {
        var o :| o in db.ordenes && o.id == f.ordenCompraId && o.estado == "enviada";
        assert o.id != id;
        assert multiset(s.db.ordenes)[o] == multiset(db.ordenes)[o] > 0;
      }
    }
  }

  // ----- invoices -----

  /** Creating an invoice keeps the store consistent: the order it bills
      was checked to exist and to be sent. */
  lemma CrearFacturaPreserva(v: Schemas.Validadores, db: Db, reloj: Reloj, id: string, creadoEn: int,
                             datos: Schemas.FacturaInput)
    requires !TieneFactura(db.facturas, id) && Consistente(db)
    ensures Consistente(FacturasServicio.Crear(v, db, reloj, id, creadoEn, datos).db)
  {
    var s := FacturasServicio.Crear(v, db, reloj, id, creadoEn, datos);
    if s.respuesta.Exito? {
      FacturaNueva(db.facturas, id);
      AgregarFacturaRespaldada(db, s.respuesta.datos);
    }
  }

  /** Appending an invoice with a new id that bills a sent order keeps the
      store consistent. */
  lemma AgregarFacturaRespaldada(db: Db, x: Factura)
    requires Consistente(db) && Respaldada(db.ordenes, x.ordenCompraId)
    requires forall i | 0 <= i < |db.facturas| :: FacturaId(db.facturas[i]) != x.id
    ensures Consistente(db.(facturas := db.facturas + [x]))
  {
    DistintoAlAgregar(db.facturas, x, FacturaId);
    var db2 := db.(facturas := db.facturas + [x]);
    forall g | g in db2.facturas ensures Respaldada(db2.ordenes, g.ordenCompraId) {
      if g != x {
        assert g in db.facturas;
      }
    }
  }

  /** Updating an invoice without naming another order keeps the store
      consistent. */
  lemma ActualizarFacturaPreserva(v: Schemas.Validadores, db: Db, reloj: Reloj, id: string,
                                  cambios: Schemas.FacturaCambiosInput)
    requires Consistente(db) && cambios.ordenCompraId.None?
    ensures Consistente(FacturasServicio.Actualizar(v, db, reloj, id, cambios).db)
  {
    var s := FacturasServicio.Actualizar(v, db, reloj, id, cambios);
    FacturasServicio.ActualizarEfecto(v, db, reloj, id, cambios);
    if s.respuesta.Exito? {
      forall i | 0 <= i < |db.facturas|
        ensures s.db.facturas[i].id == db.facturas[i].id
        ensures s.db.facturas[i].ordenCompraId == db.facturas[i].ordenCompraId
      {
      }
      FacturasCompatibles(db, s.db);
    }
  }

  /** Rewriting invoices in place, keeping their ids and the orders they
      bill, keeps the store consistent. */
  lemma FacturasCompatibles(db: Db, db2: Db)
    requires Consistente(db)
    requires db2.ordenes == db.ordenes && |db2.facturas| == |db.facturas|
    requires forall i | 0 <= i < |db.facturas| ::
      db2.facturas[i].id == db.facturas[i].id && db2.facturas[i].ordenCompraId == db.facturas[i].ordenCompraId
    ensures Consistente(db2)
  {
    var a, b := db.facturas, db2.facturas;
    assert Seqs.DistinctBy(b, FacturaId) by {
      forall i, j | 0 <= i < j < |b| ensures FacturaId(b[i]) != FacturaId(b[j]) {
        assert FacturaId(a[i]) != FacturaId(a[j]);
      }
    }
    forall f | f in b ensures Respaldada(db2.ordenes, f.ordenCompraId) {
      var k :| 0 <= k < |b| && b[k] == f;
      assert a[k] in a;
    }
  }

  /** Marking an invoice as paid keeps the store consistent. */
  lemma MarcarComoPagadaPreserva(v: Schemas.Validadores, db: Db, reloj: Reloj, id: string, fechaPago: Option<string>)
    requires Consistente(db) && Dates.Valid(reloj.hoy)
    ensures Consistente(FacturasServicio.MarcarComoPagada(v, db, reloj, id, fechaPago).db)
  {
    ActualizarFacturaPreserva(v, db, reloj, id, FacturasServicio.CambiosPago(fechaPago, reloj.hoy));
  }

  /** Deleting an invoice keeps the store consistent. */
  lemma EliminarFacturaPreserva(db: Db, id: string)
    requires Consistente(db)
    ensures Consistente(FacturasServicio.Eliminar(db, id).db)
  {
    var s := FacturasServicio.Eliminar(db, id);
    if s.respuesta.Exito? {
      forall f | f in s.db.facturas ensures Respaldada(s.db.ordenes, f.ordenCompraId) {
        assert multiset(s.db.facturas)[f] > 0;
        assert f in db.facturas;
      }
    }
  }

  /** An invoice update that names an order that does not exist is
      accepted, and the invoice no longer bills a sent order. The update
      restates the invoice's own state, so it passes whether or not the
      library fills in defaults. */
  lemma ActualizarFacturaRompeRespaldo(v: Schemas.Validadores, db: Db, reloj: Reloj, o: Orden, f: Factura, otra: string)
    requires db.falla.None? && db.ordenes == [o] && db.facturas == [f]
    requires o.id == f.ordenCompraId && o.estado == "enviada" && f.estado in Schemas.EstadosFactura
    requires otra != o.id && v.esUuid(otra)
    ensures Consistente(db)
    ensures var s := FacturasServicio.Actualizar(v, db, reloj, f.id, CambioDeOrden(otra, f.estado));
      s.respuesta.Exito? && !Consistente(s.db)
  {
    UnaFacturaConsistente(db, o, f);
    ActualizarCambiaOrden(v, db, reloj, f, otra);
    var s := FacturasServicio.Actualizar(v, db, reloj, f.id, CambioDeOrden(otra, f.estado));
    FacturasServicio.ActualizarEfecto(v, db, reloj, f.id, CambioDeOrden(otra, f.estado));
    SinRespaldo(s.db, o, otra);
  }

  /** One sent order and one invoice billing it are consistent. */
  lemma UnaFacturaConsistente(db: Db, o: Orden, f: Factura)
    requires db.ordenes == [o] && db.facturas == [f]
    requires o.id == f.ordenCompraId && o.estado == "enviada"
    ensures Consistente(db)
  {
    assert o in db.ordenes;
  }

  /** An invoice billing an id other than the one order's is unbacked. */
  lemma SinRespaldo(db: Db, o: Orden, otra: string)
    requires db.ordenes == [o] && |db.facturas| == 1 && db.facturas[0].ordenCompraId == otra && otra != o.id
    ensures !Consistente(db)
  {
    assert db.facturas[0] in db.facturas;
  }

  /** With one invoice, pointing it at any well-formed id is accepted. */
  lemma ActualizarCambiaOrden(v: Schemas.Validadores, db: Db, reloj: Reloj, f: Factura, otra: string)
    requires db.falla.None? && db.facturas == [f] && v.esUuid(otra) && f.estado in Schemas.EstadosFactura
    ensures FacturasServicio.Actualizar(v, db, reloj, f.id, CambioDeOrden(otra, f.estado)).respuesta.Exito?
  {
    var todas := FacturasRepo.ObtenerTodas(db).value;
    assert multiset(todas) == multiset{f};
    assert todas == [f];
    EncontradaCambiaOrden(v, db, reloj.hoy, f, otra);
  }

  /** The changes that point an invoice at another order, restating its
      state. */
  function CambioDeOrden(otra: string, estado: string): Schemas.FacturaCambiosInput {
    Schemas.FacturaCambiosInput(None, Some(otra), None, None, None, None, None, Some(estado), None, None, None, None)
  }

  /** With one invoice, pointing it at any well-formed id goes through. */
  lemma EncontradaCambiaOrden(v: Schemas.Validadores, db: Db, hoy: Dates.Date, f: Factura, otra: string)
    requires db.falla.None? && db.facturas == [f] && v.esUuid(otra) && f.estado in Schemas.EstadosFactura
    ensures FacturasServicio.ActualizarEncontrada(v, db, hoy, f.id, f, CambioDeOrden(otra, f.estado)).respuesta.Exito?
  {
    var c := Schemas.ValidarActualizarFactura(v, CambioDeOrden(otra, f.estado));
    assert c.Ok?;
    EscribirUnaFila(db, hoy, f, c.value);
  }

  /** With one invoice and no change of state, the write goes through. */
  lemma EscribirUnaFila(db: Db, hoy: Dates.Date, f: Factura, c: Schemas.FacturaCambios)
    requires db.falla.None? && db.facturas == [f] && (c.estado.None? || c.estado == Some(f.estado))
    ensures FacturasServicio.Escribir(db, hoy, f.id, f, c).respuesta.Exito?
  {
    Seqs.CountUno(f);
  }
}

=== FILE: ordenes_repo.dfy ===
/** The `ordenes_compra` repository: each query is a filter and an ordering
    over the order rows, each write a change to them. A store in failure
    makes every call fail with the call's own message prefix. */
module OrdenesRepo {
  import opened Wrappers
  import Dates
  import Text
  import Seqs
  import Schemas
  import opened Store

  /** The store's answer when `.single()` does not find exactly one row. */
  const SinFilaUnica := "JSON object requested, multiple (or no) rows returned"

  function CreadoDesc(o: Orden): int { -o.creadoEn }
  function FechaOrdenDesc(o: Orden): int { -Dates.Ordinal(o.fechaOrden) }

  /** Newest `creado_en` first. */
  ghost predicate MasRecientesPrimero(s: seq<Orden>) {
    forall i, j | 0 <= i < j < |s| :: s[i].creadoEn >= s[j].creadoEn
  }

  /** Latest `fecha_orden` first. */
  ghost predicate FechaOrdenDescendente(s: seq<Orden>) {
    forall i, j | 0 <= i < j < |s| :: !Dates.Before(s[i].fechaOrden, s[j].fechaOrden)
  }

  /** `obtenerTodas`: every row, newest first. */
  function ObtenerTodas(db: Db): (r: Result<seq<Orden>, string>)
    ensures r.Err? <==> db.falla.Some?
    ensures r.Err? ==> r.error == "Error al obtener órdenes de compra: " + db.falla.value
    ensures r.Ok? ==> multiset(r.value) == multiset(db.ordenes) && MasRecientesPrimero(r.value)
  {
    if db.falla.Some? then Err("Error al obtener órdenes de compra: " + db.falla.value)
    else
      var s := Seqs.SortBy(db.ordenes, CreadoDesc);
      assert forall i, j | 0 <= i < j < |s| :: CreadoDesc(s[i]) <= CreadoDesc(s[j]);
      Ok(s)
  }

  /** The row the store builds from a validated payload, its id and its
      insertion time. */
  function Fila(id: string, creadoEn: int, n: Schemas.NuevaOrden): Orden {
    Orden(id, n.numeroOrden, n.nombreProveedor, n.emailProveedor, n.telefonoProveedor,
          n.montoTotal, n.moneda, n.estado, n.fechaOrden, n.fechaEntregaEsperada, n.notas, creadoEn)
  }

  /** `crear`: inserts one row with a fresh id and returns it. */
  function Crear(db: Db, id: string, creadoEn: int, n: Schemas.NuevaOrden): (r: Result<(Db, Orden), string>)
    requires !TieneOrden(db.ordenes, id)
    ensures r.Err? <==> db.falla.Some?
    ensures r.Err? ==> r.error == "Error al crear orden de compra: " + db.falla.value
    ensures r.Ok? ==> r.value.0 == db.(ordenes := db.ordenes + [r.value.1])
    ensures r.Ok? ==> r.value.1.id == id && r.value.1.creadoEn == creadoEn
    ensures r.Ok? ==> r.value.1.numeroOrden == n.numeroOrden && r.value.1.estado == n.estado
    ensures r.Ok? ==> r.value.1.montoTotal == n.montoTotal && r.value.1.fechaOrden == n.fechaOrden
    ensures r.Ok? ==> r.value.1.fechaEntregaEsperada == n.fechaEntregaEsperada
    ensures r.Ok? ==> r.value.1.nombreProveedor == n.nombreProveedor && r.value.1.moneda == n.moneda
    ensures r.Ok? ==> r.value.1.emailProveedor == n.emailProveedor && r.value.1.telefonoProveedor == n.telefonoProveedor
    ensures r.Ok? ==> r.value.1.notas == n.notas
  {
    if db.falla.Some? then Err("Error al crear orden de compra: " + db.falla.value)
    else
      var fila := Fila(id, creadoEn, n);
      Ok((db.(ordenes := db.ordenes + [fila]), fila))
  }

  /** An order row with the validated changes written over it: a column
      whose change is absent keeps its value. */
  function Aplicar(o: Orden, c: Schemas.OrdenCambios): (r: Orden)
    ensures r.id == o.id && r.creadoEn == o.creadoEn
    ensures r.estado == c.estado.GetOr(o.estado)
    ensures r.numeroOrden == c.numeroOrden.GetOr(o.numeroOrden)
    ensures r.montoTotal == c.montoTotal.GetOr(o.montoTotal)
    ensures r.fechaEntregaEsperada == c.fechaEntregaEsperada.GetOr(o.fechaEntregaEsperada)
    ensures r.nombreProveedor == c.nombreProveedor.GetOr(o.nombreProveedor)
    ensures r.moneda == c.moneda.GetOr(o.moneda) && r.fechaOrden == c.fechaOrden.GetOr(o.fechaOrden)
    ensures r.emailProveedor == (if c.emailProveedor.Some? then c.emailProveedor else o.emailProveedor)
    ensures r.telefonoProveedor == (if c.telefonoProveedor.Some? then c.telefonoProveedor else o.telefonoProveedor)
    ensures r.notas == (if c.notas.Some? then c.notas else o.notas)
  {
    o.(numeroOrden := c.numeroOrden.GetOr(o.numeroOrden),
       nombreProveedor := c.nombreProveedor.GetOr(o.nombreProveedor),
       emailProveedor := if c.emailProveedor.Some? then c.emailProveedor else o.emailProveedor,
       telefonoProveedor := if c.telefonoProveedor.Some? then c.telefonoProveedor else o.telefonoProveedor,
       montoTotal := c.montoTotal.GetOr(o.montoTotal),
       moneda := c.moneda.GetOr(o.moneda),
       estado := c.estado.GetOr(o.estado),
       fechaOrden := c.fechaOrden.GetOr(o.fechaOrden),
       fechaEntregaEsperada := c.fechaEntregaEsperada.GetOr(o.fechaEntregaEsperada),
       notas := if c.notas.Some? then c.notas else o.notas)
  }

  /** No change at all. */
  const SinCambios := Schemas.OrdenCambios(None, None, None, None, None, None, None, None, None, None)

  /** Writing the same changes twice is writing them once, and writing no
      change leaves the row as it is. */
  lemma AplicarIdempotente(o: Orden, c: Schemas.OrdenCambios)
    ensures Aplicar(Aplicar(o, c), c) == Aplicar(o, c)
    ensures Aplicar(o, SinCambios) == o
  {
  }

  /** The rows with `id` replaced by their updated versions. */
  function ActualizarFilas(s: seq<Orden>, id: string, c: Schemas.OrdenCambios): (r: seq<Orden>)
    ensures |r| == |s|
    ensures forall i | 0 <= i < |s| :: r[i] == if s[i].id == id then Aplicar(s[i], c) else s[i]
    ensures forall i | 0 <= i < |s| :: r[i].id == s[i].id && r[i].creadoEn == s[i].creadoEn
  {
    seq(|s|, i requires 0 <= i < |s| => if s[i].id == id then Aplicar(s[i], c) else s[i])
  }

  /** An update keeps every id where it was: each id is carried by as many
      rows as before, and ids that were unique stay unique. */
  lemma ActualizarFilasConservaIds(s: seq<Orden>, id: string, c: Schemas.OrdenCambios, k: string)
    ensures Seqs.Count(ActualizarFilas(s, id, c), (o: Orden) => o.id == k) == Seqs.Count(s, (o: Orden) => o.id == k)
    ensures Seqs.DistinctBy(s, OrdenId) ==> Seqs.DistinctBy(ActualizarFilas(s, id, c), OrdenId)
  {
    ConservaCuenta(s, id, c, k);
    var r := ActualizarFilas(s, id, c);
    if Seqs.DistinctBy(s, OrdenId) {
      forall i, j | 0 <= i < j < |r| ensures OrdenId(r[i]) != OrdenId(r[j]) {
        assert OrdenId(s[i]) != OrdenId(s[j]);
      }
    }
  }

  lemma {:induction false} ConservaCuenta(s: seq<Orden>, id: string, c: Schemas.OrdenCambios, k: string)
    ensures Seqs.Count(ActualizarFilas(s, id, c), (o: Orden) => o.id == k) == Seqs.Count(s, (o: Orden) => o.id == k)
  {
    if |s| > 0 {
      var r := ActualizarFilas(s, id, c);
      assert r[1..] == ActualizarFilas(s[1..], id, c);
      assert r[0].id == s[0].id;
      ConservaCuenta(s[1..], id, c, k);
    }
  }

  /** `actualizar(id, cambios)`: updates the one row with that id and returns
      it; with no such row (or several) the store answers with an error and
      writes nothing. */
  function Actualizar(db: Db, id: string, c: Schemas.OrdenCambios): (r: Result<(Db, Orden), string>)
    ensures r.Err? <==> db.falla.Some? || Seqs.Count(db.ordenes, (o: Orden) => o.id == id) != 1
    ensures r.Err? && db.falla.Some? ==> r.error == "Error al actualizar orden de compra: " + db.falla.value
    ensures r.Err? && db.falla.None? ==> r.error == "Error al actualizar orden de compra: " + SinFilaUnica
    ensures r.Ok? ==> r.value.0 == db.(ordenes := ActualizarFilas(db.ordenes, id, c))
    ensures r.Ok? ==> exists o | o in db.ordenes && o.id == id :: r.value.1 == Aplicar(o, c)
  {
    if db.falla.Some? then Err("Error al actualizar orden de compra: " + db.falla.value)
    else if Seqs.Count(db.ordenes, (o: Orden) => o.id == id) != 1 then
      Err("Error al actualizar orden de compra: " + SinFilaUnica)
    else
      var unica := Seqs.Filter(db.ordenes, (o: Orden) => o.id == id);
      assert unica[0] in multiset(unica);
      assert unica[0] in db.ordenes;
      Ok((db.(ordenes := ActualizarFilas(db.ordenes, id, c)), Aplicar(unica[0], c)))
  }

  /** `eliminar(id)`: removes the rows with that id; the rest keep their
      order. */
  function Eliminar(db: Db, id: string): (r: Result<Db, string>)
    ensures r.Err? <==> db.falla.Some?
    ensures r.Err? ==> r.error == "Error al eliminar orden de compra: " + db.falla.value
    ensures r.Ok? ==> r.value.facturas == db.facturas && r.value.falla == db.falla
    ensures r.Ok? ==> !TieneOrden(r.value.ordenes, id)
    ensures r.Ok? ==> forall o :: multiset(r.value.ordenes)[o] == if o.id == id then 0 else multiset(db.ordenes)[o]
    ensures r.Ok? && Seqs.DistinctBy(db.ordenes, OrdenId) ==> Seqs.DistinctBy(r.value.ordenes, OrdenId)
  {
    if db.falla.Some? then Err("Error al eliminar orden de compra: " + db.falla.value)
    else
      var otra := (o: Orden) => o.id != id;
      var resto := Seqs.Filter(db.ordenes, otra);
      Seqs.FilterDistinto(db.ordenes, otra, OrdenId);
      assert forall o | o in resto :: o.id != id by {
        forall o | o in resto ensures o.id != id {
          var k :| 0 <= k < |resto| && resto[k] == o;
        }
      }
      Ok(db.(ordenes := resto))
  }

  /** Deleting an id no row has changes nothing. */
  lemma EliminarAusente(db: Db, id: string)
    requires db.falla.None? && !TieneOrden(db.ordenes, id)
    ensures Eliminar(db, id) == Ok(db)
  {
    Seqs.FilterTodos(db.ordenes, (o: Orden) => o.id != id);
  }

  /** `obtenerPorEstado(estado)`: exactly the rows in that state, latest
      `fecha_orden` first. */
  function ObtenerPorEstado(db: Db, estado: string): (r: Result<seq<Orden>, string>)
    ensures r.Err? <==> db.falla.Some?
    ensures r.Err? ==> r.error == "Error al obtener órdenes por estado: " + db.falla.value
    ensures r.Ok? ==> forall o :: multiset(r.value)[o] == if o.estado == estado then multiset(db.ordenes)[o] else 0
    ensures r.Ok? ==> FechaOrdenDescendente(r.value)
  {
    if db.falla.Some? then Err("Error al obtener órdenes por estado: " + db.falla.value)
    else
      var s := Seqs.SortBy(Seqs.Filter(db.ordenes, (o: Orden) => o.estado == estado), FechaOrdenDesc);
      assert forall i, j | 0 <= i < j < |s| :: !Dates.Before(s[i].fechaOrden, s[j].fechaOrden) by {
        forall i, j | 0 <= i < j < |s| ensures !Dates.Before(s[i].fechaOrden, s[j].fechaOrden) {
          assert FechaOrdenDesc(s[i]) <= FechaOrdenDesc(s[j]);
          Dates.OrdinalOrder(s[i].fechaOrden, s[j].fechaOrden);
        }
      }
      Ok(s)
  }

  /** `ilike '%q%'` on ordinary (wildcard-free) text: a case-insensitive
      substring test. */
  predicate CoincideProveedor(o: Orden, q: string) {
    Text.Contains(Text.Lower(o.nombreProveedor), Text.Lower(q))
  }

  /** `buscarPorProveedor(q)`: exactly the rows whose supplier name contains
      `q` ignoring case, newest first. */
  function BuscarPorProveedor(db: Db, q: string): (r: Result<seq<Orden>, string>)
    ensures r.Err? <==> db.falla.Some?
    ensures r.Err? ==> r.error == "Error al buscar órdenes por proveedor: " + db.falla.value
    ensures r.Ok? ==> forall o :: multiset(r.value)[o] == if CoincideProveedor(o, q) then multiset(db.ordenes)[o] else 0
    ensures r.Ok? ==> MasRecientesPrimero(r.value)
  {
    if db.falla.Some? then Err("Error al buscar órdenes por proveedor: " + db.falla.value)
    else
      var s := Seqs.SortBy(Seqs.Filter(db.ordenes, (o: Orden) => CoincideProveedor(o, q)), CreadoDesc);
      assert forall i, j | 0 <= i < j < |s| :: CreadoDesc(s[i]) <= CreadoDesc(s[j]);
      Ok(s)
  }

  /** A supplier matches a query exactly when the lower-cased query occurs
      somewhere in the lower-cased name. */
  lemma CoincideProveedorIff(o: Orden, q: string)
    ensures CoincideProveedor(o, q) <==> exists i :: Text.OccursAt(Text.Lower(o.nombreProveedor), Text.Lower(q), i)
  {
    Text.ContainsIff(Text.Lower(o.nombreProveedor), Text.Lower(q));
  }

  /** `orders.find(o => o.id === id)` */
  function Buscar(s: seq<Orden>, id: string): (r: Option<Orden>)
    ensures r.None? <==> !TieneOrden(s, id)
    ensures r.Some? ==> r.value in s && r.value.id == id
    ensures r.Some? ==> exists k | 0 <= k < |s| :: s[k] == r.value && forall j | 0 <= j < k :: s[j].id != id
  {
    match Seqs.FindIndex(s, (o: Orden) => o.id == id)
    case None =>
      assert forall o | o in s :: o.id != id by {
        forall o | o in s ensures o.id != id {
          var k :| 0 <= k < |s| && s[k] == o;
        }
      }
      None
    case Some(k) =>
      assert forall j | 0 <= j < k :: s[j].id != id;
      Some(s[k])
  }
}

=== FILE: ordenes_servicio.dfy ===
/** The purchase-order service: creation with automatic numbering and
    business rules, updates guarded by the state-transition table, and
    deletion of pending orders only. Every outcome is an envelope; a
    failure leaves the store as it was. */
module OrdenesServicio {
  import opened Wrappers
  import Dates
  import Seqs
  import Text
  import Schemas
  import opened Store
  import Repo = OrdenesRepo
  import opened Servicio

  const Serie := "OC"

  const NoEncontrada := "Orden de compra no encontrada"
  const SoloPendientes := "Solo se pueden eliminar órdenes en estado pendiente"
  const NumeroDuplicado := "Ya existe una orden con este número"
  const EntregaNoPosterior := "La fecha de entrega esperada debe ser posterior a la fecha de orden"
  const MontoInsuficiente := "El monto total debe ser mayor a 0"

  /** The least amount the business rules accept. */
  const MontoMinimo: real := 0.01

  // ----- state transitions -----

  /** `validarTransicionEstado`: `pendiente` may become `enviada` or
      `cancelada`; `enviada` and `cancelada` are final, and a state outside
      the table has no way out. */
  predicate TransicionValida(actual: string, nuevo: string) {
    if actual == "pendiente" then nuevo == "enviada" || nuevo == "cancelada"
    else false
  }

  /** The table only leaves `pendiente`, only towards other states of the
      enum, and what it reaches is final: no path is longer than one step. */
  lemma TablaTransiciones(a: string, b: string, c: string)
    ensures TransicionValida(a, b) ==> a == "pendiente" && b in Schemas.EstadosOrden && b != a
    ensures TransicionValida(a, b) ==> !TransicionValida(b, c)
    ensures !TransicionValida("enviada", c) && !TransicionValida("cancelada", c)
  {
  }

  // ----- numbering -----

  function NumeroDe(o: Orden): string { o.numeroOrden }

  predicate NumeroUsado(s: seq<Orden>, numero: string) {
    exists o | o in s :: o.numeroOrden == numero
  }

  /** The order numbers of the store are pairwise distinct. */
  ghost predicate NumerosUnicos(s: seq<Orden>) {
    Seqs.DistinctBy(s, NumeroDe)
  }

  function Numeros(s: seq<Orden>): (r: seq<string>)
    ensures |r| == |s| && forall i | 0 <= i < |s| :: r[i] == s[i].numeroOrden
  {
    seq(|s|, i requires 0 <= i < |s| => s[i].numeroOrden)
  }

  /** `generarNumeroOrden` over the rows it reads: the month's next
      `OC-YYYYMM-NNN`. */
  function GenerarNumero(s: seq<Orden>, reloj: Reloj): (r: string)
    ensures |r| > |PrefijoMes(Serie, reloj.anio, reloj.mes)|
  {
    NumeroDelMes(Serie, reloj.anio, reloj.mes, EmitidosDelMes(Numeros(s), Serie, reloj.anio, reloj.mes))
  }

  /** The count behind the number does not depend on the order the rows are
      read in. */
  lemma GenerarNumeroPermutacion(a: seq<Orden>, b: seq<Orden>, reloj: Reloj)
    requires multiset(a) == multiset(b)
    ensures GenerarNumero(a, reloj) == GenerarNumero(b, reloj)
  {
    var p := (o: Orden) => Text.StartsWith(o.numeroOrden, PrefijoMes(Serie, reloj.anio, reloj.mes));
    var q := (n: string) => Text.StartsWith(n, PrefijoMes(Serie, reloj.anio, reloj.mes));
    CountNumeros(a, p, q);
    CountNumeros(b, p, q);
    Seqs.FilterPermutation(a, b, p);
  }

  lemma {:induction false} CountNumeros(s: seq<Orden>, p: Orden -> bool, q: string -> bool)
    requires forall o :: p(o) == q(o.numeroOrden)
    ensures Seqs.Count(Numeros(s), q) == Seqs.Count(s, p)
  {
    if |s| > 0 {
      CountNumeros(s[1..], p, q);
      assert Numeros(s)[1..] == Numeros(s[1..]);
    }
  }

  /** The generated number is the month's prefix, a dash, and at least
      three digits whose value is one more than the number of rows already
      numbered under that prefix. */
  lemma GenerarNumeroSiguiente(s: seq<Orden>, reloj: Reloj)
    ensures var r := GenerarNumero(s, reloj);
      Text.StartsWith(r, PrefijoMes(Serie, reloj.anio, reloj.mes) + "-") &&
      var sufijo := Sufijo(Serie, reloj.anio, reloj.mes, r);
      |sufijo| >= 3 && Text.AllDigits(sufijo) &&
      Text.DecimalValue(sufijo) == Seqs.Count(s, (o: Orden) => Text.StartsWith(o.numeroOrden, PrefijoMes(Serie, reloj.anio, reloj.mes))) + 1
  {
    var p := (o: Orden) => Text.StartsWith(o.numeroOrden, PrefijoMes(Serie, reloj.anio, reloj.mes));
    var q := (n: string) => Text.StartsWith(n, PrefijoMes(Serie, reloj.anio, reloj.mes));
    CountNumeros(s, p, q);
    SufijoEsSiguiente(Serie, reloj.anio, reloj.mes, EmitidosDelMes(Numeros(s), Serie, reloj.anio, reloj.mes));
  }

  /** The number an order is created with: the caller's, unless it is
      blank, in which case the generated one. */
  function NumeroAsignado(db: Db, reloj: Reloj, datos: Schemas.OrdenInput): string {
    if NumeroVacio(datos.numeroOrden) then GenerarNumero(db.ordenes, reloj) else datos.numeroOrden.value
  }

  // ----- business rules -----

  /** The violated business rules, all of them, in the order they are
      checked. */
  function Violaciones(duplicado: bool, n: Schemas.NuevaOrden): (r: seq<string>)
    ensures NumeroDuplicado in r <==> duplicado
    ensures EntregaNoPosterior in r <==>
      n.fechaEntregaEsperada.Some? && !Dates.Before(n.fechaOrden, n.fechaEntregaEsperada.value)
    ensures MontoInsuficiente in r <==> n.montoTotal < MontoMinimo
    ensures forall e | e in r :: e in {NumeroDuplicado, EntregaNoPosterior, MontoInsuficiente}
  {
    (if duplicado then [NumeroDuplicado] else [])
    + (if n.fechaEntregaEsperada.Some? && !Dates.Before(n.fechaOrden, n.fechaEntregaEsperada.value)
       then [EntregaNoPosterior] else [])
    + (if n.montoTotal < MontoMinimo then [MontoInsuficiente] else [])
  }

  /** `validarReglasNegocio`: the duplicate check reads the store (only for
      a non-empty number); the date and amount checks do not. */
  function ReglasNegocio(db: Db, n: Schemas.NuevaOrden): (r: Result<seq<string>, string>)
    ensures r.Err? <==> n.numeroOrden != "" && db.falla.Some?
    ensures r.Err? ==> r.error == "Error al obtener órdenes de compra: " + db.falla.value
    ensures r.Ok? ==> r.value == Violaciones(n.numeroOrden != "" && NumeroUsado(db.ordenes, n.numeroOrden), n)
  {
    if n.numeroOrden != "" then
      match Repo.ObtenerTodas(db)
      case Err(e) => Err(e)
      case Ok(todas) =>
        assert forall o :: o in todas <==> o in db.ordenes by {
          forall o ensures o in todas <==> o in db.ordenes {
            assert o in todas <==> o in multiset(todas);
          }
        }
        Ok(Violaciones(NumeroUsado(todas, n.numeroOrden), n))
    else Ok(Violaciones(false, n))
  }

  // ----- create -----

  /** Step 1 of `crear`: a blank number is replaced by the generated one,
      which needs the rows of the store. */
  function ConNumero(db: Db, reloj: Reloj, datos: Schemas.OrdenInput): (r: Result<Schemas.OrdenInput, string>)
    ensures r.Err? <==> NumeroVacio(datos.numeroOrden) && db.falla.Some?
    ensures r.Err? ==> r.error == "Error al obtener órdenes de compra: " + db.falla.value
    ensures r.Ok? ==> r.value == datos.(numeroOrden := Some(NumeroAsignado(db, reloj, datos)))
    ensures r.Ok? ==> r.value.numeroOrden.value != ""
  {
    if NumeroVacio(datos.numeroOrden) then
      match Repo.ObtenerTodas(db)
      case Err(e) => Err(e)
      case Ok(todas) =>
        GenerarNumeroPermutacion(todas, db.ordenes, reloj);
        Ok(datos.(numeroOrden := Some(GenerarNumero(todas, reloj))))
    else
      NumeroDado(datos.numeroOrden);
      Ok(datos)
  }

  /** Steps 3 and 4 of `crear`: the business rules over a validated payload,
      then the insertion. */
  function Insertar(db: Db, id: string, creadoEn: int, n: Schemas.NuevaOrden): (s: Salida<Orden>)
    requires !TieneOrden(db.ordenes, id)
    ensures s.respuesta.Fallo? ==> s.db == db && |s.respuesta.errores| > 0
    ensures s.respuesta.Exito? ==> db.falla.None?
    ensures s.respuesta.Exito? ==> s.respuesta.datos == Repo.Fila(id, creadoEn, n)
    ensures s.respuesta.Exito? ==> s.db == db.(ordenes := db.ordenes + [s.respuesta.datos])
    ensures s.respuesta.Exito? ==> Violaciones(n.numeroOrden != "" && NumeroUsado(db.ordenes, n.numeroOrden), n) == []
    ensures db.falla.None? ==>
      (s.respuesta.Exito? <==> Violaciones(n.numeroOrden != "" && NumeroUsado(db.ordenes, n.numeroOrden), n) == [])
    ensures db.falla.None? && Violaciones(n.numeroOrden != "" && NumeroUsado(db.ordenes, n.numeroOrden), n) != [] ==>
      s.respuesta == Fallo(Violaciones(n.numeroOrden != "" && NumeroUsado(db.ordenes, n.numeroOrden), n))
  {
    match ReglasNegocio(db, n)
    case Err(e) => Salida(db, Fallo([e]))
    case Ok(errores) =>
      if errores != [] then Salida(db, Fallo(errores))
      else
        match Repo.Crear(db, id, creadoEn, n)
        case Err(e) => Salida(db, Fallo([e]))
        case Ok(res) => Salida(res.0, Exito(res.1))
  }

  /** `crear`: fills in a blank number, validates, checks the business rules
      and inserts the row. */
  function Crear(v: Schemas.Validadores, db: Db, reloj: Reloj, id: string, creadoEn: int,
                 datos: Schemas.OrdenInput): (s: Salida<Orden>)
    requires !TieneOrden(db.ordenes, id)
    ensures s.respuesta.Fallo? ==> s.db == db && |s.respuesta.errores| > 0
    ensures s.respuesta.Exito? ==> s.db == db.(ordenes := db.ordenes + [s.respuesta.datos])
    ensures s.respuesta.Exito? ==> s.respuesta.datos.id == id
    ensures s.respuesta.Exito? ==> s.respuesta.datos.numeroOrden == NumeroAsignado(db, reloj, datos)
    ensures s.respuesta.Exito? ==> !NumeroUsado(db.ordenes, s.respuesta.datos.numeroOrden)
    ensures s.respuesta.Exito? ==>
      Schemas.OrdenValida(v, datos.(numeroOrden := Some(NumeroAsignado(db, reloj, datos))))
    ensures s.respuesta.Exito? ==> s.respuesta.datos.montoTotal >= MontoMinimo
    ensures s.respuesta.Exito? ==> s.respuesta.datos.estado == datos.estado.GetOr(Schemas.EstadoPorDefecto)
    ensures s.respuesta.Exito? && s.respuesta.datos.fechaEntregaEsperada.Some? ==>
      Dates.Before(s.respuesta.datos.fechaOrden, s.respuesta.datos.fechaEntregaEsperada.value)
  {
    match ConNumero(db, reloj, datos)
    case Err(e) => Salida(db, Fallo([e]))
    case Ok(d) =>
      match Schemas.ValidarCrearOrden(v, d)
      case Err(issues) => Salida(db, Fallo([MensajeValidacion(issues)]))
      case Ok(n) => Insertar(db, id, creadoEn, n)
  }

  /** When a creation succeeds: exactly when the store is reachable, the
      payload with its number filled in meets the schema, and it breaks no
      business rule. A valid payload then goes on to the insertion, and an
      invalid one is answered with the schema's issues. */
  lemma CrearTieneExito(v: Schemas.Validadores, db: Db, reloj: Reloj, id: string, creadoEn: int,
                        datos: Schemas.OrdenInput)
    requires !TieneOrden(db.ordenes, id)
    ensures var d := datos.(numeroOrden := Some(NumeroAsignado(db, reloj, datos)));
            var s := Crear(v, db, reloj, id, creadoEn, datos);
      && (s.respuesta.Exito? <==>
            db.falla.None? && Schemas.OrdenValida(v, d)
            && Violaciones(NumeroUsado(db.ordenes, d.numeroOrden.value), Schemas.NuevaOrdenDe(v, d)) == [])
      && (db.falla.None? && Schemas.OrdenValida(v, d) ==> s == Insertar(db, id, creadoEn, Schemas.NuevaOrdenDe(v, d)))
      && (db.falla.None? && !Schemas.OrdenValida(v, d) ==>
            s.respuesta == Fallo([MensajeValidacion(Schemas.ValidarCrearOrden(v, d).error)]))
  {
    var d := datos.(numeroOrden := Some(NumeroAsignado(db, reloj, datos)));
    match ConNumero(db, reloj, datos)
    case Err(_) =>
    case Ok(d1) =>
      assert d1 == d;
      if Schemas.OrdenValida(v, d) {
        assert Schemas.NuevaOrdenDe(v, d).numeroOrden == d.numeroOrden.value != "";
      }
  }

  /** The first order of a month on an empty store: a valid payload with no
      number and no state is created as `SERIE-YYYYMM-001` in state
      `pendiente`, and is then the only row. */
  lemma PrimeraOrden(v: Schemas.Validadores, db: Db, reloj: Reloj, id: string, creadoEn: int,
                     datos: Schemas.OrdenInput)
    requires db.falla.None? && db.ordenes == []
    requires NumeroVacio(datos.numeroOrden) && datos.estado.None?
    requires Schemas.OrdenValida(v, datos.(numeroOrden := Some(NumeroDelMes(Serie, reloj.anio, reloj.mes, 0))))
    requires datos.montoTotal >= MontoMinimo
    requires datos.fechaEntregaEsperada.None? || datos.fechaEntregaEsperada.value == ""
             || Dates.Before(Dates.Parse(datos.fechaOrden).value, Dates.Parse(datos.fechaEntregaEsperada.value).value)
    ensures var s := Crear(v, db, reloj, id, creadoEn, datos);
      && s.respuesta.Exito?
      && s.respuesta.datos.numeroOrden == PrefijoMes(Serie, reloj.anio, reloj.mes) + "-001"
      && s.respuesta.datos.estado == "pendiente"
      && s.db.ordenes == [s.respuesta.datos]
  {
    var g := NumeroDelMes(Serie, reloj.anio, reloj.mes, 0);
    PrimerNumero(reloj);
    var d := datos.(numeroOrden := Some(g));
    assert NumeroAsignado(db, reloj, datos) == g;
    var n := Schemas.NuevaOrdenDe(v, d);
    assert !NumeroUsado(db.ordenes, g);
    SinViolaciones(v, d);
    CrearTieneExito(v, db, reloj, id, creadoEn, datos);
    assert Crear(v, db, reloj, id, creadoEn, datos) == Insertar(db, id, creadoEn, n);
  }

  /** A valid payload with a large enough amount and a delivery date (if
      any) after the order date breaks no rule but possibly the duplicate
      number. */
  lemma SinViolaciones(v: Schemas.Validadores, d: Schemas.OrdenInput)
    requires Schemas.OrdenValida(v, d)
    requires d.montoTotal >= MontoMinimo
    requires d.fechaEntregaEsperada.None? || d.fechaEntregaEsperada.value == ""
             || Dates.Before(Dates.Parse(d.fechaOrden).value, Dates.Parse(d.fechaEntregaEsperada.value).value)
    ensures Violaciones(false, Schemas.NuevaOrdenDe(v, d)) == []
  {
  }

  /** On an empty table the generated number is the month's first. */
  lemma PrimerNumero(reloj: Reloj)
    ensures GenerarNumero([], reloj) == NumeroDelMes(Serie, reloj.anio, reloj.mes, 0)
    ensures NumeroDelMes(Serie, reloj.anio, reloj.mes, 0) == PrefijoMes(Serie, reloj.anio, reloj.mes) + "-001"
  {
    PrimerosNumeros(Serie, reloj.anio, reloj.mes);
    assert Numeros([]) == [];
  }

  /** A successful creation keeps the order numbers distinct. */
  lemma CrearPreservaNumerosUnicos(v: Schemas.Validadores, db: Db, reloj: Reloj, id: string, creadoEn: int,
                                   datos: Schemas.OrdenInput)
    requires !TieneOrden(db.ordenes, id)
    requires NumerosUnicos(db.ordenes)
    ensures NumerosUnicos(Crear(v, db, reloj, id, creadoEn, datos).db.ordenes)
  {
    var s := Crear(v, db, reloj, id, creadoEn, datos);
    if s.respuesta.Exito? {
      var nuevas := s.db.ordenes;
      assert nuevas == db.ordenes + [s.respuesta.datos];
      forall i, j | 0 <= i < j < |nuevas|
        ensures NumeroDe(nuevas[i]) != NumeroDe(nuevas[j])
      {
        if j == |db.ordenes| {
          assert nuevas[i] in db.ordenes;
        }
      }
    }
  }

  /** A generated number that is already taken blocks the creation: once
      an earlier number of the month has been deleted, the count-based
      number repeats one still in the store. */
  lemma NumeroGeneradoRepetido(v: Schemas.Validadores, db: Db, reloj: Reloj, id: string, creadoEn: int,
                               datos: Schemas.OrdenInput)
    requires !TieneOrden(db.ordenes, id)
    requires NumeroVacio(datos.numeroOrden)
    requires NumeroUsado(db.ordenes, GenerarNumero(db.ordenes, reloj))
    requires Schemas.OrdenValida(v, datos.(numeroOrden := Some(GenerarNumero(db.ordenes, reloj))))
    requires db.falla.None?
    ensures Crear(v, db, reloj, id, creadoEn, datos).respuesta.Fallo?
    ensures NumeroDuplicado in Crear(v, db, reloj, id, creadoEn, datos).respuesta.errores
  {
    var todas := Repo.ObtenerTodas(db).value;
    GenerarNumeroPermutacion(todas, db.ordenes, reloj);
  }

  /** Such a store exists: a single order numbered `-002` in the current
      month (its `-001` deleted) makes the next generated number `-002`. */
  lemma NumeroRepetidoTrasBorrado(o: Orden, reloj: Reloj)
    requires o.numeroOrden == NumeroDelMes(Serie, reloj.anio, reloj.mes, 1)
    ensures GenerarNumero([o], reloj) == o.numeroOrden
    ensures NumeroUsado([o], GenerarNumero([o], reloj))
  {
    var prefijo := PrefijoMes(Serie, reloj.anio, reloj.mes);
    var n := o.numeroOrden;
    assert n[..|prefijo + "-"|][..|prefijo|] == n[..|prefijo|];
    assert Text.StartsWith(n, prefijo);
    assert Numeros([o]) == [n];
    assert Numeros([o]) == [] + [n];
    Seqs.CountAppend([], n, (m: string) => Text.StartsWith(m, prefijo));
  }

  // ----- update -----

  /** The requested state is allowed from `actual`: none requested, the
      same one, or a transition of the table. */
  predicate CambioPermitido(actual: string, pedido: Option<string>) {
    pedido.None? || pedido.value == actual || TransicionValida(actual, pedido.value)
  }

  /** Steps 3 and 4 of `actualizar`: the transition check against the row
      found, then the write. */
  function Escribir(db: Db, id: string, orden: Orden, c: Schemas.OrdenCambios): (s: Salida<Orden>)
    requires orden in db.ordenes && orden.id == id
    ensures s.respuesta.Fallo? ==> s.db == db && |s.respuesta.errores| > 0
    ensures c.estado.Some? && c.estado.value != orden.estado && !TransicionValida(orden.estado, c.estado.value) ==>
      s.respuesta == Fallo(["No se puede cambiar el estado de '" + orden.estado + "' a '" + c.estado.value + "'"])
    ensures s.respuesta.Exito? ==> s.db == db.(ordenes := Repo.ActualizarFilas(db.ordenes, id, c))
    ensures s.respuesta.Exito? ==> forall i | 0 <= i < |db.ordenes| && db.ordenes[i].id == id ::
      db.ordenes[i] == orden
    ensures s.respuesta.Exito? ==>
      (c.estado.None? || c.estado.value == orden.estado || TransicionValida(orden.estado, c.estado.value))
  {
    if c.estado.Some? && c.estado.value != orden.estado && !TransicionValida(orden.estado, c.estado.value) then
      Salida(db, Fallo(["No se puede cambiar el estado de '" + orden.estado + "' a '" + c.estado.value + "'"]))
    else
      match Repo.Actualizar(db, id, c)
      case Err(e) => Salida(db, Fallo([e]))
      case Ok(res) =>
        UnicaFila(db.ordenes, id, orden);
        Salida(res.0, Exito(res.1))
  }

  /** The write goes through exactly when the store is reachable, the id
      picks out a single row, and the requested state is allowed. */
  lemma EscribirTieneExito(db: Db, id: string, orden: Orden, c: Schemas.OrdenCambios)
    requires orden in db.ordenes && orden.id == id
    ensures Escribir(db, id, orden, c).respuesta.Exito? <==>
      db.falla.None? && Seqs.Count(db.ordenes, (x: Orden) => x.id == id) == 1 && CambioPermitido(orden.estado, c.estado)
  {
  }

  /** The state an update asks for: the one supplied, or `pendiente` when
      the library fills in defaults inside `.partial()`. */
  function EstadoPedido(v: Schemas.Validadores, cambios: Schemas.OrdenCambiosInput): Option<string> {
    Schemas.ConDefecto(v, cambios.estado, Schemas.EstadoPorDefecto)
  }

  /** Steps 2 to 4 of `actualizar`, once the order has been found. */
  function ActualizarEncontrada(v: Schemas.Validadores, db: Db, id: string, orden: Orden,
                                cambios: Schemas.OrdenCambiosInput): (s: Salida<Orden>)
    requires orden in db.ordenes && orden.id == id
    ensures s.respuesta.Fallo? ==> s.db == db && |s.respuesta.errores| > 0
    ensures s.respuesta.Exito? ==> Schemas.CambiosOrdenValidos(v, cambios)
    ensures s.respuesta.Exito? ==> s.db.facturas == db.facturas && |s.db.ordenes| == |db.ordenes|
    ensures s.respuesta.Exito? ==> forall i | 0 <= i < |db.ordenes| && db.ordenes[i].id != id ::
      s.db.ordenes[i] == db.ordenes[i]
    ensures s.respuesta.Exito? ==> forall i | 0 <= i < |db.ordenes| && db.ordenes[i].id == id ::
      && db.ordenes[i] == orden
      && s.db.ordenes[i].id == id
      && s.db.ordenes[i].estado == EstadoPedido(v, cambios).GetOr(orden.estado)
    ensures s.respuesta.Exito? ==> (EstadoPedido(v, cambios).None? || EstadoPedido(v, cambios).value == orden.estado
                                    || TransicionValida(orden.estado, EstadoPedido(v, cambios).value))
  {
    match Schemas.ValidarActualizarOrden(v, cambios)
    case Err(issues) => Salida(db, Fallo([MensajeValidacion(issues)]))
    case Ok(c) => Escribir(db, id, orden, c)
  }

  /** A successful update of the order found writes the validated changes
      to the rows with the id. */
  lemma EncontradaEscribe(v: Schemas.Validadores, db: Db, id: string, orden: Orden, cambios: Schemas.OrdenCambiosInput)
    requires orden in db.ordenes && orden.id == id
    ensures var s := ActualizarEncontrada(v, db, id, orden, cambios);
      s.respuesta.Exito? ==>
        (Schemas.CambiosOrdenValidos(v, cambios) &&
         s.db == db.(ordenes := Repo.ActualizarFilas(db.ordenes, id, Schemas.OrdenCambiosDe(v, cambios))))
  {
  }

  /** When an update of the order found succeeds: exactly when the changes
      are valid, the store is reachable, the id picks out a single row, and
      the requested state is allowed. */
  lemma EncontradaTieneExito(v: Schemas.Validadores, db: Db, id: string, orden: Orden, cambios: Schemas.OrdenCambiosInput)
    requires orden in db.ordenes && orden.id == id
    ensures ActualizarEncontrada(v, db, id, orden, cambios).respuesta.Exito? <==>
      && Schemas.CambiosOrdenValidos(v, cambios)
      && db.falla.None? && Seqs.Count(db.ordenes, (x: Orden) => x.id == id) == 1
      && CambioPermitido(orden.estado, EstadoPedido(v, cambios))
  {
    match Schemas.ValidarActualizarOrden(v, cambios)
    case Err(_) =>
    case Ok(c) =>
      assert c.estado == EstadoPedido(v, cambios);
      EscribirTieneExito(db, id, orden, c);
  }

  /** `actualizar`: the order must exist; the row found then goes through
      the steps above. */
  function Actualizar(v: Schemas.Validadores, db: Db, id: string, cambios: Schemas.OrdenCambiosInput): (s: Salida<Orden>)
    ensures s.respuesta.Fallo? ==> s.db == db && |s.respuesta.errores| > 0
    ensures db.falla.None? && !TieneOrden(db.ordenes, id) ==> s.respuesta == Fallo([NoEncontrada])
    ensures s.respuesta.Exito? ==>
      db.falla.None? && exists o | o in db.ordenes && o.id == id :: s == ActualizarEncontrada(v, db, id, o, cambios)
  {
    match Repo.ObtenerTodas(db)
    case Err(e) => Salida(db, Fallo([e]))
    case Ok(todas) =>
      match Repo.Buscar(todas, id)
      case None =>
        assert !TieneOrden(db.ordenes, id) by {
          forall o | o in db.ordenes ensures o.id != id {
            assert o in multiset(todas);
          }
        }
        Salida(db, Fallo([NoEncontrada]))
      case Some(orden) =>
        assert orden in multiset(db.ordenes);
        ActualizarEncontrada(v, db, id, orden, cambios)
  }

  /** When an update succeeds, for an order `o` with the id: exactly when
      the store is reachable, no other row shares the id, the changes are
      valid, and the requested state is `o`'s own or allowed from it. */
  lemma ActualizarTieneExito(v: Schemas.Validadores, db: Db, id: string, o: Orden, cambios: Schemas.OrdenCambiosInput)
    requires o in db.ordenes && o.id == id
    ensures Actualizar(v, db, id, cambios).respuesta.Exito? <==>
      && db.falla.None? && Seqs.Count(db.ordenes, (x: Orden) => x.id == id) == 1
      && Schemas.CambiosOrdenValidos(v, cambios)
      && CambioPermitido(o.estado, EstadoPedido(v, cambios))
  {
    if db.falla.None? {
      ActualizarBusca(v, db, id, o, cambios);
      var h :| h in db.ordenes && h.id == id && Actualizar(v, db, id, cambios) == ActualizarEncontrada(v, db, id, h, cambios);
      EncontradaTieneExito(v, db, id, h, cambios);
      if Seqs.Count(db.ordenes, (x: Orden) => x.id == id) == 1 {
        MismaFila(db.ordenes, id, o, h);
      }
    }
  }

  /** On a reachable store holding the id, `actualizar` goes on with one of
      the rows carrying it. */
  lemma ActualizarBusca(v: Schemas.Validadores, db: Db, id: string, o: Orden, cambios: Schemas.OrdenCambiosInput)
    requires db.falla.None? && o in db.ordenes && o.id == id
    ensures exists h | h in db.ordenes && h.id == id :: Actualizar(v, db, id, cambios) == ActualizarEncontrada(v, db, id, h, cambios)
  {
    var todas := Repo.ObtenerTodas(db).value;
    assert o in multiset(todas);
    assert o in todas;
    var h := Repo.Buscar(todas, id).value;
    assert h in multiset(db.ordenes);
    assert Actualizar(v, db, id, cambios) == ActualizarEncontrada(v, db, id, h, cambios);
  }

  /** When exactly one row has the id, two rows carrying it are the same. */
  lemma MismaFila(s: seq<Orden>, id: string, a: Orden, b: Orden)
    requires Seqs.Count(s, (x: Orden) => x.id == id) == 1
    requires a in s && a.id == id && b in s && b.id == id
    ensures a == b
  {
    UnicaFila(s, id, a);
    var i :| 0 <= i < |s| && s[i] == b;
  }

  /** What a successful update writes: the changes validate, the order with
      the id gets the new state along an allowed transition (or keeps its
      own), and every other row and the invoices are untouched. */
  lemma ActualizarEfecto(v: Schemas.Validadores, db: Db, id: string, cambios: Schemas.OrdenCambiosInput)
    ensures var s := Actualizar(v, db, id, cambios);
      s.respuesta.Exito? ==>
        && TieneOrden(db.ordenes, id)
        && Schemas.CambiosOrdenValidos(v, cambios)
        && s.db.facturas == db.facturas && |s.db.ordenes| == |db.ordenes|
        && (forall i | 0 <= i < |db.ordenes| && db.ordenes[i].id != id :: s.db.ordenes[i] == db.ordenes[i])
        && (forall i | 0 <= i < |db.ordenes| && db.ordenes[i].id == id ::
              && s.db.ordenes[i].id == id
              && s.db.ordenes[i].estado == EstadoPedido(v, cambios).GetOr(db.ordenes[i].estado)
              && (s.db.ordenes[i].estado == db.ordenes[i].estado
                  || TransicionValida(db.ordenes[i].estado, s.db.ordenes[i].estado)))
  {
    var s := Actualizar(v, db, id, cambios);
    if s.respuesta.Exito? {
      var o :| o in db.ordenes && o.id == id && s == ActualizarEncontrada(v, db, id, o, cambios);
      EncontradaEfecto(v, db, id, o, cambios);
    }
  }

  /** The effect above, for the row found. */
  lemma EncontradaEfecto(v: Schemas.Validadores, db: Db, id: string, o: Orden, cambios: Schemas.OrdenCambiosInput)
    requires o in db.ordenes && o.id == id
    ensures var s := ActualizarEncontrada(v, db, id, o, cambios);
      s.respuesta.Exito? ==>
        && Schemas.CambiosOrdenValidos(v, cambios)
        && s.db.facturas == db.facturas && |s.db.ordenes| == |db.ordenes|
        && (forall i | 0 <= i < |db.ordenes| && db.ordenes[i].id != id :: s.db.ordenes[i] == db.ordenes[i])
        && (forall i | 0 <= i < |db.ordenes| && db.ordenes[i].id == id ::
              && s.db.ordenes[i].id == id
              && s.db.ordenes[i].estado == EstadoPedido(v, cambios).GetOr(db.ordenes[i].estado)
              && (s.db.ordenes[i].estado == db.ordenes[i].estado
                  || TransicionValida(db.ordenes[i].estado, s.db.ordenes[i].estado)))
  {
    var s := ActualizarEncontrada(v, db, id, o, cambios);
    if s.respuesta.Exito? {
      forall i | 0 <= i < |db.ordenes| && db.ordenes[i].id == id
        ensures s.db.ordenes[i].estado == db.ordenes[i].estado
                || TransicionValida(db.ordenes[i].estado, s.db.ordenes[i].estado)
      {
        assert db.ordenes[i] == o;
      }
    }
  }

  /** When exactly one row has the id, that row is the one found. */
  lemma UnicaFila(s: seq<Orden>, id: string, o: Orden)
    requires Seqs.Count(s, (x: Orden) => x.id == id) == 1
    requires o in s && o.id == id
    ensures forall i | 0 <= i < |s| && s[i].id == id :: s[i] == o
  {
    var f := Seqs.Filter(s, (x: Orden) => x.id == id);
    forall i | 0 <= i < |s| && s[i].id == id
      ensures s[i] == o
    {
      assert s[i] in multiset(f);
      assert o in multiset(f);
      assert f == [f[0]];
      assert s[i] in f && o in f;
    }
  }

  /** Supplying the current state again is never checked against the
      table: a final `enviada` order can be "updated" to `enviada`. */
  lemma MismoEstadoNoEsTransicion(v: Schemas.Validadores, db: Db, o: Orden)
    requires db.falla.None? && db.ordenes == [o] && o.estado == "enviada"
    ensures Actualizar(v, db, o.id, Schemas.OrdenCambiosInput(None, None, None, None, None, None,
                                                                Some("enviada"), None, None, None)).respuesta.Exito?
  {
    assert Seqs.Filter([o], (x: Orden) => x.id == o.id) == [o];
    var todas := Repo.ObtenerTodas(db).value;
    assert multiset(todas) == multiset{o};
    assert todas == [o];
  }

  /** A state change outside the table fails and writes nothing. */
  lemma TransicionInvalidaNoEscribe(v: Schemas.Validadores, db: Db, o: Orden, nuevo: string)
    requires db.falla.None? && db.ordenes == [o]
    requires nuevo in Schemas.EstadosOrden && nuevo != o.estado && !TransicionValida(o.estado, nuevo)
    ensures var s := Actualizar(v, db, o.id, SoloEstado(nuevo));
      s.respuesta == Fallo(["No se puede cambiar el estado de '" + o.estado + "' a '" + nuevo + "'"]) && s.db == db
  {
    var todas := Repo.ObtenerTodas(db).value;
    assert multiset(todas) == multiset{o};
    assert todas == [o];
  }

  /** The changes that only set the state. */
  function SoloEstado(estado: string): Schemas.OrdenCambiosInput {
    Schemas.OrdenCambiosInput(None, None, None, None, None, None, Some(estado), None, None, None)
  }

  /** Cancelling a pending order that is the only row writes the
      cancelled row. */
  lemma CancelarPendiente(v: Schemas.Validadores, db: Db, o: Orden)
    requires db.falla.None? && db.ordenes == [o] && o.estado == "pendiente"
    ensures var s := Actualizar(v, db, o.id, SoloEstado("cancelada"));
      && s.respuesta.Exito?
      && s.db == db.(ordenes := [Repo.Aplicar(o, Schemas.OrdenCambiosDe(v, SoloEstado("cancelada")))])
  {
    var todas := Repo.ObtenerTodas(db).value;
    assert multiset(todas) == multiset{o};
    assert todas == [o];
    EncontradaCancelar(v, db, o);
  }

  /** The same, for the order already found. */
  lemma EncontradaCancelar(v: Schemas.Validadores, db: Db, o: Orden)
    requires db.falla.None? && db.ordenes == [o] && o.estado == "pendiente"
    ensures var s := ActualizarEncontrada(v, db, o.id, o, SoloEstado("cancelada"));
      && s.respuesta.Exito?
      && s.db == db.(ordenes := [Repo.Aplicar(o, Schemas.OrdenCambiosDe(v, SoloEstado("cancelada")))])
  {
    var c := SoloEstado("cancelada");
    assert Schemas.CambiosOrdenValidos(v, c);
    assert EstadoPedido(v, c) == Some("cancelada");
    Seqs.CountUno(o);
    EncontradaTieneExito(v, db, o.id, o, c);
    EncontradaEscribe(v, db, o.id, o, c);
    var k := Schemas.OrdenCambiosDe(v, c);
    assert Repo.ActualizarFilas([o], o.id, k)[0] == Repo.Aplicar(o, k);
  }

  /** Cancelling is final: a pending order is cancelled, and sending the
      cancelled order afterwards is refused with the transition message. */
  lemma CanceladaEsFinal(v: Schemas.Validadores, db: Db, o: Orden)
    requires db.falla.None? && db.ordenes == [o] && o.estado == "pendiente"
    ensures var s1 := Actualizar(v, db, o.id, SoloEstado("cancelada"));
      && s1.respuesta.Exito?
      && |s1.db.ordenes| == 1 && s1.db.ordenes[0].id == o.id && s1.db.ordenes[0].estado == "cancelada"
      && Actualizar(v, s1.db, o.id, SoloEstado("enviada")).respuesta
         == Fallo(["No se puede cambiar el estado de 'cancelada' a 'enviada'"])
  {
    CancelarPendiente(v, db, o);
    var s1 := Actualizar(v, db, o.id, SoloEstado("cancelada"));
    var o2 := Repo.Aplicar(o, Schemas.OrdenCambiosDe(v, SoloEstado("cancelada")));
    assert o2.id == o.id && o2.estado == "cancelada";
    EnviarCancelada(v, s1.db, o2);
  }

  /** Sending a cancelled order is refused with the transition message. */
  lemma EnviarCancelada(v: Schemas.Validadores, db: Db, o: Orden)
    requires db.falla.None? && db.ordenes == [o] && o.estado == "cancelada"
    ensures Actualizar(v, db, o.id, SoloEstado("enviada")).respuesta
            == Fallo(["No se puede cambiar el estado de 'cancelada' a 'enviada'"])
  {
    assert "No se puede cambiar el estado de '" + o.estado + "' a '" + "enviada" + "'"
        == "No se puede cambiar el estado de 'cancelada' a 'enviada'";
    TransicionInvalidaNoEscribe(v, db, o, "enviada");
  }

  /** The changes that only set the notes. */
  function SoloNotas(notas: string): Schemas.OrdenCambiosInput {
    Schemas.OrdenCambiosInput(None, None, None, None, None, None, None, None, None, Some(notas))
  }

  /** An update that only sets the notes of a sent order. When the library
      leaves absent fields absent it goes through; when it fills in defaults
      inside `.partial()`, the state becomes `pendiente`, which a sent order
      cannot go back to, and the update is refused without writing. */
  lemma SoloNotasSobreEnviada(v: Schemas.Validadores, db: Db, o: Orden, notas: string)
    requires db.falla.None? && db.ordenes == [o] && o.estado == "enviada" && |notas| <= Schemas.MaxNotas
    ensures var s := Actualizar(v, db, o.id, SoloNotas(notas));
      && (v.defectosParciales ==>
            s.respuesta == Fallo(["No se puede cambiar el estado de 'enviada' a 'pendiente'"]) && s.db == db)
      && (!v.defectosParciales ==> s.respuesta.Exito? && s.db.ordenes[0].notas == Some(notas))
  {
    var todas := Repo.ObtenerTodas(db).value;
    assert multiset(todas) == multiset{o};
    assert todas == [o];
    EncontradaSoloNotas(v, db, o, notas);
  }

  /** The same, for the order already found. */
  lemma EncontradaSoloNotas(v: Schemas.Validadores, db: Db, o: Orden, notas: string)
    requires db.falla.None? && db.ordenes == [o] && o.estado == "enviada" && |notas| <= Schemas.MaxNotas
    ensures var s := ActualizarEncontrada(v, db, o.id, o, SoloNotas(notas));
      && (v.defectosParciales ==>
            s.respuesta == Fallo(["No se puede cambiar el estado de 'enviada' a 'pendiente'"]) && s.db == db)
      && (!v.defectosParciales ==> s.respuesta.Exito? && s.db.ordenes[0].notas == Some(notas))
  {
    assert Schemas.CambiosOrdenValidos(v, SoloNotas(notas));
    var c := Schemas.OrdenCambiosDe(v, SoloNotas(notas));
    if v.defectosParciales {
      assert c.estado == Some("pendiente");
      assert !TransicionValida("enviada", "pendiente");
      assert "No se puede cambiar el estado de '" + o.estado + "' a '" + c.estado.value + "'"
          == "No se puede cambiar el estado de 'enviada' a 'pendiente'";
    } else {
      assert c.estado.None?;
      Seqs.CountUno(o);
      EncontradaEscribe(v, db, o.id, o, SoloNotas(notas));
      assert Repo.ActualizarFilas(db.ordenes, o.id, c)[0] == Repo.Aplicar(o, c);
    }
  }

  // ----- delete -----

  /** `eliminar`: only an existing, pending order is removed. */
  function Eliminar(db: Db, id: string): (s: Salida<()>)
    ensures s.respuesta.Fallo? ==> s.db == db && |s.respuesta.errores| > 0
    ensures db.falla.None? && !TieneOrden(db.ordenes, id) ==> s.respuesta == Fallo([NoEncontrada])
    ensures s.respuesta.Exito? ==> db.falla.None?
    ensures s.respuesta.Exito? ==> exists o | o in db.ordenes :: o.id == id && o.estado == "pendiente"
    ensures s.respuesta.Exito? ==> s.db == Repo.Eliminar(db, id).value
    ensures s.respuesta.Exito? ==> s.db.facturas == db.facturas && !TieneOrden(s.db.ordenes, id)
    ensures Seqs.DistinctBy(db.ordenes, OrdenId) && db.falla.None? ==>
      (s.respuesta.Exito? <==> exists o | o in db.ordenes :: o.id == id && o.estado == "pendiente")
  {
    match Repo.ObtenerTodas(db)
    case Err(e) => Salida(db, Fallo([e]))
    case Ok(todas) =>
      match Repo.Buscar(todas, id)
      case None =>
        assert !TieneOrden(db.ordenes, id) by {
          forall o | o in db.ordenes ensures o.id != id {
            assert o in multiset(todas);
          }
        }
        Salida(db, Fallo([NoEncontrada]))
      case Some(orden) =>
        assert orden in multiset(db.ordenes);
        UnicoPorId(db.ordenes, orden);
        if orden.estado != "pendiente" then Salida(db, Fallo([SoloPendientes]))
        else
          match Repo.Eliminar(db, id)
          case Err(e) => Salida(db, Fallo([e]))
          case Ok(db2) => Salida(db2, Exito(()))
  }

  /** With distinct ids, a row is the only one carrying its id. */
  lemma UnicoPorId(s: seq<Orden>, o: Orden)
    requires o in s
    ensures Seqs.DistinctBy(s, OrdenId) ==> forall x | x in s && x.id == o.id :: x == o
  {
    if Seqs.DistinctBy(s, OrdenId) {
      forall x | x in s && x.id == o.id
        ensures x == o
      {
        var i :| 0 <= i < |s| && s[i] == x;
        var j :| 0 <= j < |s| && s[j] == o;
        assert OrdenId(s[i]) == OrdenId(s[j]);
      }
    }
  }
}

=== FILE: schemas.dfy ===
/** The declarative validation schemas: the state and currency enums, the
    create and update payloads of orders and invoices, and the list filters.
    Each schema is a validator that collects one issue per violated field
    constraint and, when there is none, returns the payload with its
    defaults applied. */
module Schemas {
  import opened Wrappers
  import Dates
  import Text

  // ----- enums and limits -----

  const EstadosOrden: set<string> := {"pendiente", "enviada", "cancelada"}
  const EstadosFactura: set<string> := {"pendiente", "enviada", "pagada"}
  const Monedas: set<string> := {"USD", "COP", "CLP", "EUR"}

  const MonedaPorDefecto := "CLP"
  const EstadoPorDefecto := "pendiente"

  const MaxNumero := 50
  const MaxNombre := 200
  const MaxTelefono := 20
  const MaxNotas := 1000
  const MontoMaximo: real := 999999999.99

  /** Validators the schemas take from their library: e-mail and UUID syntax,
      and two behaviours of `.partial()` that depend on the library version:
      whether the partial invoice schema keeps the date-order refinement, and
      whether a field's `.default(...)` still fills in an absent value. */
  datatype Validadores = Validadores(
    esEmail: string -> bool,
    esUuid: string -> bool,
    refinaParcial: bool,
    defectosParciales: bool)

  /** One violated constraint: the field it is attached to and its message. */
  datatype Issue = Issue(path: string, message: string)

  // ----- field constraints -----

  predicate EnumValido(v: Option<string>, permitidos: set<string>) {
    v.None? || v.value in permitidos
  }

  /** `.optional().or(z.literal(''))`: absent, empty, or meeting `ok`. */
  predicate OpcionalValido(v: Option<string>, ok: string -> bool) {
    v.None? || v.value == "" || ok(v.value)
  }

  predicate NombreValido(s: string) {
    1 <= |s| <= MaxNombre
  }

  predicate MontoValido(m: real) {
    0.0 < m <= MontoMaximo
  }

  predicate FechaValida(s: string) {
    Dates.Parse(s).Some?
  }

  predicate FechaOpcionalValida(v: Option<string>) {
    v.None? || v.value == "" || FechaValida(v.value)
  }

  predicate TelefonoOk(s: string) { |s| <= MaxTelefono }
  predicate NotasOk(s: string) { |s| <= MaxNotas }

  // ----- issue collection, one check per field -----

  function Falla(ok: bool, path: string, message: string): (r: seq<Issue>)
    ensures r == [] <==> ok
  {
    if ok then [] else [Issue(path, message)]
  }

  function CheckNombre(path: string, s: string, requerido: string): (r: seq<Issue>)
    ensures r == [] <==> NombreValido(s)
  {
    Falla(|s| >= 1, path, requerido)
      + Falla(|s| <= MaxNombre, path, "El nombre no puede exceder 200 caracteres")
  }

  function CheckMonto(m: real): (r: seq<Issue>)
    ensures r == [] <==> MontoValido(m)
  {
    Falla(m > 0.0, "monto_total", "El monto debe ser positivo")
      + Falla(m <= MontoMaximo, "monto_total", "El monto excede el límite permitido")
  }

  function CheckEnum(path: string, v: Option<string>, permitidos: set<string>): (r: seq<Issue>)
    ensures r == [] <==> EnumValido(v, permitidos)
  {
    Falla(EnumValido(v, permitidos), path, "Invalid enum value")
  }

  function CheckFecha(path: string, s: string): (r: seq<Issue>)
    ensures r == [] <==> FechaValida(s)
  {
    Falla(FechaValida(s), path, "Fecha inválida")
  }

  function CheckFechaOpcional(path: string, v: Option<string>): (r: seq<Issue>)
    ensures r == [] <==> FechaOpcionalValida(v)
  {
    Falla(FechaOpcionalValida(v), path, "Fecha inválida")
  }

  /** A field with a `.default(...)` in a partial schema, after parsing:
      when the library keeps defaults inside `.partial()`, an absent value
      takes the default; otherwise it stays absent. */
  function ConDefecto(v: Validadores, x: Option<string>, defecto: string): (r: Option<string>)
    ensures x.Some? ==> r == x
    ensures r.None? <==> x.None? && !v.defectosParciales
    ensures x.None? && r.Some? ==> r.value == defecto
  {
    if v.defectosParciales then Some(x.GetOr(defecto)) else x
  }

  /** An optional date field after validation: absent or `''` carry no date. */
  function FechaOpcional(v: Option<string>): Option<Dates.Date>
    requires FechaOpcionalValida(v)
  {
    if v.None? || v.value == "" then None else Some(Dates.Parse(v.value).value)
  }

  // ===== purchase orders =====

  /** The create payload as the caller supplies it. */
  datatype OrdenInput = OrdenInput(
    numeroOrden: Option<string>,
    nombreProveedor: string,
    emailProveedor: Option<string>,
    telefonoProveedor: Option<string>,
    montoTotal: real,
    moneda: Option<string>,
    estado: Option<string>,
    fechaOrden: string,
    fechaEntregaEsperada: Option<string>,
    notas: Option<string>)

  /** The create payload after validation, defaults applied. */
  datatype NuevaOrden = NuevaOrden(
    numeroOrden: string,
    nombreProveedor: string,
    emailProveedor: Option<string>,
    telefonoProveedor: Option<string>,
    montoTotal: real,
    moneda: string,
    estado: string,
    fechaOrden: Dates.Date,
    fechaEntregaEsperada: Option<Dates.Date>,
    notas: Option<string>)

  /** Every constraint of the order create schema, field by field. */
  predicate OrdenValida(v: Validadores, p: OrdenInput) {
    && |p.numeroOrden.GetOr("")| <= MaxNumero
    && NombreValido(p.nombreProveedor)
    && OpcionalValido(p.emailProveedor, v.esEmail)
    && OpcionalValido(p.telefonoProveedor, TelefonoOk)
    && MontoValido(p.montoTotal)
    && EnumValido(p.moneda, Monedas)
    && EnumValido(p.estado, EstadosOrden)
    && FechaValida(p.fechaOrden)
    && FechaOpcionalValida(p.fechaEntregaEsperada)
    && OpcionalValido(p.notas, NotasOk)
  }

  function IssuesCrearOrden(v: Validadores, p: OrdenInput): seq<Issue> {
    Falla(|p.numeroOrden.GetOr("")| <= MaxNumero, "numero_orden",
          "El número de orden no puede exceder 50 caracteres")
    + CheckNombre("nombre_proveedor", p.nombreProveedor, "El nombre del proveedor es requerido")
    + Falla(OpcionalValido(p.emailProveedor, v.esEmail), "email_proveedor", "Email inválido")
    + Falla(OpcionalValido(p.telefonoProveedor, TelefonoOk), "telefono_proveedor",
            "El teléfono no puede exceder 20 caracteres")
    + CheckMonto(p.montoTotal)
    + CheckEnum("moneda", p.moneda, Monedas)
    + CheckEnum("estado", p.estado, EstadosOrden)
    + CheckFecha("fecha_orden", p.fechaOrden)
    + CheckFechaOpcional("fecha_entrega_esperada", p.fechaEntregaEsperada)
    + Falla(OpcionalValido(p.notas, NotasOk), "notas", "Las notas no pueden exceder 1000 caracteres")
  }

  /** The schema passes exactly the payloads meeting every constraint. */
  lemma IssuesCrearOrdenVacios(v: Validadores, p: OrdenInput)
    ensures IssuesCrearOrden(v, p) == [] <==> OrdenValida(v, p)
  {
  }

  /** The parsed order of a payload that meets the schema, defaults
      applied. */
  function NuevaOrdenDe(v: Validadores, p: OrdenInput): (n: NuevaOrden)
    requires OrdenValida(v, p)
    ensures n.numeroOrden == p.numeroOrden.GetOr("") && n.nombreProveedor == p.nombreProveedor
    ensures n.emailProveedor == p.emailProveedor && n.telefonoProveedor == p.telefonoProveedor
    ensures n.notas == p.notas
    ensures n.moneda == p.moneda.GetOr(MonedaPorDefecto) && n.moneda in Monedas
    ensures n.estado == p.estado.GetOr(EstadoPorDefecto) && n.estado in EstadosOrden
    ensures MontoValido(n.montoTotal) && n.montoTotal == p.montoTotal
    ensures Dates.Parse(p.fechaOrden) == Some(n.fechaOrden)
    ensures n.fechaEntregaEsperada.None? <==> p.fechaEntregaEsperada.None? || p.fechaEntregaEsperada.value == ""
    ensures n.fechaEntregaEsperada.Some? ==> Dates.Parse(p.fechaEntregaEsperada.value) == n.fechaEntregaEsperada
  {
    NuevaOrden(
      p.numeroOrden.GetOr(""), p.nombreProveedor, p.emailProveedor, p.telefonoProveedor,
      p.montoTotal, p.moneda.GetOr(MonedaPorDefecto), p.estado.GetOr(EstadoPorDefecto),
      Dates.Parse(p.fechaOrden).value, FechaOpcional(p.fechaEntregaEsperada), p.notas)
  }

  /** `CrearOrdenCompraSchema.parse` */
  function ValidarCrearOrden(v: Validadores, p: OrdenInput): (r: Result<NuevaOrden, seq<Issue>>)
    ensures r.Ok? <==> OrdenValida(v, p)
    ensures r.Err? ==> |r.error| > 0
    ensures r.Ok? ==> r.value == NuevaOrdenDe(v, p)
  {
    var issues := IssuesCrearOrden(v, p);
    IssuesCrearOrdenVacios(v, p);
    if issues != [] then Err(issues) else Ok(NuevaOrdenDe(v, p))
  }

  /** Every violated constraint is reported with its own message: the schema
      collects all violations instead of stopping at the first. */
  lemma IssuesCrearOrdenCompletos(v: Validadores, p: OrdenInput)
    ensures |p.numeroOrden.GetOr("")| > MaxNumero ==>
      Issue("numero_orden", "El número de orden no puede exceder 50 caracteres") in IssuesCrearOrden(v, p)
    ensures |p.nombreProveedor| == 0 ==>
      Issue("nombre_proveedor", "El nombre del proveedor es requerido") in IssuesCrearOrden(v, p)
    ensures |p.nombreProveedor| > MaxNombre ==>
      Issue("nombre_proveedor", "El nombre no puede exceder 200 caracteres") in IssuesCrearOrden(v, p)
    ensures !OpcionalValido(p.emailProveedor, v.esEmail) ==>
      Issue("email_proveedor", "Email inválido") in IssuesCrearOrden(v, p)
    ensures !OpcionalValido(p.telefonoProveedor, TelefonoOk) ==>
      Issue("telefono_proveedor", "El teléfono no puede exceder 20 caracteres") in IssuesCrearOrden(v, p)
  {
  }

  /** The same for the amount, the enumerations, the dates and the notes. */
  lemma IssuesCrearOrdenCompletosResto(v: Validadores, p: OrdenInput)
    ensures p.montoTotal <= 0.0 ==>
      Issue("monto_total", "El monto debe ser positivo") in IssuesCrearOrden(v, p)
    ensures p.montoTotal > MontoMaximo ==>
      Issue("monto_total", "El monto excede el límite permitido") in IssuesCrearOrden(v, p)
    ensures !EnumValido(p.moneda, Monedas) ==> Issue("moneda", "Invalid enum value") in IssuesCrearOrden(v, p)
    ensures !EnumValido(p.estado, EstadosOrden) ==> Issue("estado", "Invalid enum value") in IssuesCrearOrden(v, p)
    ensures !FechaValida(p.fechaOrden) ==> Issue("fecha_orden", "Fecha inválida") in IssuesCrearOrden(v, p)
    ensures !FechaOpcionalValida(p.fechaEntregaEsperada) ==>
      Issue("fecha_entrega_esperada", "Fecha inválida") in IssuesCrearOrden(v, p)
    ensures !OpcionalValido(p.notas, NotasOk) ==>
      Issue("notas", "Las notas no pueden exceder 1000 caracteres") in IssuesCrearOrden(v, p)
  {
  }

  /** The update payload: every field optional. */
  datatype OrdenCambiosInput = OrdenCambiosInput(
    numeroOrden: Option<string>,
    nombreProveedor: Option<string>,
    emailProveedor: Option<string>,
    telefonoProveedor: Option<string>,
    montoTotal: Option<real>,
    moneda: Option<string>,
    estado: Option<string>,
    fechaOrden: Option<string>,
    fechaEntregaEsperada: Option<string>,
    notas: Option<string>)

  /** The validated changes. `None` leaves a column as it is;
      `fechaEntregaEsperada == Some(None)` clears the date (the `''` literal). */
  datatype OrdenCambios = OrdenCambios(
    numeroOrden: Option<string>,
    nombreProveedor: Option<string>,
    emailProveedor: Option<string>,
    telefonoProveedor: Option<string>,
    montoTotal: Option<real>,
    moneda: Option<string>,
    estado: Option<string>,
    fechaOrden: Option<Dates.Date>,
    fechaEntregaEsperada: Option<Option<Dates.Date>>,
    notas: Option<string>)

  predicate CambiosOrdenValidos(v: Validadores, p: OrdenCambiosInput) {
    && |p.numeroOrden.GetOr("")| <= MaxNumero
    && (p.nombreProveedor.None? || NombreValido(p.nombreProveedor.value))
    && OpcionalValido(p.emailProveedor, v.esEmail)
    && OpcionalValido(p.telefonoProveedor, TelefonoOk)
    && (p.montoTotal.None? || MontoValido(p.montoTotal.value))
    && EnumValido(p.moneda, Monedas)
    && EnumValido(p.estado, EstadosOrden)
    && (p.fechaOrden.None? || FechaValida(p.fechaOrden.value))
    && FechaOpcionalValida(p.fechaEntregaEsperada)
    && OpcionalValido(p.notas, NotasOk)
  }

  function IssuesActualizarOrden(v: Validadores, p: OrdenCambiosInput): seq<Issue> {
    Falla(|p.numeroOrden.GetOr("")| <= MaxNumero, "numero_orden",
          "El número de orden no puede exceder 50 caracteres")
    + (if p.nombreProveedor.Some?
       then CheckNombre("nombre_proveedor", p.nombreProveedor.value, "El nombre del proveedor es requerido")
       else [])
    + Falla(OpcionalValido(p.emailProveedor, v.esEmail), "email_proveedor", "Email inválido")
    + Falla(OpcionalValido(p.telefonoProveedor, TelefonoOk), "telefono_proveedor",
            "El teléfono no puede exceder 20 caracteres")
    + (if p.montoTotal.Some? then CheckMonto(p.montoTotal.value) else [])
    + CheckEnum("moneda", p.moneda, Monedas)
    + CheckEnum("estado", p.estado, EstadosOrden)
    + (if p.fechaOrden.Some? then CheckFecha("fecha_orden", p.fechaOrden.value) else [])
    + CheckFechaOpcional("fecha_entrega_esperada", p.fechaEntregaEsperada)
    + Falla(OpcionalValido(p.notas, NotasOk), "notas", "Las notas no pueden exceder 1000 caracteres")
  }

  lemma IssuesActualizarOrdenVacios(v: Validadores, p: OrdenCambiosInput)
    ensures IssuesActualizarOrden(v, p) == [] <==> CambiosOrdenValidos(v, p)
  {
  }

  /** The validated form of changes that meet the schema: each present
      field carried over, dates parsed, `''` clearing the delivery date, and
      the number, currency and state defaulted when the library keeps
      defaults inside `.partial()`. */
  function OrdenCambiosDe(v: Validadores, p: OrdenCambiosInput): (c: OrdenCambios)
    requires CambiosOrdenValidos(v, p)
    ensures c.numeroOrden == ConDefecto(v, p.numeroOrden, "")
    ensures c.moneda == ConDefecto(v, p.moneda, MonedaPorDefecto) && (c.moneda.None? || c.moneda.value in Monedas)
    ensures c.estado == ConDefecto(v, p.estado, EstadoPorDefecto) && (c.estado.None? || c.estado.value in EstadosOrden)
    ensures c.nombreProveedor == p.nombreProveedor && c.emailProveedor == p.emailProveedor
    ensures c.telefonoProveedor == p.telefonoProveedor && c.notas == p.notas
    ensures c.montoTotal == p.montoTotal
    ensures c.fechaOrden.None? <==> p.fechaOrden.None?
    ensures p.fechaOrden.Some? ==> Dates.Parse(p.fechaOrden.value) == c.fechaOrden
    ensures c.fechaEntregaEsperada.None? <==> p.fechaEntregaEsperada.None?
    ensures c.fechaEntregaEsperada == Some(None) <==> p.fechaEntregaEsperada == Some("")
    ensures p.fechaEntregaEsperada.Some? && p.fechaEntregaEsperada.value != "" ==>
      c.fechaEntregaEsperada == Some(Dates.Parse(p.fechaEntregaEsperada.value))
  {
    OrdenCambios(
      ConDefecto(v, p.numeroOrden, ""), p.nombreProveedor, p.emailProveedor, p.telefonoProveedor, p.montoTotal,
      ConDefecto(v, p.moneda, MonedaPorDefecto), ConDefecto(v, p.estado, EstadoPorDefecto),
      if p.fechaOrden.Some? then Some(Dates.Parse(p.fechaOrden.value).value) else None,
      if p.fechaEntregaEsperada.Some? then Some(FechaOpcional(p.fechaEntregaEsperada)) else None,
      p.notas)
  }

  /** `ActualizarOrdenCompraSchema.parse`: present fields are checked; absent
      ones stay absent, except the defaulted ones when the library keeps
      defaults inside `.partial()`. */
  function ValidarActualizarOrden(v: Validadores, p: OrdenCambiosInput): (r: Result<OrdenCambios, seq<Issue>>)
    ensures r.Ok? <==> CambiosOrdenValidos(v, p)
    ensures r.Err? ==> |r.error| > 0
    ensures r.Ok? ==> r.value == OrdenCambiosDe(v, p)
  {
    var issues := IssuesActualizarOrden(v, p);
    IssuesActualizarOrdenVacios(v, p);
    if issues != [] then Err(issues) else Ok(OrdenCambiosDe(v, p))
  }

  /** A create payload seen as an update (every field present). */
  function OrdenComoCambios(p: OrdenInput): OrdenCambiosInput {
    OrdenCambiosInput(
      p.numeroOrden, Some(p.nombreProveedor), p.emailProveedor, p.telefonoProveedor,
      Some(p.montoTotal), p.moneda, p.estado, Some(p.fechaOrden), p.fechaEntregaEsperada, p.notas)
  }

  /** The update schema applies to each present field exactly the create
      schema's constraint. */
  lemma ActualizarOrdenUsaRestriccionesDeCrear(v: Validadores, p: OrdenInput)
    ensures IssuesActualizarOrden(v, OrdenComoCambios(p)) == IssuesCrearOrden(v, p)
    ensures CambiosOrdenValidos(v, OrdenComoCambios(p)) <==> OrdenValida(v, p)
  {
    IssuesCrearOrdenVacios(v, p);
    IssuesActualizarOrdenVacios(v, OrdenComoCambios(p));
  }

  // ===== invoices =====

  datatype FacturaInput = FacturaInput(
    numeroFactura: Option<string>,
    ordenCompraId: string,
    nombreVendedor: string,
    emailVendedor: Option<string>,
    telefonoVendedor: Option<string>,
    montoTotal: real,
    moneda: Option<string>,
    estado: Option<string>,
    fechaFactura: string,
    fechaVencimiento: string,
    fechaPago: Option<string>,
    notas: Option<string>)

  datatype NuevaFactura = NuevaFactura(
    numeroFactura: string,
    ordenCompraId: string,
    nombreVendedor: string,
    emailVendedor: Option<string>,
    telefonoVendedor: Option<string>,
    montoTotal: real,
    moneda: string,
    estado: string,
    fechaFactura: Dates.Date,
    fechaVencimiento: Dates.Date,
    fechaPago: Option<Dates.Date>,
    notas: Option<string>)

  /** The object-level refinement: when both dates are given, the due date
      is not before the invoice date. Text that is not a date compares false,
      as `new Date(...)` comparisons with an invalid date do. */
  predicate VencimientoNoAnterior(vencimiento: string, factura: string) {
    || vencimiento == "" || factura == ""
    || (&& FechaValida(vencimiento) && FechaValida(factura)
        && !Dates.Before(Dates.Parse(vencimiento).value, Dates.Parse(factura).value))
  }

  /** A failing enum aborts the object, and the refinement is then not run. */
  function CheckRefinamiento(moneda: Option<string>, estado: Option<string>,
                             vencimiento: string, factura: string): (r: seq<Issue>)
    ensures r == [] <==> !EnumValido(moneda, Monedas) || !EnumValido(estado, EstadosFactura)
                         || VencimientoNoAnterior(vencimiento, factura)
  {
    if !EnumValido(moneda, Monedas) || !EnumValido(estado, EstadosFactura) then []
    else Falla(VencimientoNoAnterior(vencimiento, factura), "fecha_vencimiento",
               "La fecha de vencimiento debe ser posterior o igual a la fecha de factura")
  }

  predicate FacturaValida(v: Validadores, p: FacturaInput) {
    && |p.numeroFactura.GetOr("")| <= MaxNumero
    && v.esUuid(p.ordenCompraId)
    && NombreValido(p.nombreVendedor)
    && OpcionalValido(p.emailVendedor, v.esEmail)
    && OpcionalValido(p.telefonoVendedor, TelefonoOk)
    && MontoValido(p.montoTotal)
    && EnumValido(p.moneda, Monedas)
    && EnumValido(p.estado, EstadosFactura)
    && FechaValida(p.fechaFactura)
    && FechaValida(p.fechaVencimiento)
    && FechaOpcionalValida(p.fechaPago)
    && OpcionalValido(p.notas, NotasOk)
    && VencimientoNoAnterior(p.fechaVencimiento, p.fechaFactura)
  }

  function IssuesCrearFactura(v: Validadores, p: FacturaInput): seq<Issue> {
    Falla(|p.numeroFactura.GetOr("")| <= MaxNumero, "numero_factura",
          "El número de factura no puede exceder 50 caracteres")
    + Falla(v.esUuid(p.ordenCompraId), "orden_compra_id", "ID de orden de compra inválido")
    + CheckNombre("nombre_vendedor", p.nombreVendedor, "El nombre del vendedor es requerido")
    + Falla(OpcionalValido(p.emailVendedor, v.esEmail), "email_vendedor", "Email inválido")
    + Falla(OpcionalValido(p.telefonoVendedor, TelefonoOk), "telefono_vendedor",
            "El teléfono no puede exceder 20 caracteres")
    + CheckMonto(p.montoTotal)
    + CheckEnum("moneda", p.moneda, Monedas)
    + CheckEnum("estado", p.estado, EstadosFactura)
    + CheckFecha("fecha_factura", p.fechaFactura)
    + CheckFecha("fecha_vencimiento", p.fechaVencimiento)
    + CheckFechaOpcional("fecha_pago", p.fechaPago)
    + Falla(OpcionalValido(p.notas, NotasOk), "notas", "Las notas no pueden exceder 1000 caracteres")
    + CheckRefinamiento(p.moneda, p.estado, p.fechaVencimiento, p.fechaFactura)
  }

  lemma IssuesCrearFacturaVacios(v: Validadores, p: FacturaInput)
    ensures IssuesCrearFactura(v, p) == [] <==> FacturaValida(v, p)
  {
  }

  /** The parsed invoice of a payload that meets the schema, defaults
      applied. */
  function NuevaFacturaDe(v: Validadores, p: FacturaInput): (n: NuevaFactura)
    requires FacturaValida(v, p)
    ensures n.numeroFactura == p.numeroFactura.GetOr("") && n.ordenCompraId == p.ordenCompraId
    ensures n.nombreVendedor == p.nombreVendedor && n.emailVendedor == p.emailVendedor
    ensures n.telefonoVendedor == p.telefonoVendedor && n.notas == p.notas
    ensures n.moneda == p.moneda.GetOr(MonedaPorDefecto) && n.moneda in Monedas
    ensures n.estado == p.estado.GetOr(EstadoPorDefecto) && n.estado in EstadosFactura
    ensures MontoValido(n.montoTotal) && n.montoTotal == p.montoTotal
    ensures Dates.Parse(p.fechaFactura) == Some(n.fechaFactura)
    ensures Dates.Parse(p.fechaVencimiento) == Some(n.fechaVencimiento)
    ensures !Dates.Before(n.fechaVencimiento, n.fechaFactura)
    ensures n.fechaPago.None? <==> p.fechaPago.None? || p.fechaPago.value == ""
    ensures n.fechaPago.Some? ==> Dates.Parse(p.fechaPago.value) == n.fechaPago
  {
    NuevaFactura(
      p.numeroFactura.GetOr(""), p.ordenCompraId, p.nombreVendedor, p.emailVendedor,
      p.telefonoVendedor, p.montoTotal, p.moneda.GetOr(MonedaPorDefecto),
      p.estado.GetOr(EstadoPorDefecto), Dates.Parse(p.fechaFactura).value,
      Dates.Parse(p.fechaVencimiento).value, FechaOpcional(p.fechaPago), p.notas)
  }

  /** `CrearFacturaSchema.parse` */
  function ValidarCrearFactura(v: Validadores, p: FacturaInput): (r: Result<NuevaFactura, seq<Issue>>)
    ensures r.Ok? <==> FacturaValida(v, p)
    ensures r.Err? ==> |r.error| > 0
    ensures r.Ok? ==> r.value == NuevaFacturaDe(v, p)
  {
    var issues := IssuesCrearFactura(v, p);
    IssuesCrearFacturaVacios(v, p);
    if issues != [] then Err(issues) else Ok(NuevaFacturaDe(v, p))
  }

  datatype FacturaCambiosInput = FacturaCambiosInput(
    numeroFactura: Option<string>,
    ordenCompraId: Option<string>,
    nombreVendedor: Option<string>,
    emailVendedor: Option<string>,
    telefonoVendedor: Option<string>,
    montoTotal: Option<real>,
    moneda: Option<string>,
    estado: Option<string>,
    fechaFactura: Option<string>,
    fechaVencimiento: Option<string>,
    fechaPago: Option<string>,
    notas: Option<string>)

  /** Validated invoice changes; `fechaPago == Some(None)` clears the date. */
  datatype FacturaCambios = FacturaCambios(
    numeroFactura: Option<string>,
    ordenCompraId: Option<string>,
    nombreVendedor: Option<string>,
    emailVendedor: Option<string>,
    telefonoVendedor: Option<string>,
    montoTotal: Option<real>,
    moneda: Option<string>,
    estado: Option<string>,
    fechaFactura: Option<Dates.Date>,
    fechaVencimiento: Option<Dates.Date>,
    fechaPago: Option<Option<Dates.Date>>,
    notas: Option<string>)

  /** Whether the partial schema's refinement applies to these changes. */
  predicate RefinaCambios(v: Validadores, p: FacturaCambiosInput) {
    v.refinaParcial && p.fechaVencimiento.Some? && p.fechaFactura.Some?
  }

  predicate CambiosFacturaValidos(v: Validadores, p: FacturaCambiosInput) {
    && |p.numeroFactura.GetOr("")| <= MaxNumero
    && (p.ordenCompraId.None? || v.esUuid(p.ordenCompraId.value))
    && (p.nombreVendedor.None? || NombreValido(p.nombreVendedor.value))
    && OpcionalValido(p.emailVendedor, v.esEmail)
    && OpcionalValido(p.telefonoVendedor, TelefonoOk)
    && (p.montoTotal.None? || MontoValido(p.montoTotal.value))
    && EnumValido(p.moneda, Monedas)
    && EnumValido(p.estado, EstadosFactura)
    && (p.fechaFactura.None? || FechaValida(p.fechaFactura.value))
    && (p.fechaVencimiento.None? || FechaValida(p.fechaVencimiento.value))
    && FechaOpcionalValida(p.fechaPago)
    && OpcionalValido(p.notas, NotasOk)
    && (RefinaCambios(v, p) ==> VencimientoNoAnterior(p.fechaVencimiento.value, p.fechaFactura.value))
  }

  function IssuesActualizarFactura(v: Validadores, p: FacturaCambiosInput): seq<Issue> {
    Falla(|p.numeroFactura.GetOr("")| <= MaxNumero, "numero_factura",
          "El número de factura no puede exceder 50 caracteres")
    + (if p.ordenCompraId.Some?
       then Falla(v.esUuid(p.ordenCompraId.value), "orden_compra_id", "ID de orden de compra inválido")
       else [])
    + (if p.nombreVendedor.Some?
       then CheckNombre("nombre_vendedor", p.nombreVendedor.value, "El nombre del vendedor es requerido")
       else [])
    + Falla(OpcionalValido(p.emailVendedor, v.esEmail), "email_vendedor", "Email inválido")
    + Falla(OpcionalValido(p.telefonoVendedor, TelefonoOk), "telefono_vendedor",
            "El teléfono no puede exceder 20 caracteres")
    + (if p.montoTotal.Some? then CheckMonto(p.montoTotal.value) else [])
    + CheckEnum("moneda", p.moneda, Monedas)
    + CheckEnum("estado", p.estado, EstadosFactura)
    + (if p.fechaFactura.Some? then CheckFecha("fecha_factura", p.fechaFactura.value) else [])
    + (if p.fechaVencimiento.Some? then CheckFecha("fecha_vencimiento", p.fechaVencimiento.value) else [])
    + CheckFechaOpcional("fecha_pago", p.fechaPago)
    + Falla(OpcionalValido(p.notas, NotasOk), "notas", "Las notas no pueden exceder 1000 caracteres")
    + (if RefinaCambios(v, p)
       then CheckRefinamiento(p.moneda, p.estado, p.fechaVencimiento.value, p.fechaFactura.value)
       else [])
  }

  lemma IssuesActualizarFacturaVacios(v: Validadores, p: FacturaCambiosInput)
    ensures IssuesActualizarFactura(v, p) == [] <==> CambiosFacturaValidos(v, p)
  {
  }

  /** The validated form of invoice changes that meet the schema: each
      present field carried over, dates parsed, `''` clearing the payment
      date, and the number, currency and state defaulted when the library
      keeps defaults inside `.partial()`. */
  function FacturaCambiosDe(v: Validadores, p: FacturaCambiosInput): (c: FacturaCambios)
    requires CambiosFacturaValidos(v, p)
    ensures c.numeroFactura == ConDefecto(v, p.numeroFactura, "")
    ensures c.moneda == ConDefecto(v, p.moneda, MonedaPorDefecto) && (c.moneda.None? || c.moneda.value in Monedas)
    ensures c.estado == ConDefecto(v, p.estado, EstadoPorDefecto) && (c.estado.None? || c.estado.value in EstadosFactura)
    ensures c.ordenCompraId == p.ordenCompraId && c.nombreVendedor == p.nombreVendedor
    ensures c.emailVendedor == p.emailVendedor && c.telefonoVendedor == p.telefonoVendedor && c.notas == p.notas
    ensures c.montoTotal == p.montoTotal && (c.montoTotal.None? || MontoValido(c.montoTotal.value))
    ensures c.fechaFactura.None? <==> p.fechaFactura.None?
    ensures p.fechaFactura.Some? ==> Dates.Parse(p.fechaFactura.value) == c.fechaFactura
    ensures c.fechaVencimiento.None? <==> p.fechaVencimiento.None?
    ensures p.fechaVencimiento.Some? ==> Dates.Parse(p.fechaVencimiento.value) == c.fechaVencimiento
    ensures c.fechaPago.None? <==> p.fechaPago.None?
    ensures c.fechaPago == Some(None) <==> p.fechaPago == Some("")
    ensures p.fechaPago.Some? && p.fechaPago.value != "" ==> c.fechaPago == Some(Dates.Parse(p.fechaPago.value))
  {
    FacturaCambios(
      ConDefecto(v, p.numeroFactura, ""), p.ordenCompraId, p.nombreVendedor, p.emailVendedor, p.telefonoVendedor,
      p.montoTotal, ConDefecto(v, p.moneda, MonedaPorDefecto), ConDefecto(v, p.estado, EstadoPorDefecto),
      if p.fechaFactura.Some? then Some(Dates.Parse(p.fechaFactura.value).value) else None,
      if p.fechaVencimiento.Some? then Some(Dates.Parse(p.fechaVencimiento.value).value) else None,
      if p.fechaPago.Some? then Some(FechaOpcional(p.fechaPago)) else None,
      p.notas)
  }

  /** `ActualizarFacturaSchema.parse` */
  function ValidarActualizarFactura(v: Validadores, p: FacturaCambiosInput): (r: Result<FacturaCambios, seq<Issue>>)
    ensures r.Ok? <==> CambiosFacturaValidos(v, p)
    ensures r.Err? ==> |r.error| > 0
    ensures r.Ok? ==> r.value == FacturaCambiosDe(v, p)
  {
    var issues := IssuesActualizarFactura(v, p);
    IssuesActualizarFacturaVacios(v, p);
    if issues != [] then Err(issues) else Ok(FacturaCambiosDe(v, p))
  }

  function FacturaComoCambios(p: FacturaInput): FacturaCambiosInput {
    FacturaCambiosInput(
      p.numeroFactura, Some(p.ordenCompraId), Some(p.nombreVendedor), p.emailVendedor,
      p.telefonoVendedor, Some(p.montoTotal), p.moneda, p.estado, Some(p.fechaFactura),
      Some(p.fechaVencimiento), p.fechaPago, p.notas)
  }

  /** When the partial schema keeps the refinement, it checks a fully
      present update exactly as the create schema checks the payload. */
  lemma ActualizarFacturaUsaRestriccionesDeCrear(v: Validadores, p: FacturaInput)
    requires v.refinaParcial
    ensures IssuesActualizarFactura(v, FacturaComoCambios(p)) == IssuesCrearFactura(v, p)
    ensures CambiosFacturaValidos(v, FacturaComoCambios(p)) <==> FacturaValida(v, p)
  {
    IssuesCrearFacturaVacios(v, p);
    IssuesActualizarFacturaVacios(v, FacturaComoCambios(p));
  }

  // ===== list filters =====

  datatype FiltroOrdenesInput = FiltroOrdenesInput(
    estado: Option<string>, proveedor: Option<string>,
    fechaDesde: Option<string>, fechaHasta: Option<string>,
    limite: Option<real>, pagina: Option<real>)

  datatype FiltroOrdenes = FiltroOrdenes(
    estado: Option<string>, proveedor: Option<string>,
    fechaDesde: Option<string>, fechaHasta: Option<string>,
    limite: real, pagina: real)

  datatype FiltroFacturasInput = FiltroFacturasInput(
    estado: Option<string>, vendedor: Option<string>,
    fechaDesde: Option<string>, fechaHasta: Option<string>,
    soloVencidas: Option<bool>, limite: Option<real>, pagina: Option<real>)

  datatype FiltroFacturas = FiltroFacturas(
    estado: Option<string>, vendedor: Option<string>,
    fechaDesde: Option<string>, fechaHasta: Option<string>,
    soloVencidas: bool, limite: real, pagina: real)

  const LimitePorDefecto: real := 20.0
  const PaginaPorDefecto: real := 1.0

  predicate LimiteValido(v: Option<real>) {
    v.None? || 1.0 <= v.value <= 100.0
  }

  predicate PaginaValida(v: Option<real>) {
    v.None? || v.value >= 1.0
  }

  function CheckPaginacion(limite: Option<real>, pagina: Option<real>): seq<Issue> {
    (if limite.Some?
     then Falla(limite.value >= 1.0, "limite", "Number must be greater than or equal to 1")
          + Falla(limite.value <= 100.0, "limite", "Number must be less than or equal to 100")
     else [])
    + (if pagina.Some?
       then Falla(pagina.value >= 1.0, "pagina", "Number must be greater than or equal to 1")
       else [])
  }

  /** `FiltroOrdenesSchema.parse` */
  function ValidarFiltroOrdenes(p: FiltroOrdenesInput): (r: Result<FiltroOrdenes, seq<Issue>>)
    ensures r.Ok? <==> EnumValido(p.estado, EstadosOrden) && LimiteValido(p.limite) && PaginaValida(p.pagina)
    ensures r.Err? ==> |r.error| > 0
    ensures r.Ok? ==> r.value.limite == p.limite.GetOr(LimitePorDefecto) && 1.0 <= r.value.limite <= 100.0
    ensures r.Ok? ==> r.value.pagina == p.pagina.GetOr(PaginaPorDefecto) && r.value.pagina >= 1.0
    ensures r.Ok? ==> r.value.estado == p.estado && r.value.proveedor == p.proveedor
  {
    var issues := CheckEnum("estado", p.estado, EstadosOrden) + CheckPaginacion(p.limite, p.pagina);
    if issues != [] then Err(issues)
    else Ok(FiltroOrdenes(p.estado, p.proveedor, p.fechaDesde, p.fechaHasta,
                          p.limite.GetOr(LimitePorDefecto), p.pagina.GetOr(PaginaPorDefecto)))
  }

  /** `FiltroFacturasSchema.parse` */
  function ValidarFiltroFacturas(p: FiltroFacturasInput): (r: Result<FiltroFacturas, seq<Issue>>)
    ensures r.Ok? <==> EnumValido(p.estado, EstadosFactura) && LimiteValido(p.limite) && PaginaValida(p.pagina)
    ensures r.Err? ==> |r.error| > 0
    ensures r.Ok? ==> r.value.limite == p.limite.GetOr(LimitePorDefecto) && 1.0 <= r.value.limite <= 100.0
    ensures r.Ok? ==> r.value.pagina == p.pagina.GetOr(PaginaPorDefecto) && r.value.pagina >= 1.0
    ensures r.Ok? ==> r.value.soloVencidas == p.soloVencidas.GetOr(false)
    ensures r.Ok? ==> r.value.estado == p.estado && r.value.vendedor == p.vendedor
  {
    var issues := CheckEnum("estado", p.estado, EstadosFactura) + CheckPaginacion(p.limite, p.pagina);
    if issues != [] then Err(issues)
    else Ok(FiltroFacturas(p.estado, p.vendedor, p.fechaDesde, p.fechaHasta,
                           p.soloVencidas.GetOr(false), p.limite.GetOr(LimitePorDefecto),
                           p.pagina.GetOr(PaginaPorDefecto)))
  }
}

=== FILE: seqs.dfy ===
/** Filtering, ordering and summing over row sequences: the reading side of
    the store, whose `select ... eq ... order` queries become these. */
module Seqs {
  import opened Wrappers

  /** The rows satisfying `p`, in their original order (`.eq(...)`/`.filter`). */
  function Filter<T(==,!new)>(s: seq<T>, p: T -> bool): (r: seq<T>)
    ensures |r| <= |s|
    ensures forall i | 0 <= i < |r| :: p(r[i])
    ensures forall x :: multiset(r)[x] == if p(x) then multiset(s)[x] else 0
  {
    if |s| == 0 then []
    else
      assert s == [s[0]] + s[1..];
      if p(s[0]) then [s[0]] + Filter(s[1..], p) else Filter(s[1..], p)
  }

  /** A one-element sequence counts one for a predicate its element
      satisfies and none otherwise. */
  lemma CountUno<T(!new)>(x: T)
    ensures forall p: T -> bool :: Count([x], p) == if p(x) then 1 else 0
  {
    forall p: T -> bool ensures Count([x], p) == if p(x) then 1 else 0 {
      assert [x][1..] == [];
    }
  }

  /** Filtering a concatenation filters each part. */
  lemma {:induction false} FilterAppend<T(!new)>(a: seq<T>, b: seq<T>, p: T -> bool)
    ensures Filter(a + b, p) == Filter(a, p) + Filter(b, p)
  {
    if |a| > 0 {
      assert (a + b)[1..] == a[1..] + b;
      FilterAppend(a[1..], b, p);
    } else {
      assert a + b == b;
    }
  }

  lemma {:induction false} FilterTodos<T(!new)>(s: seq<T>, p: T -> bool)
    requires forall i | 0 <= i < |s| :: p(s[i])
    ensures Filter(s, p) == s
  {
    if |s| > 0 {
      FilterTodos(s[1..], p);
    }
  }

  /** Filtering a sequence with distinct keys leaves distinct keys. */
  lemma {:induction false} FilterDistinto<T(!new), K>(s: seq<T>, p: T -> bool, key: T -> K)
    ensures DistinctBy(s, key) ==> DistinctBy(Filter(s, p), key)
  {
    if |s| > 0 && DistinctBy(s, key) {
      FilterDistinto(s[1..], p, key);
      assert DistinctBy(s[1..], key) by {
        forall i, j | 0 <= i < j < |s| - 1 ensures key(s[1..][i]) != key(s[1..][j]) {
          assert s[1..][i] == s[i + 1] && s[1..][j] == s[j + 1];
        }
      }
      var rest := Filter(s[1..], p);
      forall k | 0 <= k < |rest|
        ensures key(s[0]) != key(rest[k])
      {
        assert rest[k] in multiset(rest);
        assert rest[k] in s[1..];
      }
    }
  }

  /** Filtering commutes with reordering. */
  lemma FilterPermutation<T(!new)>(a: seq<T>, b: seq<T>, p: T -> bool)
    requires multiset(a) == multiset(b)
    ensures multiset(Filter(a, p)) == multiset(Filter(b, p))
    ensures Count(a, p) == Count(b, p)
  {
    assert multiset(Filter(a, p)) == multiset(Filter(b, p));
    assert |multiset(Filter(a, p))| == |Filter(a, p)|;
    assert |multiset(Filter(b, p))| == |Filter(b, p)|;
  }

  /** Index of the first element satisfying `p` (`array.find`). */
  function FindIndex<T>(s: seq<T>, p: T -> bool): (r: Option<nat>)
    ensures r.None? <==> forall i | 0 <= i < |s| :: !p(s[i])
    ensures r.Some? ==> r.value < |s| && p(s[r.value])
    ensures r.Some? ==> forall i | 0 <= i < r.value :: !p(s[i])
  {
    if |s| == 0 then None
    else if p(s[0]) then Some(0)
    else match FindIndex(s[1..], p)
      case None => None
      case Some(k) => Some(k + 1)
  }

  /** No two elements share a key. */
  ghost predicate DistinctBy<T, K>(s: seq<T>, key: T -> K) {
    forall i, j | 0 <= i < j < |s| :: key(s[i]) != key(s[j])
  }

  /** Number of elements satisfying `p` (`.filter(p).length`). */
  function Count<T(==,!new)>(s: seq<T>, p: T -> bool): nat {
    |Filter(s, p)|
  }

  lemma {:induction false} CountAppend<T(!new)>(s: seq<T>, x: T, p: T -> bool)
    ensures Count(s + [x], p) == Count(s, p) + (if p(x) then 1 else 0)
  {
    if |s| > 0 {
      assert (s + [x])[1..] == s[1..] + [x];
      CountAppend(s[1..], x, p);
    }
  }

  /** `s` is ascending by `key`. */
  ghost predicate SortedBy<T>(s: seq<T>, key: T -> int) {
    forall i, j | 0 <= i < j < |s| :: key(s[i]) <= key(s[j])
  }

  lemma SortedCons<T>(h: T, t: seq<T>, key: T -> int)
    requires SortedBy(t, key)
    requires forall k | 0 <= k < |t| :: key(h) <= key(t[k])
    ensures SortedBy([h] + t, key)
  {
  }

  /** A lower bound on the keys of `u` bounds every permutation of `u`. */
  lemma LowerBoundPermutation<T>(b: int, t: seq<T>, u: seq<T>, key: T -> int)
    requires multiset(t) == multiset(u)
    requires forall k | 0 <= k < |u| :: b <= key(u[k])
    ensures forall k | 0 <= k < |t| :: b <= key(t[k])
  {
    forall k | 0 <= k < |t|
      ensures b <= key(t[k])
    {
      assert t[k] in multiset(u);
      var j :| 0 <= j < |u| && u[j] == t[k];
    }
  }

  function InsertBy<T(==)>(x: T, s: seq<T>, key: T -> int): (r: seq<T>)
    requires SortedBy(s, key)
    ensures multiset(r) == multiset(s) + multiset{x}
    ensures SortedBy(r, key)
  {
    if |s| == 0 then [x]
    else if key(x) <= key(s[0]) then
      SortedCons(x, s, key);
      [x] + s
    else
      assert s == [s[0]] + s[1..];
      var rest := InsertBy(x, s[1..], key);
      assert multiset(s[1..] + [x]) == multiset(s[1..]) + multiset{x} == multiset(rest);
      assert multiset([s[0]] + rest) == multiset{s[0]} + multiset(rest);
      LowerBoundPermutation(key(s[0]), rest, s[1..] + [x], key);
      SortedCons(s[0], rest, key);
      [s[0]] + rest
  }

  /** `s` reordered ascending by `key` (`.order(column)`); descending orders
      use a negated key. */
  function SortBy<T(==)>(s: seq<T>, key: T -> int): (r: seq<T>)
    ensures multiset(r) == multiset(s)
    ensures SortedBy(r, key)
  {
    if |s| == 0 then []
    else
      assert s == [s[0]] + s[1..];
      InsertBy(s[0], SortBy(s[1..], key), key)
  }

  /** `s.reduce((sum, x) => sum + f(x), 0)` */
  function Sum<T>(s: seq<T>, f: T -> real): real {
    if |s| == 0 then 0.0 else f(s[0]) + Sum(s[1..], f)
  }

  lemma {:induction false} SumRemove<T>(s: seq<T>, j: nat, f: T -> real)
    requires j < |s|
    ensures Sum(s, f) == f(s[j]) + Sum(s[..j] + s[j + 1..], f)
  {
    if j > 0 {
      SumRemove(s[1..], j - 1, f);
      var t := s[..j] + s[j + 1..];
      assert t[0] == s[0];
      assert t[1..] == s[1..][..j - 1] + s[1..][j..];
      assert s[1..][j - 1] == s[j];
      assert Sum(t, f) == f(t[0]) + Sum(t[1..], f);
    } else {
      assert s[..0] + s[1..] == s[1..];
    }
  }

  lemma MultisetRemove<T>(b: seq<T>, j: nat)
    requires j < |b|
    ensures multiset(b[..j] + b[j + 1..]) == multiset(b) - multiset{b[j]}
  {
    assert b == b[..j] + [b[j]] + b[j + 1..];
  }

  /** A sum does not depend on the order of its terms. */
  lemma {:induction false} SumPermutation<T>(a: seq<T>, b: seq<T>, f: T -> real)
    requires multiset(a) == multiset(b)
    ensures Sum(a, f) == Sum(b, f)
  {
    if |a| > 0 {
      assert a[0] in multiset(b);
      var j :| 0 <= j < |b| && b[j] == a[0];
      var b' := b[..j] + b[j + 1..];
      MultisetRemove(b, j);
      assert a == [a[0]] + a[1..];
      assert multiset(a[1..]) == multiset(b');
      SumPermutation(a[1..], b', f);
      SumRemove(b, j, f);
    } else {
      assert |b| == 0;
    }
  }

  /** Summing non-negative terms over the rows that pass a stronger filter
      gives no more than over a weaker one. */
  lemma {:induction false} SumFilterMono<T(!new)>(s: seq<T>, p: T -> bool, q: T -> bool, f: T -> real)
    requires forall x | x in s :: q(x) ==> p(x)
    requires forall x | x in s :: f(x) >= 0.0
    ensures Sum(Filter(s, q), f) <= Sum(Filter(s, p), f)
    ensures Count(s, q) <= Count(s, p)
  {
    if |s| > 0 {
      SumFilterMono(s[1..], p, q, f);
    }
  }
}

=== FILE: servicio.dfy ===
/** What the two services share: the clock they read, the success/failure
    envelope they return, and the monthly document numbering
    `SERIE-YYYYMM-NNN`. */
module Servicio {
  import opened Wrappers
  import Text
  import Dates
  import Seqs
  import Store
  import Schemas

  /** The clock: the local year and month used for numbering, and today's
      date (the UTC date `toISOString` gives) used for payment dates and
      overdue checks. */
  datatype Reloj = Reloj(anio: nat, mes: Dates.Month, hoy: Dates.Date)

  /** `{ exito, datos?, errores? }`: no service operation throws. */
  datatype Respuesta<+T> = Exito(datos: T) | Fallo(errores: seq<string>)

  /** A service call's answer together with the store it leaves behind. */
  datatype Salida<+T> = Salida(db: Store.Db, respuesta: Respuesta<T>)

  /** The message of a schema failure: the issues' messages, in order. */
  function MensajeValidacion(issues: seq<Schemas.Issue>): string {
    Text.Join(seq(|issues|, i requires 0 <= i < |issues| => issues[i].message), "; ")
  }

  /** `!numero || numero.trim() === ''`: the caller left the number to the
      service. */
  predicate NumeroVacio(numero: Option<string>) {
    numero.None? || Text.Trim(numero.value) == ""
  }

  /** A number the caller filled in is not empty. */
  lemma NumeroDado(numero: Option<string>)
    requires !NumeroVacio(numero)
    ensures numero.Some? && numero.value != ""
  {
    assert Text.Trim("") == "";
  }

  /** `${serie}-${año}${mes}` with the month zero-padded to two digits. */
  function PrefijoMes(serie: string, anio: nat, mes: Dates.Month): string {
    serie + "-" + Text.NatToString(anio) + Text.PadStart(Text.NatToString(mes), 2, '0')
  }

  /** The number that follows `k` numbers already issued under the month's
      prefix: the prefix, a dash, and `k + 1` padded to three digits. */
  function NumeroDelMes(serie: string, anio: nat, mes: Dates.Month, k: nat): (r: string)
    ensures Text.StartsWith(r, PrefijoMes(serie, anio, mes) + "-")
    ensures k + 1 < 1000 ==> |r| == |PrefijoMes(serie, anio, mes)| + 4
  {
    var sufijo := Text.PadStart(Text.NatToString(k + 1), 3, '0');
    var r := PrefijoMes(serie, anio, mes) + "-" + sufijo;
    assert r[..|PrefijoMes(serie, anio, mes) + "-"|] == PrefijoMes(serie, anio, mes) + "-";
    if k + 1 < 1000 then
      assert Text.Pow10(3) == 1000;
      Text.NatToStringLength(k + 1, 3);
      r
    else r
  }

  /** The part after the month prefix and its dash. */
  function Sufijo(serie: string, anio: nat, mes: Dates.Month, numero: string): string
    requires Text.StartsWith(numero, PrefijoMes(serie, anio, mes) + "-")
  {
    numero[|PrefijoMes(serie, anio, mes) + "-"|..]
  }

  /** The sequence part of a generated number is a run of at least three
      digits whose value is one more than the numbers issued that month. */
  lemma {:induction false} SufijoEsSiguiente(serie: string, anio: nat, mes: Dates.Month, k: nat)
    ensures var s := Sufijo(serie, anio, mes, NumeroDelMes(serie, anio, mes, k));
      |s| >= 3 && Text.AllDigits(s) && Text.DecimalValue(s) == k + 1
  {
    var p := PrefijoMes(serie, anio, mes) + "-";
    var pad := Text.PadStart(Text.NatToString(k + 1), 3, '0');
    assert NumeroDelMes(serie, anio, mes, k) == p + pad;
    assert (p + pad)[|p|..] == pad;
    Text.ZeroPadValue(Text.NatToString(k + 1), 3);
    Text.NatToStringRoundTrip(k + 1);
  }

  /** The first number of a month ends in `-001`, the second in `-002`. */
  lemma PrimerosNumeros(serie: string, anio: nat, mes: Dates.Month)
    ensures NumeroDelMes(serie, anio, mes, 0) == PrefijoMes(serie, anio, mes) + "-001"
    ensures NumeroDelMes(serie, anio, mes, 1) == PrefijoMes(serie, anio, mes) + "-002"
  {
    assert Text.NatToString(1) == "1";
    assert Text.NatToString(2) == "2";
    assert Text.Repeat('0', 2) == "00";
  }

  /** How many of `numeros` carry the month's prefix. */
  function EmitidosDelMes(numeros: seq<string>, serie: string, anio: nat, mes: Dates.Month): nat {
    Seqs.Count(numeros, n => Text.StartsWith(n, PrefijoMes(serie, anio, mes)))
  }

  /** Recording a generated number advances the month's count by one, so
      the next generated number is the successor. */
  lemma NumeracionSecuencial(numeros: seq<string>, serie: string, anio: nat, mes: Dates.Month)
    ensures var n := NumeroDelMes(serie, anio, mes, EmitidosDelMes(numeros, serie, anio, mes));
      EmitidosDelMes(numeros + [n], serie, anio, mes) == EmitidosDelMes(numeros, serie, anio, mes) + 1
  {
    var prefijo := PrefijoMes(serie, anio, mes);
    var n := NumeroDelMes(serie, anio, mes, EmitidosDelMes(numeros, serie, anio, mes));
    assert n[..|prefijo + "-"|][..|prefijo|] == n[..|prefijo|];
    assert Text.StartsWith(n, prefijo);
    Seqs.CountAppend(numeros, n, m => Text.StartsWith(m, prefijo));
  }
}

=== FILE: store.dfy ===
/** The rows of the two tables, `ordenes_compra` and `facturas`, and the
    in-memory database that stands in for the remote store. */
module Store {
  import opened Wrappers
  import Dates
  import Seqs

  /** A row of `ordenes_compra`. */
  datatype Orden = Orden(
    id: string,
    numeroOrden: string,
    nombreProveedor: string,
    emailProveedor: Option<string>,
    telefonoProveedor: Option<string>,
    montoTotal: real,
    moneda: string,
    estado: string,
    fechaOrden: Dates.Date,
    fechaEntregaEsperada: Option<Dates.Date>,
    notas: Option<string>,
    creadoEn: int)

  /** A row of `facturas`. */
  datatype Factura = Factura(
    id: string,
    numeroFactura: string,
    ordenCompraId: string,
    nombreVendedor: string,
    emailVendedor: Option<string>,
    telefonoVendedor: Option<string>,
    montoTotal: real,
    moneda: string,
    estado: string,
    fechaFactura: Dates.Date,
    fechaVencimiento: Dates.Date,
    fechaPago: Option<Dates.Date>,
    notas: Option<string>,
    creadoEn: int)

  /** Both tables, plus the state of the connection: while `falla` holds a
      message, every request to the store fails with it. */
  datatype Db = Db(ordenes: seq<Orden>, facturas: seq<Factura>, falla: Option<string>)

  function OrdenId(o: Orden): string { o.id }
  function FacturaId(f: Factura): string { f.id }

  /** The primary key of each table holds. */
  ghost predicate IdsUnicos(db: Db) {
    Seqs.DistinctBy(db.ordenes, OrdenId) && Seqs.DistinctBy(db.facturas, FacturaId)
  }

  predicate TieneOrden(s: seq<Orden>, id: string) {
    exists o | o in s :: o.id == id
  }

  predicate TieneFactura(s: seq<Factura>, id: string) {
    exists f | f in s :: f.id == id
  }
}

=== FILE: subida.dfy ===
/** `UploadService`: the checks a document passes before it is uploaded,
    and the summary of a file shown to the user. */
module Subida {
  import opened Wrappers
  import Text
  import opened Almacenamiento

  const PrefijoImagen := "image/"

  /** `esPDF` */
  predicate EsPDF(archivo: Archivo) {
    archivo.tipo == TipoPdf
  }

  /** `esImagen`: any `image/...` MIME type. */
  predicate EsImagen(archivo: Archivo) {
    Text.StartsWith(archivo.tipo, PrefijoImagen)
  }

  /** `esArchivoValido`: a PDF or an image. */
  predicate EsArchivoValido(archivo: Archivo) {
    EsPDF(archivo) || EsImagen(archivo)
  }

  /** The upload checks agree with the storage helpers, and a file is
      never both a PDF and an image. */
  lemma ChequeosCoinciden(archivo: Archivo, maxSizeMB: Option<real>)
    ensures EsPDF(archivo) <==> ObtenerTipoArchivo(archivo)
    ensures !(EsPDF(archivo) && EsImagen(archivo))
    ensures EsArchivoValido(archivo) <==> EsPDF(archivo) != EsImagen(archivo)
    ensures ValidarTamano(archivo, maxSizeMB) == ValidarTamanoArchivo(archivo, maxSizeMB)
  {
    if EsPDF(archivo) {
      assert archivo.tipo[0] == 'a' != PrefijoImagen[0];
    }
  }

  /** `validarTamano(archivo, maxSizeMB = 10)`: the limit is inclusive,
      the default admits exactly the files of at most 10485760 bytes, and
      a limit of zero (or less) admits only the empty file or nothing. */
  function ValidarTamano(archivo: Archivo, maxSizeMB: Option<real>): (r: bool)
    ensures maxSizeMB.None? ==> (r <==> archivo.tamano <= 10485760)
    ensures maxSizeMB.Some? && archivo.tamano as real == maxSizeMB.value * 1048576.0 ==> r
    ensures maxSizeMB.Some? && maxSizeMB.value < 0.0 ==> !r
    ensures maxSizeMB == Some(0.0) ==> (r <==> archivo.tamano == 0)
  {
    var maxBytes := maxSizeMB.GetOr(LimitePorDefectoMB) * BytesPorMB;
    archivo.tamano as real <= maxBytes
  }

  /** Raising the limit never rejects a file that passed, and a smaller
      file passes wherever a larger one does. */
  lemma LimiteMonotono(archivo: Archivo, otro: Archivo, m1: real, m2: real)
    requires m1 <= m2
    ensures ValidarTamano(archivo, Some(m1)) ==> ValidarTamano(archivo, Some(m2))
    ensures otro.tamano <= archivo.tamano && ValidarTamano(archivo, Some(m1)) ==> ValidarTamano(otro, Some(m1))
  {
  }

  datatype InfoArchivo = InfoArchivo(nombre: string, tamano: nat, tipo: string, extension: string)

  /** `obtenerInfoArchivo`: name, size and type unchanged, and the
      lower-cased text after the name's last dot. */
  function ObtenerInfoArchivo(archivo: Archivo): (r: InfoArchivo)
    ensures r.nombre == archivo.nombre && r.tamano == archivo.tamano && r.tipo == archivo.tipo
    ensures '.' !in r.extension && |r.extension| <= |archivo.nombre|
    ensures r.extension == Text.Lower(archivo.nombre[|archivo.nombre| - |r.extension|..])
    ensures '.' !in archivo.nombre ==> r.extension == Text.Lower(archivo.nombre)
    ensures |archivo.nombre| > 0 && archivo.nombre[|archivo.nombre| - 1] == '.' ==> r.extension == ""
    ensures '.' in archivo.nombre ==>
      |r.extension| < |archivo.nombre| && archivo.nombre[|archivo.nombre| - |r.extension| - 1] == '.'
  {
    var ultimo := Text.AfterLast(archivo.nombre, '.');
    LowerSinPunto(ultimo);
    if '.' !in archivo.nombre then
      AfterLastSinSeparador(archivo.nombre, '.');
      InfoArchivo(archivo.nombre, archivo.tamano, archivo.tipo, Text.Lower(ultimo))
    else
      assert |ultimo| < |archivo.nombre|;
      InfoArchivo(archivo.nombre, archivo.tamano, archivo.tipo, Text.Lower(ultimo))
  }

  lemma LowerSinPunto(s: string)
    requires '.' !in s
    ensures '.' !in Text.Lower(s)
  {
    forall i | 0 <= i < |s| ensures Text.Lower(s)[i] != '.' {
      assert s[i] in s;
    }
  }

  /** Without the separator, `split(c).pop()` is the whole text. */
  lemma {:induction false} AfterLastSinSeparador(s: string, c: char)
    requires c !in s
    ensures Text.AfterLast(s, c) == s
  {
    if |s| > 0 {
      assert s[..|s| - 1] + [s[|s| - 1]] == s;
      assert forall k | 0 <= k < |s| - 1 :: s[..|s| - 1][k] == s[k];
      AfterLastSinSeparador(s[..|s| - 1], c);
    }
  }

  /** The extension reported for a stored document is the extension its
      path was generated with, lower-cased. */
  lemma ExtensionDeDocumento(tipo: TipoDocumento, numero: string, timestamp: nat, extension: Option<string>, tamano: nat, mime: string)
    requires '.' !in extension.GetOr(ExtensionPorDefecto)
    ensures ObtenerInfoArchivo(Archivo(GenerarRutaArchivo(tipo, numero, timestamp, extension), tamano, mime)).extension
            == Text.Lower(extension.GetOr(ExtensionPorDefecto))
  {
    ExtensionDeRuta(tipo, numero, timestamp, extension);
  }
}

=== FILE: text.dfy ===
/** String helpers with the JavaScript semantics the application relies on:
    `trim`, `startsWith`, `padStart`, `String(n)`, `join`, `toLowerCase` (ASCII),
    substring search and `split(c).pop()`. */
module Text {

  // ----- whitespace and trim -----

  /** The characters `String.prototype.trim` removes: ECMAScript WhiteSpace
      (including the Unicode space separators) and LineTerminator. */
  predicate IsWhitespace(c: char) {
    || c == ' ' || c == '\t' || c == '\n' || c == '\U{000B}' || c == '\U{000C}' || c == '\r'
    || c == '\U{00A0}' || c == '\U{1680}' || ('\U{2000}' <= c <= '\U{200A}')
    || c == '\U{2028}' || c == '\U{2029}' || c == '\U{202F}' || c == '\U{205F}'
    || c == '\U{3000}' || c == '\U{FEFF}'
  }

  predicate IsBlank(s: string) {
    forall i | 0 <= i < |s| :: IsWhitespace(s[i])
  }

  function TrimStart(s: string): (r: string)
    ensures |r| <= |s|
    ensures |r| == 0 || !IsWhitespace(r[0])
    ensures IsBlank(s[..|s| - |r|]) && s[|s| - |r|..] == r
  {
    if |s| > 0 && IsWhitespace(s[0]) then TrimStart(s[1..]) else s
  }

  function TrimEnd(s: string): (r: string)
    ensures |r| <= |s|
    ensures |r| == 0 || !IsWhitespace(r[|r| - 1])
    ensures IsBlank(s[|r|..]) && s[..|r|] == r
  {
    if |s| > 0 && IsWhitespace(s[|s| - 1]) then TrimEnd(s[..|s| - 1]) else s
  }

  /** `s.trim()` */
  function Trim(s: string): (r: string)
    ensures |r| <= |s|
  {
    TrimEnd(TrimStart(s))
  }

  /** `s.trim() === ''` holds exactly for the strings made only of whitespace. */
  lemma TrimEmptyIffBlank(s: string)
    ensures Trim(s) == "" <==> IsBlank(s)
  {
    var t := TrimStart(s);
    if Trim(s) == "" {
      assert t[0..] == t;
      assert s == s[..|s| - |t|] + t;
    }
  }

  // ----- prefixes and substrings -----

  predicate StartsWith(s: string, prefix: string) {
    |prefix| <= |s| && s[..|prefix|] == prefix
  }

  /** `q` occurs in `s` starting at position `i`. */
  predicate OccursAt(s: string, q: string, i: int) {
    0 <= i && i + |q| <= |s| && s[i..i + |q|] == q
  }

  /** Substring test, scanning left to right (`s.includes(q)`). */
  function Contains(s: string, q: string): bool
    decreases |s|
  {
    if StartsWith(s, q) then true
    else if |s| == 0 then false
    else Contains(s[1..], q)
  }

  /** The scan finds `q` exactly when `q` occurs at some position of `s`. */
  lemma {:induction false} ContainsIff(s: string, q: string)
    ensures Contains(s, q) <==> exists i :: OccursAt(s, q, i)
    decreases |s|
  {
    if StartsWith(s, q) {
      assert OccursAt(s, q, 0);
    } else if |s| == 0 {
    } else {
      ContainsIff(s[1..], q);
      if exists i :: OccursAt(s, q, i) {
        var i :| OccursAt(s, q, i);
        assert i != 0;
        assert s[1..][i - 1..i - 1 + |q|] == s[i..i + |q|];
        assert OccursAt(s[1..], q, i - 1);
      }
      if Contains(s[1..], q) {
        var i :| OccursAt(s[1..], q, i);
        assert s[1..][i..i + |q|] == s[i + 1..i + 1 + |q|];
        assert OccursAt(s, q, i + 1);
      }
    }
  }

  // ----- ASCII case folding -----

  function LowerChar(c: char): char {
    if 'A' <= c <= 'Z' then ((c as int) + 32) as char else c
  }

  /** `toLowerCase`, restricted to ASCII letters. */
  function Lower(s: string): (r: string)
    ensures |r| == |s|
  {
    seq(|s|, i requires 0 <= i < |s| => LowerChar(s[i]))
  }

  // ----- decimal numbers -----

  predicate IsDigit(c: char) {
    '0' <= c <= '9'
  }

  predicate AllDigits(s: string) {
    forall i | 0 <= i < |s| :: IsDigit(s[i])
  }

  function DigitChar(d: nat): (c: char)
    requires d < 10
    ensures IsDigit(c)
  {
    ((d + ('0' as int)) as char)
  }

  function DigitValue(c: char): nat
    requires IsDigit(c)
  {
    (c as int) - ('0' as int)
  }

  /** The value of a string of decimal digits (leading zeros allowed). */
  function DecimalValue(s: string): nat
    requires AllDigits(s)
  {
    if |s| == 0 then 0 else DecimalValue(s[..|s| - 1]) * 10 + DigitValue(s[|s| - 1])
  }

  /** `String(n)` for a non-negative integer: its decimal digits, no leading zero. */
  function NatToString(n: nat): (r: string)
    ensures |r| >= 1 && AllDigits(r)
    ensures n > 0 ==> r[0] != '0'
  {
    if n < 10 then [DigitChar(n)] else NatToString(n / 10) + [DigitChar(n % 10)]
  }

  /** Reading back the digits of `String(n)` gives `n`. */
  lemma {:induction false} NatToStringRoundTrip(n: nat)
    ensures DecimalValue(NatToString(n)) == n
  {
    if n >= 10 {
      NatToStringRoundTrip(n / 10);
      var s := NatToString(n);
      assert s[..|s| - 1] == NatToString(n / 10);
      assert DigitValue(s[|s| - 1]) == n % 10;
      assert DecimalValue(s) == (n / 10) * 10 + n % 10;
    }
  }

  /** `String(n)` has at most `w` digits when `n < 10^w`. */
  lemma {:induction false} NatToStringLength(n: nat, w: nat)
    requires n < Pow10(w)
    ensures |NatToString(n)| <= if w == 0 then 1 else w
  {
    if n >= 10 {
      NatToStringLength(n / 10, w - 1);
    }
  }

  function Pow10(w: nat): (r: nat)
    ensures r >= 1
  {
    if w == 0 then 1 else 10 * Pow10(w - 1)
  }

  /** The last `w` decimal digits of `n`, zero-filled on the left. */
  function Digits(n: nat, w: nat): (r: string)
    ensures |r| == w && AllDigits(r)
  {
    if w == 0 then "" else Digits(n / 10, w - 1) + [DigitChar(n % 10)]
  }

  lemma {:induction false} DigitsRoundTrip(n: nat, w: nat)
    requires n < Pow10(w)
    ensures DecimalValue(Digits(n, w)) == n
  {
    if w > 0 {
      assert n / 10 < Pow10(w - 1);
      DigitsRoundTrip(n / 10, w - 1);
      var s := Digits(n, w);
      assert s[..|s| - 1] == Digits(n / 10, w - 1);
      assert DigitValue(s[|s| - 1]) == n % 10;
      assert DecimalValue(s) == (n / 10) * 10 + n % 10;
    }
  }

  lemma {:induction false} DecimalValueBound(s: string)
    requires AllDigits(s)
    ensures DecimalValue(s) < Pow10(|s|)
  {
    if |s| > 0 {
      DecimalValueBound(s[..|s| - 1]);
    }
  }

  lemma {:induction false} DigitsOfValue(s: string)
    requires AllDigits(s)
    ensures Digits(DecimalValue(s), |s|) == s
  {
    if |s| > 0 {
      var init := s[..|s| - 1];
      DigitsOfValue(init);
      var v := DecimalValue(s);
      assert v / 10 == DecimalValue(init);
      assert v % 10 == DigitValue(s[|s| - 1]);
      assert s == init + [s[|s| - 1]];
    }
  }

  /** A leading zero does not change the value of a digit string. */
  lemma {:induction false} LeadingZero(s: string)
    requires AllDigits(s)
    ensures AllDigits("0" + s) && DecimalValue("0" + s) == DecimalValue(s)
  {
    if |s| > 0 {
      LeadingZero(s[..|s| - 1]);
      assert ("0" + s)[..|"0" + s| - 1] == "0" + s[..|s| - 1];
    }
  }

  // ----- padding -----

  function Repeat(c: char, n: nat): (r: string)
    ensures |r| == n && forall i | 0 <= i < n :: r[i] == c
  {
    seq(n, _ => c)
  }

  /** `s.padStart(width, c)` for a one-character fill string. */
  function PadStart(s: string, width: nat, c: char): (r: string)
    ensures |r| == if |s| >= width then |s| else width
    ensures r[|r| - |s|..] == s
    ensures forall i | 0 <= i < |r| - |s| :: r[i] == c
  {
    if |s| >= width then s else Repeat(c, width - |s|) + s
  }

  /** Zero padding keeps the value of a digit string. */
  lemma {:induction false} ZeroPadValue(s: string, width: nat)
    requires AllDigits(s)
    ensures AllDigits(PadStart(s, width, '0'))
    ensures DecimalValue(PadStart(s, width, '0')) == DecimalValue(s)
    decreases width - |s|
  {
    if |s| < width {
      ZeroPadValue("0" + s, width);
      LeadingZero(s);
      assert PadStart("0" + s, width, '0') == PadStart(s, width, '0');
    }
  }

  // ----- joining and splitting -----

  /** `parts.join(sep)` */
  function Join(parts: seq<string>, sep: string): string {
    if |parts| == 0 then ""
    else if |parts| == 1 then parts[0]
    else parts[0] + sep + Join(parts[1..], sep)
  }

  /** Joining two runs of parts is joining the two joins, with one
      separator between them when both are non-empty. */
  lemma {:induction false} JoinAppend(a: seq<string>, b: seq<string>, sep: string)
    ensures Join(a + b, sep) ==
      if |a| == 0 then Join(b, sep) else if |b| == 0 then Join(a, sep) else Join(a, sep) + sep + Join(b, sep)
  {
    if |a| == 0 {
      assert a + b == b;
    } else if |b| == 0 {
      assert a + b == a;
    } else if |a| == 1 {
      assert (a + b)[1..] == b;
    } else {
      JoinAppend(a[1..], b, sep);
      assert (a + b)[1..] == a[1..] + b;
    }
  }

  /** The last piece of `s.split(c)`: the text after the last `c`, or all of
      `s` when it has no `c`. */
  function AfterLast(s: string, c: char): (r: string)
    ensures c !in r
    ensures |r| <= |s| && s[|s| - |r|..] == r
    ensures |r| < |s| ==> s[|s| - |r| - 1] == c
  {
    if |s| == 0 then ""
    else if s[|s| - 1] == c then ""
    else AfterLast(s[..|s| - 1], c) + [s[|s| - 1]]
  }
}

=== FILE: wrappers.dfy ===
/** Failure-carrying datatypes shared by the whole model. */
module Wrappers {

  /** A value that may be absent (a JavaScript `undefined` field). */
  datatype Option<+T> = None | Some(value: T) {
    function GetOr(default: T): T {
      match this
      case Some(v) => v
      case None => default
    }
  }

  /** Either a value or an error; `Err` stands for a thrown exception. */
  datatype Result<+T, +E> = Ok(value: T) | Err(error: E)
}
